=== FILE: README.md ===
# Smart-board screen-capture monitor: a Dafny model of its core rules

The program is a desktop monitor for a classroom smart board. A background
thread grabs the whole screen, or only the foreground window of chosen
processes, at a fixed interval. Every image goes into a deduplicating RAM
buffer. The buffer is flushed to dated folders when it is full, when a listed
save time is reached, or on demand. Settings live in an INI file, and a log
manager keeps a capped list of messages.

This project states those rules as pure Dafny functions over immutable
values and proves what they promise. Time, hashing, the file system, the
process table and Qt are parameters.

| file | module | what it models |
|---|---|---|
| wrappers.dfy | `Wrappers` | `Option` |
| py_str.dfy | `PyStr` | `str.strip`, ASCII `lower`, `split` and `join` on one character, `in`, Python slice bounds |
| py_num.dfy | `PyNum` | `str(n)`, `int(s)` and `int(float(s))` on decimal text |
| str_order.dfy | `StrOrder` | Python's `<` on strings, and `sorted` |
| naming.dfy | `Naming` | the date-folder name, the capture file name, `HH:MM`, the log timestamp, and parsers that read them back |
| paths.dfy | `Paths` | Windows `os.path.isabs` and `basename`, `os.path.join` for parts without drive-relative forms, plus the fallback screenshot root |
| capture_buffer.dfy | `CaptureBuffer` | `BufferManager`: add, drain, resize |
| process_names.dfy | `ProcessNames` | parsing the comma list, substring matching for the foreground window, equality matching on the settings page, the present/missing report, the monitor-target label |
| monitor_thread.dfy | `MonitorThread` | `MonitorThread.run` as a sequence of passes |
| app.dfy | `App` | the process list handed to the thread, the next save time, `check_save_times`, `handle_capture` |
| gui_lists.dfy | `GuiLists` | the process-name history and the save-time list |
| config.dfy | `Config` | `load_config` coercions, `save_config`, `get_absolute_path` |
| log_store.dfy | `LogStore` | `LogManager` |

The code's quirks are modelled as written:
- The new hash is recorded before a forced flush clears the hash set.
- A resize leaves the hash set and `buffer_count` alone.
- `Queue(maxsize=n)` with `n <= 0` is unbounded.
- `logs[-0:]` keeps every entry.
- The foreground-window path matches names by substring; the settings page matches them by equality.
- `start_monitoring` tests the unstripped process text.
- An empty save-time list comes back from the INI file as the defaults.

## Model

| member | source | states |
|---|---|---|
| CaptureBuffer.NewBuffer | modules/buffer.py:22-37 | A new buffer is empty, with capacity 100, no hashes seen, a zero count and the given save path. It is not full. |
| CaptureBuffer.DateDir | modules/buffer.py:113-119 | The folder a capture is filed under is named by the date folder name, and lies under the save path, or under the fallback root after a permission error. |
| CaptureBuffer.PersistItem | modules/buffer.py:175-215 | One drained item is saved at its own path, or at the same file name under the fallback root. The fallback is used after a permission error on its folder, or when the first write raises and the backup write succeeds. An image that does not decode is skipped without a write. The item fails exactly when the folder cannot be made (either one), or a decoded image's first write and its backup both fail. |
| CaptureBuffer.WriteItem | modules/buffer.py:193-206 | Skipped iff the image does not decode. Failed iff it decodes and both the first write and the backup fail. A saved file is at the given path or under the fallback folder, and keeps its file name. |
| CaptureBuffer.DrainAll | modules/buffer.py:168-222 | `_save_worker` on an empty queue changes nothing and emits nothing. Otherwise every item is persisted in FIFO order, each with its own file-system answers, so one failure never stops the rest. Afterwards the queue is empty, the hash set cleared and the count zero. |
| CaptureBuffer.NewItem | modules/buffer.py:100-133 | The queued item's file name is the capture's `%Y-%m-%d-%H-%M-%S.png` name. Its folder name is the date-folder name. `basename` of its path gives back the file name. It keeps the data and the hash. |
| CaptureBuffer.Recorded | modules/buffer.py:91-92 | Only a truthy hash is recorded, and nothing else. |
| CaptureBuffer.Admit | modules/buffer.py:90-98 | The hash is recorded before the full-queue check. A forced flush therefore clears it along with every earlier hash and persists the whole old queue in order. Without a flush, the only change is the new hash. |
| CaptureBuffer.Add | modules/buffer.py:78-141 | Skipped iff the hash is truthy and already seen, and then nothing changes. Otherwise a full queue is flushed first. The new item is appended after the old queue, or after nothing when flushed, and the count equals the queue length. A directory failure raises after the hash and the flush have taken effect. |
| CaptureBuffer.AddFlushes | modules/buffer.py:90-98 | A forced flush persists the old queue item by item and empties the hash set. Otherwise nothing is flushed, and an admitted image's hash joins the set. |
| CaptureBuffer.AddKeepsCapacity | modules/buffer.py:94-98 | An add never takes the queue past a positive `max_size`. |
| CaptureBuffer.Resize | modules/buffer.py:68-76 | The new capacity, and the oldest `min(len, size)` items in order (`old[:size]`; a negative size drops from the end). The hash set and the count are untouched. |
| CaptureBuffer.DuplicateBlockedInWindow | modules/buffer.py:85-92 | After an add that did not flush, an image with the same truthy hash is skipped, even if that add raised. |
| CaptureBuffer.ForcedFlushForgetsNewHash | modules/buffer.py:91-98 | The image that forced a flush has its hash cleared by that flush, so an identical image right after it is admitted. |
| CaptureBuffer.UnhashableAlwaysAdmitted | modules/buffer.py:235-243 | An image whose hash could not be computed is never a duplicate and records no hash. |
| CaptureBuffer.ResizeKeepsDuplicates | modules/buffer.py:68-76 | Hashes of items dropped by a resize still block their duplicates. |
| CaptureBuffer.ResizeLeavesCountStale | modules/buffer.py:68-76 | Shrinking below the current length leaves `buffer_count` different from the queue length. |
| CaptureBuffer.RunWithinCapacity | modules/buffer.py:68-141 | Over any sequence of adds, resizes and flushes, the queue stays within a positive capacity. |
| CaptureBuffer.RunKeepsCountAccurate | modules/buffer.py:78-222 | Without resizes, `buffer_count` always equals the queue length. |
| CaptureBuffer.FallbackKeepsName | modules/buffer.py:185-189 | The fallback path of a queued capture is its own date folder and file name under `<home>/Documents/SmartBoardScreenshots`. |
| ProcessNames.KeepNonBlank | main.py:416-419 | Keeps the stripped, non-blank pieces. None holds a comma when no piece did. The result is empty exactly when every piece is blank. |
| ProcessNames.KeepNonBlankAppend | main.py:416-419 | One more piece adds its stripped form at the end, or nothing when it is blank. |
| ProcessNames.ParseProcessList | main.py:415-419 | Every parsed name is non-empty, stripped and comma-free. |
| ProcessNames.ParseOnePiece | main.py:415-419 | Text without a comma names its stripped form, or nothing when it is blank. |
| ProcessNames.ParseLeading | main.py:415-419 | Blanks in front of the text leave the parsed names unchanged. |
| ProcessNames.ParseTrailing | main.py:415-419 | Blanks after the text leave the parsed names unchanged. |
| ProcessNames.ParseStripped | main.py:289-291 | Parsing the stripped text gives the same names as parsing the raw text. |
| ProcessNames.ParseFirstPiece | main.py:415-419 | The piece before the first comma contributes its stripped form, or nothing when blank, ahead of the names parsed from the rest. With the previous row this fixes the parse of every text. |
| ProcessNames.ParseExample | main.py:415-419 | `" a , ,b"` names `a` and `b`. |
| ProcessNames.ParseJoinRoundTrip | main.py:614-621 | Clean names joined with commas parse back to the same list. |
| ProcessNames.BlankParsesEmpty | main.py:614-621 | Blank text names no process. |
| ProcessNames.NormaliseTarget | modules/screenshot.py:63-67 | The target stripped and lowercased, with `.exe` appended exactly when it does not already end in `.exe`. The result always ends in `.exe`, is stripped and is lowercase. |
| ProcessNames.NormaliseIdempotent | modules/screenshot.py:65-67 | Normalising twice is normalising once. |
| ProcessNames.BlankTargetIsExe | modules/screenshot.py:65-67 | A whitespace-only target normalises to `.exe`. |
| ProcessNames.BlankTargetMatchesAnyExe | modules/screenshot.py:63-70 | A whitespace-only target matches every process whose name contains `.exe`. |
| ProcessNames.ContainsAny | modules/screenshot.py:63-71 | True iff some needle occurs in the name. |
| ProcessNames.NormaliseAll | modules/screenshot.py:63-67 | Each target normalised, positions kept. |
| ProcessNames.IsTargetProcess | modules/screenshot.py:56-74 | A match iff the lookup succeeded and some normalised target is a substring of the lowercased process name. No targets means no match. |
| ProcessNames.CaptureForegroundWindow | modules/screenshot.py:32-54 | No targets: the grab as it is. Non-empty targets that do not match: None. An image only comes back from a matching process, or when there are no targets. |
| ProcessNames.RunningTarget | modules/gui.py:871-875 | The settings page's lookup name is the lowercased name, with `.exe` appended exactly when the lowercased name lacks it, so it always ends in `.exe`. |
| ProcessNames.IsProcessRunning | modules/gui.py:868-885 | Running iff the process table could be read and some non-empty reported name lowercases to the lookup name. |
| ProcessNames.AnyRunning | modules/gui.py:876-882 | True iff some readable, non-empty process name lowercases to the target. |
| ProcessNames.RunningTargetIsNormalised | modules/gui.py:871-875 | For a stripped name, the settings page's lookup name equals the capture path's normalised target. |
| ProcessNames.RunningImpliesTarget | modules/gui.py:868-885 | A process the settings page reports as running would also pass the foreground-window check. |
| ProcessNames.SubstringIsNotEquality | modules/screenshot.py:69-70 | The converse fails: `pad` matches `notepad.exe` for capture but is not reported as running. |
| ProcessNames.Partition | modules/gui.py:819-826 | Present and missing names: together as many as the input, each side order-preserving, each entry on the correct side. |
| ProcessNames.CheckProcesses | modules/gui.py:800-866 | Whole-screen iff the text is blank. Otherwise the parsed names are partitioned by running state. The report is all-present iff only the present side is non-empty, and all-missing iff only the missing side is. The mixed report carries exactly the two sides of the partition, including comma-only text where both are empty. |
| ProcessNames.PartitionAllRunning | modules/gui.py:822-826 | When every name is running, all are present and none missing. |
| ProcessNames.PartitionNoneRunning | modules/gui.py:822-826 | When no name is running, all are missing and none present. |
| ProcessNames.CheckProcessesReport | modules/gui.py:819-866 | For text naming at least one process, the report is all-present iff every name is running, and all-missing iff none is. |
| ProcessNames.OnProcessChanged | main.py:287-302 | Whole screen iff the text is blank, with an empty list. Otherwise the list is the parse of the text, and the label is its one name or its count. |
| ProcessNames.MonitorTargetLabel | modules/gui.py:887-897 | Whole screen iff the text is blank or foreground detection is off. Otherwise the same label the application shows, the one name or the count of the parsed text. |
| ProcessNames.StartMonitorTarget | main.py:421-429 | Whole screen iff the raw text is empty or foreground detection is off. Otherwise the label of the parsed list. |
| ProcessNames.BlankTextLabelsDisagree | main.py:421-429 | For the text `" "` the settings page shows the whole screen but the thread's target is a count of zero. |
| ProcessNames.StartDisagreesWithLabel | main.py:421-429 | The thread's target and the settings page's label differ exactly when foreground detection is on and the text is blank but not empty. |
| MonitorThread.SelectMode | main.py:79-83 | Foreground capture iff foreground detection is on and the process list is non-empty. |
| MonitorThread.Grab | main.py:79-83 | The whole-screen mode returns the screen grab. The foreground mode returns only the window grab. |
| MonitorThread.ForegroundGrabIsTarget | modules/screenshot.py:39-41 | In the foreground mode with targets, an image is obtained only while a target process owns the window. |
| MonitorThread.Quanta | main.py:95 | `int(interval*10)` quanta for a positive whole-second interval, none otherwise. |
| MonitorThread.WaitSleeps | main.py:95-98 | The wait sleeps every quantum unless the stop flag is seen before one. It never sleeps past the poll that sees the flag. |
| MonitorThread.PassEvents | main.py:67-104 | A disabled pass only sleeps 100 ms. A raised pass logs and sleeps 1 s. A capturing pass emits its grab first when it got one, and no other image. It then sleeps `100 * WaitSleeps` ms in total, or not at all when the stop flag is seen right after the grab. It reports no error. |
| MonitorThread.Run | main.py:60-108 | The thread's events start with the start message and end with the stop message. Everything between them is the loop in the chosen mode. |
| MonitorThread.Loop | main.py:66-104 | The passes hold neither the start nor the stop message. Every emitted image was grabbed by a capturing pass. |
| MonitorThread.UpToStop | main.py:67 | The passes the loop runs are a prefix of the ticks: none but the last stops the loop, and the last stops it unless the ticks ran out. |
| MonitorThread.LoopEmitsEveryGrab | main.py:85-91 | The loop emits exactly the images its capturing passes grab, in order, up to and including the pass that stops it. |
| MonitorThread.EmittedWasGrabbed | main.py:85-87 | Every image the loop hands on was grabbed by one of its passes, which the lemma names. |
| MonitorThread.ForegroundEmitsOnlyTargets | main.py:79-87 | In the foreground mode with targets, every emitted image came from a pass whose foreground process was a target. |
| MonitorThread.DisabledOnlySleeps | main.py:70-72 | While capture is disabled, the loop does nothing but sleep 100 ms per pass. |
| MonitorThread.StopIsFinal | main.py:91-98 | The pass that sees the stop flag is the last one: later passes have no effect. |
| App.ThreadProcessNames | main.py:614-621 | The thread's process names are the parsed list, also for empty text. Every name is clean. |
| App.FirstAfter | main.py:707-710 | The index of the first sorted entry later than now: all before it are not later. |
| App.ChooseSaveTime | main.py:697-714 | No choice iff the list is empty. The chosen entry is always one of the listed strings. |
| App.ChooseSaveTimeIsNext | main.py:705-717 | Tomorrow iff no entry is later than now. The choice is then the least entry overall; otherwise it is the least entry later than now. |
| App.ParseSaveTimeOfClock | main.py:720-721 | Every `HH:MM` string the time editor writes reads back as its hour and minute. |
| App.ParseSaveTime | main.py:720-721 | A time parses exactly when it splits on `:` into two integer pieces naming an hour below 24 and a minute below 60; the result is that hour and minute. Anything else, which raises in the program, gives no time. |
| App.NextSaveTime | main.py:693-726 | Not set iff the list is empty. A bad entry is a listed entry that does not convert. A result names a listed time. |
| App.NextSaveTimeOfClocks | main.py:693-726 | For well-formed entries and clock, the next save is the earliest listed time later today, or the earliest time tomorrow when none is later. String order agrees with time order. |
| App.CheckSaveTimes | main.py:659-684 | Saves iff monitoring and the current `HH:MM` string is literally listed. A save persists every buffered item, empties the queue, and sets the next save time to what `calculate_next_save_time` gives. |
| App.SaveSchedulesLater | main.py:668-673 | A save at a listed time schedules a listed time: the earliest one later today, or, when there is none, the earliest one tomorrow. |
| App.HandleCapture | main.py:547-572 | Ignored unless monitoring with a non-empty encoding. The counter rises by one iff the buffer did not raise. The buffer is the one `add_to_buffer` leaves. |
| App.DuplicatesAreCounted | main.py:556-561 | A duplicate image still counts as a capture, and leaves the buffer unchanged. |
| App.DeliverCountBounds | main.py:547-572 | The capture counter never decreases and grows by at most one per delivery. When not monitoring, nothing changes. |
| GuiLists.AddToHistory | modules/gui.py:212-221 | A blank or present name changes nothing. A new name becomes the last entry, and the length becomes `min(len+1, 20)`. The result is always a suffix of the old history plus the name. |
| GuiLists.AddToHistoryIdempotent | modules/gui.py:212-219 | Adding the same name twice is adding it once. |
| GuiLists.AddToHistoryNoDuplicates | modules/gui.py:212-219 | The history never holds a name twice. |
| GuiLists.AddToHistoryBounded | modules/gui.py:217-219 | The history never holds more than 20 names. |
| GuiLists.SortTimeList | modules/gui.py:983-992 | The same entries, as a multiset, in ascending order. |
| GuiLists.AddTime | modules/gui.py:962-975 | A time already listed leaves the list exactly as it was, unsorted included. A new one gives the old entries plus it, sorted. |
| GuiLists.AddTimeIdempotent | modules/gui.py:962-975 | Adding a time twice is adding it once. |
| GuiLists.AddTimeInserts | modules/gui.py:971-992 | On a sorted list, adding a new time equals inserting it in place. |
| GuiLists.RemoveTime | modules/gui.py:977-981 | A valid current row is removed and every other entry kept in order. No current row changes nothing. |
| GuiLists.RemoveTimeKeepsSorted | modules/gui.py:977-981 | Removing keeps a sorted list sorted. |
| Config.LoadBool | modules/config.py:61-67 | A string is true iff it lowercases to `true`, `1` or `yes`. A list is true iff non-empty. A missing value gives the default. |
| Config.LoadInt | modules/config.py:69-78 | `int(float(text))` when that converts, otherwise the default. The default also covers a value too large for a double, whose `OverflowError` the handler around the whole key catches. |
| Config.LoadIntTruncates | modules/config.py:74 | A decimal of at most 15 digits loads truncated toward zero: `5.9` as 5, `-5.9` as -5. |
| Config.LoadIntOverflow | modules/config.py:74-76 | A number too large for a double loads as the default. |
| Config.LoadList | modules/config.py:90-96 | Non-empty text splits on commas into comma-free pieces that join back to the text. Anything else gives the default list. |
| Config.LoadText | modules/config.py:98-100 | A string loads as itself. A missing value gives the default. |
| Config.GetAbsolutePath | modules/config.py:44-54 | Empty and absolute paths are unchanged. A relative path is joined under the base directory, with the simplified join. The result always ends with the path. |
| Config.LoadConfig | modules/config.py:56-110 | Each of the ten settings is its own key's stored value, coerced by the key's type with that key's default: booleans, integers, the list, the texts. The save path is then made absolute. |
| Config.LoadEmptyStore | modules/config.py:31-42 | An empty store loads as the defaults, with the save path `screenshots` under the base directory. |
| Config.BoolText | modules/config.py:135 | A bool is written as lowercase text. |
| Config.BoolReadsBack | modules/config.py:61-67 | A written bool loads back as itself. |
| Config.IntReadsBack | modules/config.py:69-78 | A written int of magnitude at most 2^53 loads back as itself. |
| Config.StoredSavePath | modules/config.py:117-127 | An absolute save path is written in its relative form only when `relpath` succeeded and does not start with `..`. Otherwise it is written as it is. |
| Config.WriteValue | modules/config.py:129-135 | Every setting is written as text. |
| Config.SaveConfig | modules/config.py:112-141 | After a save, every setting is present as text, whatever the store held before. |
| Config.SavedLookup | modules/config.py:129-135 | Loading finds under each key what the save wrote there. |
| Config.ListRoundTrip | modules/config.py:92-96 | Comma-free entries joined and split come back, unless the joined text is empty, which gives the defaults. |
| Config.SaveLoadRoundTrip | modules/config.py:56-141 | Save then load gives back every setting, when the two numbers are at most 2^53 in magnitude, as the spin boxes ensure. The exceptions: save times whose joined text is empty come back as the defaults, and the save path comes back as the absolute form of what was written. |
| Config.EmptySaveTimesComeBackAsDefaults | modules/config.py:92-96 | An empty save-time list comes back as the four default times. |
| Config.RelativeSavePathRoundTrip | modules/config.py:106-108 | A relative save path comes back under the base directory. |
| Config.OutsideSavePathRoundTrip | modules/config.py:118-127 | An absolute save path outside the base directory comes back unchanged. |
| LogStore.NewLog | modules/logger.py:16-19 | A new log is empty with the given cap. |
| LogStore.AddLog | modules/logger.py:21-32 | The result is a suffix of the old entries plus the new one, which is last. With a positive cap, the length is `min(len+1, cap)`. A zero cap keeps everything. |
| LogStore.AddsKeepCap | modules/logger.py:27-29 | Any sequence of adds keeps a log within a positive cap. |
| LogStore.ClearLogs | modules/logger.py:38-41 | Clearing leaves no entries and the same cap. |
| LogStore.ClearThenAdd | modules/logger.py:38-41 | An add after clearing leaves exactly that entry. |
| LogStore.GetRecentLogs | modules/logger.py:54-56 | A suffix of the log: `min(len, count)` entries for a positive count, everything for count 0. |
| LogStore.RecentAfterAdd | modules/logger.py:54-56 | Right after an add, the one most recent entry is the new one. |
| LogStore.Render | modules/logger.py:46-48 | A non-empty log renders to text ending in a newline. |
| LogStore.Line | modules/logger.py:48 | A line starts with `[`, and holds a newline iff its timestamp, level or message does. |
| LogStore.RenderAppend | modules/logger.py:47-48 | Rendering two logs one after the other equals rendering them joined. |
| LogStore.RenderSplitsIntoLines | modules/logger.py:47-48 | Single-line entries render to text that splits on newlines into one formatted line per entry, in order, plus a trailing empty piece. |
| LogStore.SaveToFile | modules/logger.py:43-52 | Success writes the rendered log and leaves the log alone. Failure writes nothing and adds an ERROR entry with the failure message, as `add_log` does. The log keeps its cap, keeps a suffix of the old entries followed by the new one, and has the capped length. |
| Naming.Pad | modules/screenshot.py:113-116 | A zero-padded number has exactly the width, only digits, and denotes the number. |
| Naming.PadOrder | main.py:708 | Zero-padded numbers of one width compare as strings exactly as they compare as numbers. |
| Naming.DateString | modules/screenshot.py:116 | `%Y-%m-%d`: ten characters, dashes at 4 and 7, each field padded. |
| Naming.DateFolderName | modules/screenshot.py:108-116 | The date, `_`, then the weekday label, 13 characters in all. |
| Naming.FileName | modules/buffer.py:123 | `%Y-%m-%d-%H-%M-%S.png`: 23 characters ending in `.png`, with no path separator. |
| Naming.ClockString | main.py:664 | `%H:%M`: five characters with `:` in the middle. |
| Naming.LogTimestamp | modules/logger.py:23 | `%Y-%m-%d %H:%M:%S`: the date, a space, then the hour, minute and second, each as two digits, separated by colons. |
| Naming.WeekdayIndex | modules/screenshot.py:112-113 | A label maps to its index, 0 for 周一 and 6 for 周日. |
| Naming.WeekdayIndexRoundTrip | modules/screenshot.py:112-113 | Every weekday label maps back to its own index. |
| Naming.DateFolderNameRoundTrip | modules/screenshot.py:108-116 | The folder name determines the date and weekday it was built from. |
| Naming.FileNameRoundTrip | modules/buffer.py:123 | The file name determines the second of the capture. |
| Naming.ClockStringOrder | main.py:707-710 | Comparing two `HH:MM` strings is comparing the times of day they name. |
| Paths.IsAbs | modules/config.py:50 | A path is absolute when it starts with a separator, or when its second and third characters are a colon and a separator (`ntpath.isabs` up to Python 3.12). `C:shots` is not absolute. |
| Paths.Join | modules/buffer.py:113 | An absolute second part replaces the first. Otherwise one separator goes between the parts. The result ends with the second part. |
| Paths.Basename | modules/buffer.py:188 | The part after the last separator: separator-free, and a suffix of the path. |
| Paths.BasenameJoin | modules/buffer.py:124 | `basename(join(dir, name))` is the name. |
| PyStr.Strip | main.py:417 | `strip()` yields a stripped string no longer than the input, and is empty iff the input is blank. |
| PyStr.StripIdempotent | main.py:417 | Stripping twice is stripping once. |
| PyStr.StripSurrounded | main.py:289 | A stripped non-empty text between two runs of blanks strips to itself. |
| PyStr.StripPadded | main.py:289 | Blanks added around a text do not change its stripped form. |
| PyStr.Lower | modules/screenshot.py:61 | `lower()` keeps the length and folds each character. |
| PyStr.LowerIdempotent | modules/screenshot.py:61 | Lowering twice is lowering once. |
| PyStr.Split | modules/config.py:94 | `split(',')` never returns an empty list, its pieces hold no comma, and they join back to the input. |
| PyStr.SplitJoin | modules/config.py:133 | Comma-free pieces joined and split come back. |
| PyStr.SliceBound | modules/logger.py:29 | Python slice bounds: negatives count from the end and everything is clamped. |
| StrOrder.Sort | main.py:707 | `sorted` gives the same multiset of entries in ascending order. |
| StrOrder.Insert | modules/gui.py:971-992 | Inserting into a sorted list keeps it sorted and adds the one entry. |
| StrOrder.SortedUnique | modules/gui.py:989 | There is only one ascending arrangement of a multiset of strings. |
| StrOrder.SortSorted | modules/gui.py:989 | Sorting a sorted list changes nothing. |
| PyNum.IntToString | modules/config.py:135 | `str(n)` is stripped, with a minus sign exactly for negatives. |
| PyNum.ParseInt | main.py:720 | `int(s)` succeeds exactly when the stripped text is a digit or a sign followed by digits only, with at least one digit. Its value is that literal's value. |
| PyNum.ParseDigits | main.py:720 | A digit string converts to the number it denotes by `int`, and by `int(float(...))` when the number is at most 2^53. |
| PyNum.ParseNegativeDigits | modules/config.py:74 | A minus sign before a digit string negates its value, with the same 2^53 bound for `int(float(...))`. |
| PyNum.ParseIntToString | modules/config.py:74 | `int(str(n)) == n`, and `int(float(str(n))) == n` for magnitudes up to 2^53. |
| PyNum.ParseFloatTrunc | modules/config.py:74 | `int(float(text))` fails on blank text and on a magnitude that `float` rounds to infinity. A result is always within the finite double range. Text that converts is written with digits, signs, `.`, `e` and `E` only, and holds a digit. |
| PyNum.ParseOverflow | modules/config.py:74 | A digit string from 2^1024 - 2^970 up converts by `int` but overflows in `int(float(...))`. |
| PyNum.ParseBlank | modules/config.py:74-76 | Blank text does not convert, by either `int` or `int(float(...))`. |
| PyNum.UnsignedFloatShape | modules/config.py:74 | An unsigned float literal that converts uses only float characters and holds a digit. |
| PyNum.ForeignCharFails | modules/config.py:72-76 | A character other than a digit, a sign, `.`, `e` or `E` in the stripped text makes both `int` and `int(float(...))` fail. |
| PyNum.ParseFloatTruncDropsFraction | modules/config.py:74 | `int(float("a.b"))` with at most 15 digits drops the fraction toward zero. |

## Left out

- Paths.Join: drive letters in the second part are not modelled. Python keeps the first part's drive for a rooted second part: `join("C:\\app", "\\x")` is `C:\\x`, the model gives `\\x`. Python also resolves a drive-relative second part: `join("C:\\app", "C:shots")` is `C:\\app\\shots` and `join("C:\\app", "D:shots")` is `D:shots`; the model appends either after a separator. The program joins only date folders, file names, `Documents` and the configured save path onto directories, and only the last of these can carry a drive.
- Paths.IsAbs: follows Python 3.12 and earlier. From Python 3.13 a path with one leading separator and no drive, such as `\\x`, is no longer absolute.
- Config.GetAbsolutePath: a drive-relative save path such as `C:shots` or `D:shots` is joined under the base directory as the simplified join does it. Python gives `C:\\app\\shots` and `D:shots`, so "ends with the path" does not hold in Python for these inputs.
- Threads, timers and locking are left out: `QThread`, the auto-save thread, `QTimer` and `threading.Lock`. Each operation is one sequential step. The unlocked calls into `_save_worker` from the timer and the thread are not modelled as a race.
- Qt, PNG encoding and decoding, and window grabbing are oracles. Whether bytes decode, whether a `pixmap.save` raises, and what a grab returns arrive as parameters.
- MD5 (RFC 1321) is not computed. The hash arrives with the image as an `Option` digest.
- `os.makedirs`, `psutil`, `win32gui`, `winreg` and the INI file are answer parameters. `os.path.relpath` is an oracle (`relpath`), and so is `str()` of a list read from the INI file (`repr`).
- `os.path.expanduser("~")` is a parameter (`home`).
- Logging and status-bar messages are left out, and so are signals other than the buffer's count update.
- `datetime.now()` is a `DateTime` parameter. The two clock readings inside `add_to_buffer` (folder name and file name) are taken to be the same reading.
- The date arithmetic of "tomorrow" (`timedelta(days=1)`) is left out: only whether the next save is today or tomorrow, and its hour and minute, are modelled.
- MonitorThread.Quanta: the capture interval is whole seconds, as the settings spin box allows. `int(interval*10)` for a fractional interval is not modelled because it needs float arithmetic.
- PyNum.ParseInt: underscores, Unicode digits and the `inf` and `nan` spellings that Python's conversions accept are not modelled. Text that uses them is treated as not converting.
- PyNum.ParseFloatTrunc: the decimal's magnitude is computed exactly, not rounded to the nearest 64-bit double. Exponents such as `1e3` are accepted, and a magnitude that rounds to infinity fails as in Python. Between 2^53 and that limit, or with more than 15 digits, the model can differ from Python: `9007199254740993` gives itself where Python gives 9007199254740992, and `2.9999999999999999999` gives 2 where Python gives 3. Modelling round-to-nearest-even on 53-bit mantissas is not attempted.
- Config.LoadInt: inherits the exact conversion above. Stored numbers beyond 2^53 or with more than 15 digits may load differently in Python.
- PyNum.ParseDigits: the `int(float(...))` half is stated only up to 2^53, where a double is exact.
- PyNum.ParseNegativeDigits: the `int(float(...))` half is stated only up to 2^53, where a double is exact.
- PyNum.ParseIntToString: the `int(float(...))` half is stated only for magnitudes up to 2^53; Python loses 2^53 + 1.
- PyNum.ParseFloatTruncDropsFraction: stated only for at most 15 digits; with more, rounding can carry into the next integer (`5.9999999999999999` gives 6 in Python).
- Config.LoadIntTruncates: stated only for at most 15 digits, for the same reason.
- Config.IntReadsBack: stated only for magnitudes up to 2^53, because a larger int need not survive `float`.
- Config.SaveLoadRoundTrip: requires the buffer size and interval to be at most 2^53 in magnitude. The spin boxes limit them to 10-1000 and 1-300 (modules/gui.py:423, modules/gui.py:436).
- PyStr.Lower: only ASCII letters are folded. Python's `lower()` folds all of Unicode.
- The float branch of `load_config` is not modelled: no default setting is a float, so it never runs.
- `get_logs` is not modelled: it returns a copy, and in a model of immutable values the copy is the log itself.
- Widgets, styling, the tray, the idle detector, auto start through the registry, volume and memory estimates, and the JSON file the process history is kept in are not part of this model.
- Config.SaveLoadRoundTrip: requires save times without commas. A comma inside an entry cannot survive the join and split. The time editor only writes `HH:MM`, so every entry it writes meets this.
- Config.LoadBool: a non-string stored value other than a list (`bool(value)` of an arbitrary object) is modelled only as `Invalid`, which gives the default.

=== FILE: app.dfy ===
/**
 * The application object's decisions around the capture thread: which
 * process names it hands the thread, how it picks the next save time, when a
 * timer tick saves the buffer, and how a captured image reaches the buffer
 * and the capture counter.
 */
module App {
  import opened Wrappers
  import opened PyStr
  import opened PyNum
  import StrOrder
  import Naming
  import ProcessNames
  import CaptureBuffer

  // ---- Process names handed to the thread ----

  /**
   * The thread's `process_names` after starting or after a settings update:
   * the parsed list for non-empty text, and `[]` (the thread's default)
   * otherwise. The guard changes nothing: blank text parses to `[]` anyway.
   */
  function ThreadProcessNames(text: string): (r: seq<string>)
    ensures r == ProcessNames.ParseProcessList(text)
    ensures forall k :: 0 <= k < |r| ==> r[k] != [] && IsStripped(r[k]) && ',' !in r[k]
  {
    if text != [] then ProcessNames.ParseProcessList(text)
    else
      ProcessNames.BlankParsesEmpty(text);
      []
  }

  // ---- The next save time (`calculate_next_save_time`) ----

  /** The number of leading entries of `s` that are not later than `now`: the index of the first later one, or `|s|`. */
  function FirstAfter(s: seq<string>, now: string): (r: nat)
    ensures r <= |s|
    ensures forall i :: 0 <= i < r ==> !StrOrder.LexLess(now, s[i])
    ensures r < |s| ==> StrOrder.LexLess(now, s[r])
    decreases |s|
  {
    if |s| == 0 || StrOrder.LexLess(now, s[0]) then 0
    else 1 + FirstAfter(s[1..], now)
  }

  /** A save time and whether it is today's or tomorrow's. */
  datatype Choice = Choice(tomorrow: bool, time: string)

  /**
   * The entry `calculate_next_save_time` picks: the first entry of the sorted
   * list that is later than the current `HH:MM` string, or else tomorrow's
   * first entry; nothing for an empty list.
   */
  function ChooseSaveTime(saveTimes: seq<string>, now: string): (r: Option<Choice>)
    ensures r.None? <==> |saveTimes| == 0
    ensures r.Some? ==> r.value.time in saveTimes
  {
    if |saveTimes| == 0 then None
    else
      var sorted := StrOrder.Sort(saveTimes);
      var i := FirstAfter(sorted, now);
      var chosen := if i < |sorted| then sorted[i] else sorted[0];
      assert chosen in multiset(sorted);
      Some(Choice(i == |sorted|, chosen))
  }

  lemma SortedPosition(s: seq<string>, t: string) returns (j: nat)
    requires t in s
    ensures j < |StrOrder.Sort(s)| && StrOrder.Sort(s)[j] == t
  {
    var sorted := StrOrder.Sort(s);
    assert t in multiset(sorted);
    j :| 0 <= j < |sorted| && sorted[j] == t;
  }

  /**
   * The choice is the least entry later than `now` when there is one, and
   * otherwise (tomorrow) the least entry of all.
   */
  lemma ChooseSaveTimeIsNext(saveTimes: seq<string>, now: string)
    requires |saveTimes| > 0
    ensures var c := ChooseSaveTime(saveTimes, now).value;
      && (c.tomorrow <==> forall t :: t in saveTimes ==> !StrOrder.LexLess(now, t))
      && (!c.tomorrow ==> StrOrder.LexLess(now, c.time))
      && (!c.tomorrow ==> forall t :: t in saveTimes && StrOrder.LexLess(now, t) ==> !StrOrder.LexLess(t, c.time))
      && (c.tomorrow ==> forall t :: t in saveTimes ==> !StrOrder.LexLess(t, c.time))
  {
    var sorted := StrOrder.Sort(saveTimes);
    var i := FirstAfter(sorted, now);
    var c := ChooseSaveTime(saveTimes, now).value;
    forall t | t in saveTimes
      ensures c.tomorrow ==> !StrOrder.LexLess(now, t) && !StrOrder.LexLess(t, c.time)
      ensures !c.tomorrow && StrOrder.LexLess(now, t) ==> !StrOrder.LexLess(t, c.time)
    {
      var j := SortedPosition(saveTimes, t);
      if j == (if c.tomorrow then 0 else i) {
        StrOrder.LexLessIrreflexive(t);
      }
    }
    if !c.tomorrow {
      assert c.time in saveTimes && StrOrder.LexLess(now, c.time);
    }
  }

  /** What `calculate_next_save_time` ends with: no save time, the hour and minute of the next one, or the entry whose conversion raises. */
  datatype NextSave = NotSet | NextAt(tomorrow: bool, hour: int, minute: int) | BadEntry(entry: string)

  /**
   * `hour, minute = map(int, t.split(':'))` followed by
   * `datetime.replace(hour=..., minute=...)`: exactly two pieces, each an
   * `int` literal, naming a valid time of day.
   */
  function ParseSaveTime(t: string): (r: Option<(int, int)>)
    ensures r.Some? ==> 0 <= r.value.0 < 24 && 0 <= r.value.1 < 60
    ensures r.Some? ==> |Split(t, ':')| == 2 && ParseInt(Split(t, ':')[0]) == Some(r.value.0) && ParseInt(Split(t, ':')[1]) == Some(r.value.1)
    ensures r.Some? <==> (|Split(t, ':')| == 2 &&
      var h, m := ParseInt(Split(t, ':')[0]), ParseInt(Split(t, ':')[1]);
      h.Some? && m.Some? && 0 <= h.value < 24 && 0 <= m.value < 60)
  {
    var parts := Split(t, ':');
    if |parts| != 2 then None
    else
      match (ParseInt(parts[0]), ParseInt(parts[1]))
      case (Some(h), Some(m)) => if 0 <= h < 24 && 0 <= m < 60 then Some((h, m)) else None
      case _ => None
  }

  /** Every `HH:MM` string reads back as the time it names. */
  lemma ParseSaveTimeOfClock(h: int, m: int)
    requires 0 <= h < 24 && 0 <= m < 60
    ensures ParseSaveTime(Naming.ClockString(h, m)) == Some((h, m))
  {
    var a, b := Naming.Pad(h, 2), Naming.Pad(m, 2);
    assert Join([a, b], [':']) == Naming.ClockString(h, m);
    assert !IsDigit(':');
    SplitJoin([a, b], ':');
    ParseDigits(a);
    ParseDigits(b);
  }

  /** `calculate_next_save_time`. */
  function NextSaveTime(saveTimes: seq<string>, now: string): (r: NextSave)
    ensures r.NotSet? <==> |saveTimes| == 0
    ensures r.BadEntry? ==> r.entry in saveTimes && ParseSaveTime(r.entry).None?
    ensures r.NextAt? ==> exists t :: t in saveTimes && ParseSaveTime(t) == Some((r.hour, r.minute))
  {
    match ChooseSaveTime(saveTimes, now)
    case None => NotSet
    case Some(c) =>
      match ParseSaveTime(c.time)
      case None => BadEntry(c.time)
      case Some((h, m)) => NextAt(c.tomorrow, h, m)
  }

  /** A time of day written the way the time editor writes it. */
  ghost predicate IsClockString(t: string) {
    exists h, m :: 0 <= h < 24 && 0 <= m < 60 && t == Naming.ClockString(h, m)
  }

  /** Whether `h:m` is strictly later in the day than `h0:m0`. */
  predicate Later(h: int, m: int, h0: int, m0: int) {
    h > h0 || (h == h0 && m > m0)
  }

  /**
   * With well-formed entries and clock, the next save time is the earliest
   * listed time later today, or when there is none the earliest listed time
   * tomorrow: string order on `HH:MM` is time order.
   */
  lemma NextSaveTimeOfClocks(saveTimes: seq<string>, h0: int, m0: int)
    requires 0 <= h0 < 24 && 0 <= m0 < 60
    requires |saveTimes| > 0 && forall t :: t in saveTimes ==> IsClockString(t)
    ensures var r := NextSaveTime(saveTimes, Naming.ClockString(h0, m0));
      && r.NextAt?
      && Naming.ClockString(r.hour, r.minute) in saveTimes
      && (r.tomorrow <==> forall h, m :: 0 <= h < 24 && 0 <= m < 60 && Naming.ClockString(h, m) in saveTimes ==> !Later(h, m, h0, m0))
      && (!r.tomorrow ==> Later(r.hour, r.minute, h0, m0))
      && (forall h, m :: 0 <= h < 24 && 0 <= m < 60 && Naming.ClockString(h, m) in saveTimes && (r.tomorrow || Later(h, m, h0, m0)) ==>
            !Later(r.hour, r.minute, h, m))
  {
    var now := Naming.ClockString(h0, m0);
    ChooseSaveTimeIsNext(saveTimes, now);
    var c := ChooseSaveTime(saveTimes, now).value;
    assert IsClockString(c.time);
    var ch, cm :| 0 <= ch < 24 && 0 <= cm < 60 && c.time == Naming.ClockString(ch, cm);
    ParseSaveTimeOfClock(ch, cm);
    Naming.ClockStringOrder(h0, m0, ch, cm);
    forall h, m | 0 <= h < 24 && 0 <= m < 60 && Naming.ClockString(h, m) in saveTimes
      ensures Later(h, m, h0, m0) <==> StrOrder.LexLess(now, Naming.ClockString(h, m))
      ensures Later(ch, cm, h, m) <==> StrOrder.LexLess(Naming.ClockString(h, m), c.time)
    {
      Naming.ClockStringOrder(h0, m0, h, m);
      Naming.ClockStringOrder(h, m, ch, cm);
    }
    if !c.tomorrow {
      assert !forall t :: t in saveTimes ==> !StrOrder.LexLess(now, t);
      var t :| t in saveTimes && StrOrder.LexLess(now, t);
      assert IsClockString(t);
    }
  }

  // ---- Saving at the listed times (`check_save_times`) ----

  /** What a save-timer tick did: nothing, or a save followed by the recomputed next save time. */
  datatype SaveCheck = NotDue | Saved(drain: CaptureBuffer.DrainResult, next: NextSave)

  /**
   * `check_save_times`: only while monitoring, and only when the current
   * `HH:MM` string is literally one of the entries, the buffer is drained and
   * the next save time recomputed.
   */
  function CheckSaveTimes(monitoring: bool, now: string, saveTimes: seq<string>, b: CaptureBuffer.Buffer, home: string, drainEnv: nat -> CaptureBuffer.ItemEnv): (r: SaveCheck)
    ensures r.Saved? <==> monitoring && now in saveTimes
    ensures r.Saved? ==> |r.drain.outcomes| == |b.queue| && forall i :: 0 <= i < |b.queue| ==> r.drain.outcomes[i] == CaptureBuffer.PersistItem(home, b.queue[i], drainEnv(i))
    ensures r.Saved? ==> r.drain.buffer.queue == [] && (|b.queue| > 0 ==> r.drain.buffer.seen == {})
    ensures r.Saved? ==> r.next != NotSet && r.next == NextSaveTime(saveTimes, now)
  {
    if monitoring && now in saveTimes then
      Saved(CaptureBuffer.DrainAll(b, home, drainEnv), NextSaveTime(saveTimes, now))
    else NotDue
  }

  /**
   * A save at a listed time schedules the earliest listed time later the
   * same day, or the earliest listed time tomorrow when it was the last one.
   */
  lemma SaveSchedulesLater(monitoring: bool, saveTimes: seq<string>, h0: int, m0: int, b: CaptureBuffer.Buffer, home: string, drainEnv: nat -> CaptureBuffer.ItemEnv)
    requires 0 <= h0 < 24 && 0 <= m0 < 60
    requires forall t :: t in saveTimes ==> IsClockString(t)
    requires monitoring && Naming.ClockString(h0, m0) in saveTimes
    ensures var r := CheckSaveTimes(monitoring, Naming.ClockString(h0, m0), saveTimes, b, home, drainEnv);
      && r.Saved? && r.next.NextAt?
      && Naming.ClockString(r.next.hour, r.next.minute) in saveTimes
      && (r.next.tomorrow || Later(r.next.hour, r.next.minute, h0, m0))
      && (forall h, m :: 0 <= h < 24 && 0 <= m < 60 && Naming.ClockString(h, m) in saveTimes && (r.next.tomorrow || Later(h, m, h0, m0)) ==>
            !Later(r.next.hour, r.next.minute, h, m))
  {
    NextSaveTimeOfClocks(saveTimes, h0, m0);
  }

  // ---- Captured images (`handle_capture`) ----

  /** The application state a captured image touches. */
  datatype AppState = AppState(monitoring: bool, captureCount: int, buffer: CaptureBuffer.Buffer)

  /** `save_to_memory`'s result is used only when it is a non-empty byte string. */
  predicate Encoded(data: Option<seq<bv8>>) {
    data.Some? && |data.value| > 0
  }

  /**
   * `handle_capture`: ignored unless monitoring and the image encodes to
   * something; otherwise handed to the buffer, and counted unless the buffer
   * raised. What the buffer did before raising stays done.
   */
  function HandleCapture(app: AppState, data: Option<seq<bv8>>, env: CaptureBuffer.AddEnv, home: string, drainEnv: nat -> CaptureBuffer.ItemEnv): (r: AppState)
    requires Naming.Valid(env.now)
    ensures !app.monitoring || !Encoded(data) ==> r == app
    ensures r.monitoring == app.monitoring
    ensures r.captureCount == app.captureCount + 1 <==>
      app.monitoring && Encoded(data) && CaptureBuffer.Add(app.buffer, data.value, env, home, drainEnv).status != CaptureBuffer.AddRaised
    ensures r.captureCount == app.captureCount || r.captureCount == app.captureCount + 1
    ensures app.monitoring && Encoded(data) ==> r.buffer == CaptureBuffer.Add(app.buffer, data.value, env, home, drainEnv).buffer
  {
    if !app.monitoring || !Encoded(data) then app
    else
      var added := CaptureBuffer.Add(app.buffer, data.value, env, home, drainEnv);
      var counted := if added.status == CaptureBuffer.AddRaised then 0 else 1;
      app.(captureCount := app.captureCount + counted, buffer := added.buffer)
  }

  /** An image the buffer skips as a duplicate still counts as a capture, and leaves the buffer as it was. */
  lemma DuplicatesAreCounted(app: AppState, data: seq<bv8>, env: CaptureBuffer.AddEnv, home: string, drainEnv: nat -> CaptureBuffer.ItemEnv)
    requires Naming.Valid(env.now) && app.monitoring && |data| > 0
    requires CaptureBuffer.IsDuplicate(app.buffer, env.hash)
    ensures var r := HandleCapture(app, Some(data), env, home, drainEnv);
      r.captureCount == app.captureCount + 1 && r.buffer == app.buffer
  {
  }

  /** One delivery of a captured image to `handle_capture`. */
  datatype Delivery = Delivery(data: Option<seq<bv8>>, env: CaptureBuffer.AddEnv)

  /** Whether a delivery is counted. */
  predicate Counted(app: AppState, d: Delivery, home: string, drainEnv: nat -> CaptureBuffer.ItemEnv)
    requires Naming.Valid(d.env.now)
  {
    HandleCapture(app, d.data, d.env, home, drainEnv).captureCount != app.captureCount
  }

  function Deliver(app: AppState, ds: seq<Delivery>, home: string, drainEnv: nat -> CaptureBuffer.ItemEnv): AppState
    requires forall k :: 0 <= k < |ds| ==> Naming.Valid(ds[k].env.now)
    decreases |ds|
  {
    if |ds| == 0 then app else Deliver(HandleCapture(app, ds[0].data, ds[0].env, home, drainEnv), ds[1..], home, drainEnv)
  }

  /** The counter never goes down, and grows by at most one per delivery. */
  lemma {:induction false} DeliverCountBounds(app: AppState, ds: seq<Delivery>, home: string, drainEnv: nat -> CaptureBuffer.ItemEnv)
    requires forall k :: 0 <= k < |ds| ==> Naming.Valid(ds[k].env.now)
    ensures app.captureCount <= Deliver(app, ds, home, drainEnv).captureCount <= app.captureCount + |ds|
    ensures !app.monitoring ==> Deliver(app, ds, home, drainEnv) == app
    decreases |ds|
  {
    if |ds| > 0 {
      DeliverCountBounds(HandleCapture(app, ds[0].data, ds[0].env, home, drainEnv), ds[1..], home, drainEnv);
    }
  }
}

=== FILE: capture_buffer.dfy ===
/**
 * The deduplicating bounded capture buffer (`BufferManager`): a FIFO queue
 * of encoded captures, its capacity `max_size`, the set of hashes seen since
 * the last flush, and the `buffer_count` shown to the user.
 *
 * Hashing, the clock and every file-system call are parameters: the hash of
 * an image arrives with it (`None` when hashing raised), `makedirs` and the
 * PNG writes are described per item by an `ItemEnv`, and `home` stands for
 * `os.path.expanduser("~")`.
 */
module CaptureBuffer {
  import opened Wrappers
  import Naming
  import Paths
  import PyStr

  /** An MD5 hex digest of the encoded image. */
  type Digest = string

  /** One buffered capture: the dict `add_to_buffer` puts on the queue. */
  datatype Item = Item(data: seq<bv8>, timestamp: Naming.DateTime, filepath: string, dateStr: string, fileName: string, hash: Option<Digest>)

  datatype Buffer = Buffer(queue: seq<Item>, maxSize: int, seen: set<Digest>, count: int, savePath: string)

  const DefaultMaxSize: int := 100

  /** The state right after construction, once the save directory has been settled. */
  function NewBuffer(savePath: string): (b: Buffer)
    ensures b.queue == [] && b.seen == {} && b.count == 0 && b.maxSize == DefaultMaxSize && WithinCapacity(b)
    ensures b.savePath == savePath && !Full(b)
  {
    Buffer([], DefaultMaxSize, {}, 0, savePath)
  }

  /** `queue.Queue.full()`: a non-positive `maxsize` makes the queue unbounded. */
  predicate Full(b: Buffer) {
    0 < b.maxSize <= |b.queue|
  }

  /** The capacity bound, which only binds when `maxSize` is positive. */
  predicate WithinCapacity(b: Buffer) {
    b.maxSize >= 1 ==> |b.queue| <= b.maxSize
  }

  /** Python truthiness of the hash: `None` and the empty string are false. */
  predicate Truthy(h: Option<Digest>) {
    h.Some? && h.value != ""
  }

  /** `image_hash and image_hash in self.image_hashes` */
  predicate IsDuplicate(b: Buffer, h: Option<Digest>) {
    Truthy(h) && h.value in b.seen
  }

  // ---- Persisting one item (the body of the `_save_worker` loop) ----

  /** What `os.makedirs` did for a directory. */
  datatype DirOutcome = DirOk | DirPermissionDenied | DirFailed

  /**
   * The file system's answers while one item is persisted: creating its
   * directory, creating the fallback directory after a permission error,
   * whether the bytes decode to a non-null pixmap, whether the first
   * `pixmap.save` returned without raising, and the same two steps for the
   * backup write.
   */
  datatype ItemEnv = ItemEnv(dir: DirOutcome, fallbackDirOk: bool, decodes: bool, saveOk: bool, backupDirOk: bool, backupSaveOk: bool)

  datatype ItemOutcome = SavedAt(path: string) | SkippedUndecodable | Failed

  /** `<home>/Documents/SmartBoardScreenshots/<date_str>/<basename(filepath)>` */
  function FallbackPath(home: string, it: Item): string {
    Paths.Join(Paths.FallbackDir(home, it.dateStr), Paths.Basename(it.filepath))
  }

  /** Writing the decoded image to `path`, retrying once under the fallback root if the write raises. */
  function WriteItem(home: string, it: Item, env: ItemEnv, path: string): (r: ItemOutcome)
    ensures r == SkippedUndecodable <==> !env.decodes
    ensures r == Failed <==> env.decodes && !env.saveOk && !(env.backupDirOk && env.backupSaveOk)
    ensures r.SavedAt? ==> r.path == path || r.path == Paths.Join(Paths.FallbackDir(home, it.dateStr), Paths.Basename(path))
    ensures r.SavedAt? ==> Paths.Basename(r.path) == Paths.Basename(path)
  {
    Paths.BasenameJoin(Paths.FallbackDir(home, it.dateStr), Paths.Basename(path));
    if !env.decodes then SkippedUndecodable
    else if env.saveOk then SavedAt(path)
    else if env.backupDirOk && env.backupSaveOk then
      SavedAt(Paths.Join(Paths.FallbackDir(home, it.dateStr), Paths.Basename(path)))
    else Failed
  }

  /** One iteration of the drain loop; any exception it raises is caught and the item counts as failed. */
  function PersistItem(home: string, it: Item, env: ItemEnv): (r: ItemOutcome)
    ensures r.SavedAt? ==> r.path == it.filepath || r.path == FallbackPath(home, it)
    ensures r.SavedAt? && r.path == it.filepath && it.filepath != FallbackPath(home, it) ==> env.dir == DirOk && env.saveOk
    ensures env.dir == DirOk && env.decodes && env.saveOk ==> r == SavedAt(it.filepath)
    ensures env.dir == DirPermissionDenied && env.fallbackDirOk && env.decodes && (env.saveOk || (env.backupDirOk && env.backupSaveOk)) ==> r == SavedAt(FallbackPath(home, it))
    ensures env.dir == DirOk && env.decodes && !env.saveOk && env.backupDirOk && env.backupSaveOk ==> r == SavedAt(FallbackPath(home, it))
    ensures env.dir != DirFailed && (env.dir == DirOk || env.fallbackDirOk) && !env.decodes ==> r == SkippedUndecodable
    ensures r == Failed <==>
      || env.dir == DirFailed
      || (env.dir == DirPermissionDenied && !env.fallbackDirOk)
      || (env.decodes && !env.saveOk && !(env.backupDirOk && env.backupSaveOk))
    ensures env.dir == DirFailed ==> r == Failed
  {
    match env.dir
    case DirFailed => Failed
    case DirOk => WriteItem(home, it, env, it.filepath)
    case DirPermissionDenied =>
      if !env.fallbackDirOk then Failed
      else
        var path := FallbackPath(home, it);
        Paths.BasenameJoin(Paths.FallbackDir(home, it.dateStr), Paths.Basename(it.filepath));
        WriteItem(home, it, env, path)
  }

  /** Persists `items` in order; the i-th item sees the environment `env(i)`. */
  function PersistAll(home: string, items: seq<Item>, env: nat -> ItemEnv): (r: seq<ItemOutcome>)
    ensures |r| == |items|
  {
    seq(|items|, i requires 0 <= i < |items| => PersistItem(home, items[i], env(i)))
  }

  // ---- Draining (`_save_worker`) ----

  datatype DrainResult = DrainResult(buffer: Buffer, outcomes: seq<ItemOutcome>, updateEmitted: bool)

  /**
   * `_save_worker`: an empty queue returns at once; otherwise every item is
   * persisted in FIFO order, one item's failure never stops the rest, the
   * count is refreshed and the hash set is cleared.
   */
  function DrainAll(b: Buffer, home: string, env: nat -> ItemEnv): (r: DrainResult)
    ensures |r.outcomes| == |b.queue|
    ensures forall i :: 0 <= i < |b.queue| ==> r.outcomes[i] == PersistItem(home, b.queue[i], env(i))
    ensures |b.queue| == 0 ==> r.buffer == b && !r.updateEmitted
    ensures |b.queue| > 0 ==> r.buffer.queue == [] && r.buffer.seen == {} && r.buffer.count == 0 && r.updateEmitted
    ensures r.buffer.maxSize == b.maxSize && r.buffer.savePath == b.savePath
    ensures WithinCapacity(r.buffer)
  {
    if |b.queue| == 0 then DrainResult(b, [], false)
    else DrainResult(b.(queue := [], seen := {}, count := 0), PersistAll(home, b.queue, env), true)
  }

  // ---- Adding (`add_to_buffer`) ----

  /**
   * The inputs of one `add_to_buffer` call besides the image: the clock
   * reading, the image's hash, and how creating the date directory went
   * (and, after a permission error, the fallback directory).
   */
  datatype AddEnv = AddEnv(now: Naming.DateTime, hash: Option<Digest>, dir: DirOutcome, fallbackDirOk: bool)

  datatype AddStatus = DuplicateSkipped | Enqueued | AddRaised

  /** The buffer after the call, and the outcomes of the forced flush when there was one. */
  datatype AddResult = AddResult(status: AddStatus, buffer: Buffer, forcedFlush: bool, flushed: seq<ItemOutcome>)

  /** The queue entry for an image captured at `now` and filed under `dateDir`. */
  function NewItem(data: seq<bv8>, env: AddEnv, dateDir: string): (it: Item)
    requires Naming.Valid(env.now)
    ensures it.fileName == Naming.FileName(env.now) && it.dateStr == Naming.DateFolderName(env.now)
    ensures Paths.Basename(it.filepath) == it.fileName
    ensures it.hash == env.hash && it.data == data
  {
    var name := Naming.FileName(env.now);
    Paths.BasenameJoin(dateDir, name);
    Item(data, env.now, Paths.Join(dateDir, name), Naming.DateFolderName(env.now), name, env.hash)
  }

  /** The directory `add_to_buffer` files a capture under: the dated folder of the save path, or of the fallback root after a permission error. */
  function DateDir(b: Buffer, env: AddEnv, home: string): (r: string)
    requires Naming.Valid(env.now)
    ensures Paths.Basename(r) == Naming.DateFolderName(env.now)
    ensures PyStr.StartsWith(r, if env.dir == DirPermissionDenied then Paths.FallbackRoot(home) else b.savePath)
  {
    var dateStr := Naming.DateFolderName(env.now);
    Paths.BasenameJoin(if env.dir == DirPermissionDenied then Paths.FallbackRoot(home) else b.savePath, dateStr);
    if env.dir == DirPermissionDenied then Paths.FallbackDir(home, dateStr) else Paths.Join(b.savePath, dateStr)
  }

  /** The hashes `add_to_buffer` records for an image: its hash when that is truthy. */
  function Recorded(h: Option<Digest>): (r: set<Digest>)
    ensures Truthy(h) ==> h.value in r
    ensures |r| <= 1 && forall d :: d in r ==> h == Some(d) && d != ""
  {
    if Truthy(h) then {h.value} else {}
  }

  /** The part of `add_to_buffer` before the directory is created: the hash is recorded, then a full queue is drained. */
  function Admit(b: Buffer, hash: Option<Digest>, home: string, drainEnv: nat -> ItemEnv): (r: DrainResult)
    ensures Full(b) ==> r.buffer.queue == [] && r.buffer.seen == {} && r.buffer.count == 0
    ensures Full(b) ==> |r.outcomes| == |b.queue| && forall i :: 0 <= i < |b.queue| ==> r.outcomes[i] == PersistItem(home, b.queue[i], drainEnv(i))
    ensures !Full(b) ==> r.buffer == b.(seen := b.seen + Recorded(hash)) && r.outcomes == []
    ensures r.buffer.maxSize == b.maxSize && r.buffer.savePath == b.savePath
  {
    var marked := b.(seen := b.seen + Recorded(hash));
    if Full(marked) then DrainAll(marked, home, drainEnv) else DrainResult(marked, [], false)
  }

  /**
   * `add_to_buffer`: skip a duplicate; record the hash; drain everything if
   * the queue is full; create the date directory (falling back to the
   * fallback root on a permission error); enqueue. A directory error that is
   * not handled raises after the hash was recorded and after any forced flush.
   */
  function Add(b: Buffer, data: seq<bv8>, env: AddEnv, home: string, drainEnv: nat -> ItemEnv): (r: AddResult)
    requires Naming.Valid(env.now)
    ensures r.status == DuplicateSkipped <==> IsDuplicate(b, env.hash)
    ensures r.status == DuplicateSkipped ==> r.buffer == b && !r.forcedFlush && r.flushed == []
    ensures r.status != DuplicateSkipped ==> r.forcedFlush == Full(b)
    ensures r.status == Enqueued ==> r.buffer.queue == (if r.forcedFlush then [] else b.queue) + [NewItem(data, env, DateDir(b, env, home))]
    ensures r.status == Enqueued ==> r.buffer.count == |r.buffer.queue|
    ensures r.status == AddRaised ==> r.buffer.queue == (if r.forcedFlush then [] else b.queue)
    ensures r.status == AddRaised <==> !IsDuplicate(b, env.hash) && (env.dir == DirFailed || (env.dir == DirPermissionDenied && !env.fallbackDirOk))
    ensures r.buffer.maxSize == b.maxSize && r.buffer.savePath == b.savePath
  {
    if IsDuplicate(b, env.hash) then AddResult(DuplicateSkipped, b, false, [])
    else
      var forced := Full(b);
      var drained := Admit(b, env.hash, home, drainEnv);
      var held := drained.buffer;
      if env.dir == DirFailed || (env.dir == DirPermissionDenied && !env.fallbackDirOk) then
        AddResult(AddRaised, held, forced, drained.outcomes)
      else
        var it := NewItem(data, env, DateDir(b, env, home));
        AddResult(Enqueued, held.(queue := held.queue + [it], count := |held.queue| + 1), forced, drained.outcomes)
  }

  /**
   * A forced flush persists the whole old queue in order and clears the hash
   * set; otherwise nothing is flushed and an admitted image's hash joins the set.
   */
  lemma AddFlushes(b: Buffer, data: seq<bv8>, env: AddEnv, home: string, drainEnv: nat -> ItemEnv)
    requires Naming.Valid(env.now)
    ensures var r := Add(b, data, env, home, drainEnv);
      && (r.forcedFlush ==> |r.flushed| == |b.queue| && forall i :: 0 <= i < |b.queue| ==> r.flushed[i] == PersistItem(home, b.queue[i], drainEnv(i)))
      && (!r.forcedFlush ==> r.flushed == [])
      && (r.forcedFlush ==> r.buffer.seen == {})
      && (r.status != DuplicateSkipped && !r.forcedFlush ==> r.buffer.seen == b.seen + Recorded(env.hash))
  {
  }

  /** Adding never takes the queue past a positive capacity: a full queue is drained first. */
  lemma AddKeepsCapacity(b: Buffer, data: seq<bv8>, env: AddEnv, home: string, drainEnv: nat -> ItemEnv)
    requires Naming.Valid(env.now) && WithinCapacity(b)
    ensures WithinCapacity(Add(b, data, env, home, drainEnv).buffer)
  {
  }

  // ---- Resizing (`set_buffer_size`) ----

  /**
   * `set_buffer_size(size)`: the new capacity, and the oldest `size` items
   * kept in order (`old_buffer[:size]`, so a negative size drops from the
   * end). The hash set and `buffer_count` are left as they were.
   */
  function Resize(b: Buffer, size: int): (r: Buffer)
    ensures r.maxSize == size && r.seen == b.seen && r.count == b.count && r.savePath == b.savePath
    ensures 0 <= size ==> r.queue == b.queue[..if size < |b.queue| then size else |b.queue|]
    ensures size < 0 ==> r.queue == b.queue[..if |b.queue| + size < 0 then 0 else |b.queue| + size]
    ensures WithinCapacity(r)
  {
    b.(maxSize := size, queue := PyStr.SliceTo(b.queue, size))
  }

  // ---- Properties across calls ----

  /**
   * Within one unflushed window a recorded hash blocks its duplicates: after
   * an Add that did not force a flush, an image with the same hash is
   * skipped. This holds even when the first Add raised, since the hash is
   * recorded before the date directory is created.
   */
  lemma DuplicateBlockedInWindow(b: Buffer, data: seq<bv8>, env: AddEnv, data2: seq<bv8>, env2: AddEnv, home: string, drainEnv: nat -> ItemEnv)
    requires Naming.Valid(env.now) && Naming.Valid(env2.now)
    requires Truthy(env.hash) && env2.hash == env.hash && !Full(b)
    ensures Add(Add(b, data, env, home, drainEnv).buffer, data2, env2, home, drainEnv).status == DuplicateSkipped
  {
  }

  /**
   * The hash of an image that forced a flush is cleared by that flush, so an
   * identical image arriving right after it is admitted again.
   */
  lemma ForcedFlushForgetsNewHash(b: Buffer, data: seq<bv8>, env: AddEnv, data2: seq<bv8>, env2: AddEnv, home: string, drainEnv: nat -> ItemEnv)
    requires Naming.Valid(env.now) && Naming.Valid(env2.now)
    requires Full(b) && !IsDuplicate(b, env.hash) && env2.hash == env.hash
    ensures Add(b, data, env, home, drainEnv).forcedFlush
    ensures Add(Add(b, data, env, home, drainEnv).buffer, data2, env2, home, drainEnv).status != DuplicateSkipped
  {
  }

  /** An image whose hash could not be computed is never treated as a duplicate, and leaves the hash set as it was unless a flush cleared it. */
  lemma UnhashableAlwaysAdmitted(b: Buffer, data: seq<bv8>, env: AddEnv, home: string, drainEnv: nat -> ItemEnv)
    requires Naming.Valid(env.now) && env.hash.None?
    ensures Add(b, data, env, home, drainEnv).status != DuplicateSkipped
    ensures Add(b, data, env, home, drainEnv).buffer.seen == (if Full(b) then {} else b.seen)
  {
  }

  /** Shrinking the buffer keeps the hash set, so the hashes of dropped items still block their duplicates. */
  lemma ResizeKeepsDuplicates(b: Buffer, size: int, h: Option<Digest>)
    requires IsDuplicate(b, h)
    ensures IsDuplicate(Resize(b, size), h)
  {
  }

  /** Shrinking below the current length leaves `buffer_count` stale: it no longer equals the queue length. */
  lemma ResizeLeavesCountStale(b: Buffer, size: int)
    requires b.count == |b.queue| && 0 <= size < |b.queue|
    ensures Resize(b, size).count != |Resize(b, size).queue|
  {
  }

  /** The calls that change the buffer. */
  datatype Op = AddOp(data: seq<bv8>, env: AddEnv) | ResizeOp(size: int) | DrainOp

  predicate ValidOp(op: Op) {
    op.AddOp? ==> Naming.Valid(op.env.now)
  }

  function Step(b: Buffer, op: Op, home: string, drainEnv: nat -> ItemEnv): Buffer
    requires ValidOp(op)
  {
    match op
    case AddOp(data, env) => Add(b, data, env, home, drainEnv).buffer
    case ResizeOp(size) => Resize(b, size)
    case DrainOp => DrainAll(b, home, drainEnv).buffer
  }

  /** The buffer after a sequence of calls, each flush seeing the same file-system answers. */
  function Run(b: Buffer, ops: seq<Op>, home: string, drainEnv: nat -> ItemEnv): Buffer
    requires forall i :: 0 <= i < |ops| ==> ValidOp(ops[i])
    decreases |ops|
  {
    if |ops| == 0 then b else Run(Step(b, ops[0], home, drainEnv), ops[1..], home, drainEnv)
  }

  /** The queue never holds more than a positive `max_size`, whatever sequence of adds, resizes and flushes runs. */
  lemma {:induction false} RunWithinCapacity(b: Buffer, ops: seq<Op>, home: string, drainEnv: nat -> ItemEnv)
    requires forall i :: 0 <= i < |ops| ==> ValidOp(ops[i])
    requires WithinCapacity(b)
    ensures WithinCapacity(Run(b, ops, home, drainEnv))
    decreases |ops|
  {
    if |ops| > 0 {
      RunWithinCapacity(Step(b, ops[0], home, drainEnv), ops[1..], home, drainEnv);
    }
  }

  /** Without a resize, `buffer_count` always equals the queue length. */
  lemma {:induction false} RunKeepsCountAccurate(b: Buffer, ops: seq<Op>, home: string, drainEnv: nat -> ItemEnv)
    requires forall i :: 0 <= i < |ops| ==> ValidOp(ops[i]) && !ops[i].ResizeOp?
    requires b.count == |b.queue|
    ensures Run(b, ops, home, drainEnv).count == |Run(b, ops, home, drainEnv).queue|
    decreases |ops|
  {
    if |ops| > 0 {
      RunKeepsCountAccurate(Step(b, ops[0], home, drainEnv), ops[1..], home, drainEnv);
    }
  }

  /**
   * Captures land in the file the capture promised: an item written under
   * the fallback root keeps its own date folder and file name.
   */
  lemma FallbackKeepsName(home: string, b: Buffer, data: seq<bv8>, env: AddEnv)
    requires Naming.Valid(env.now)
    ensures FallbackPath(home, NewItem(data, env, DateDir(b, env, home)))
         == Paths.Join(Paths.FallbackDir(home, Naming.DateFolderName(env.now)), Naming.FileName(env.now))
  {
  }
}

=== FILE: config.dfy ===
/**
 * The settings file: how `ConfigManager` reads each setting out of the INI
 * store (coercing whatever text it finds to the setting's type, falling back
 * to the default) and how it writes a settings record back.
 */
module Config {
  import opened Wrappers
  import opened PyStr
  import PyNum
  import Paths

  /**
   * What the INI store hands back for a key: nothing, an invalid value, a
   * string, or a list of strings (an unquoted comma-separated entry).
   */
  datatype Stored = Missing | Invalid | Text(text: string) | TextList(items: seq<string>)

  /** The settings `default_config` lists, one per INI key. */
  datatype Key =
    | AutoStart | SilentStart | MinimizeToTray | BufferSize | CaptureInterval
    | SaveTimes | ForegroundDetection | InkDetection | ProcessNames | SavePath

  /** The key's name in the INI file. */
  function KeyName(k: Key): string {
    match k
    case AutoStart => "auto_start"
    case SilentStart => "silent_start"
    case MinimizeToTray => "minimize_to_tray"
    case BufferSize => "buffer_size"
    case CaptureInterval => "capture_interval"
    case SaveTimes => "save_times"
    case ForegroundDetection => "foreground_detection"
    case InkDetection => "ink_detection"
    case ProcessNames => "process_names"
    case SavePath => "save_path"
  }

  /** The INI store, restricted to the settings' keys (no other key is ever read). */
  type Store = map<Key, Stored>

  function Lookup(store: Store, key: Key): Stored {
    if key in store then store[key] else Missing
  }

  /** The settings record the window produces and the loader returns. */
  datatype Settings = Settings(
    autoStart: bool, silentStart: bool, minimizeToTray: bool,
    bufferSize: int, captureInterval: int, saveTimes: seq<string>,
    foregroundDetection: bool, inkDetection: bool,
    processNames: string, savePath: string)

  /** `default_config`. */
  const Defaults: Settings := Settings(
    false, false, true,
    100, 60, ["09:00", "12:00", "15:00", "18:00"],
    true, true,
    "", "screenshots")

  // ---- Reading one value (`load_config`) ----

  /** The strings that read as true, after lowercasing. */
  const TrueWords: seq<string> := ["true", "1", "yes"]

  /** A bool setting: a string is true iff it lowercases to a true word; a list is true iff non-empty; nothing gives the default. */
  function LoadBool(v: Stored, default: bool): (r: bool)
    ensures v.Text? ==> (r <==> Lower(v.text) in TrueWords)
    ensures v.TextList? ==> (r <==> |v.items| > 0)
    ensures v.Missing? || v.Invalid? ==> r == default
  {
    match v
    case Text(s) => Lower(s) in TrueWords
    case TextList(items) => |items| > 0
    case _ => default
  }

  /** An int setting: `int(float(value))`, or the default when that raises. */
  function LoadInt(v: Stored, default: int): (r: int)
    ensures v.Text? && PyNum.ParseFloatTrunc(v.text).Some? ==> r == PyNum.ParseFloatTrunc(v.text).value
    ensures !(v.Text? && PyNum.ParseFloatTrunc(v.text).Some?) ==> r == default
  {
    match v
    case Text(s) => PyNum.ParseFloatTrunc(s).GetOr(default)
    case _ => default
  }

  /**
   * `int(float(...))` accepts a decimal of at most 15 digits and truncates
   * it toward zero: `"5.0"` and `"5.9"` load as 5, `"-5.9"` as -5.
   */
  lemma LoadIntTruncates(negative: bool, whole: string, frac: string, s: string, default: int)
    requires PyNum.AllDigits(whole) && |whole| > 0 && PyNum.AllDigits(frac)
    requires |whole| + |frac| <= 15
    requires s == PyNum.SignPrefix(negative) + (whole + "." + frac)
    ensures LoadInt(Text(s), default) == PyNum.Signed(negative, PyNum.DigitsValue(whole))
  {
    PyNum.ParseFloatTruncDropsFraction(negative, whole, frac, s);
  }

  /**
   * A number too large for a double makes `int(float(...))` raise
   * `OverflowError`, which the inner handler does not catch; the handler
   * around the whole key sets the default.
   */
  lemma LoadIntOverflow(d: string, default: int)
    requires PyNum.AllDigits(d) && |d| > 0 && PyNum.DigitsValue(d) >= PyNum.DoubleOverflow
    ensures LoadInt(Text(d), default) == default
  {
    PyNum.ParseOverflow(d);
  }

  /** A list setting: a non-empty string split on commas; anything else, the empty string included, gives the default. */
  function LoadList(v: Stored, default: seq<string>): (r: seq<string>)
    ensures v.Text? && v.text != [] ==> |r| >= 1 && Join(r, ",") == v.text
    ensures v.Text? && v.text != [] ==> forall k :: 0 <= k < |r| ==> ',' !in r[k]
    ensures !(v.Text? && v.text != []) ==> r == default
  {
    if v.Text? && v.text != [] then Split(v.text, ',') else default
  }

  /** A string setting: the string itself; a list goes through `str()`, given here as `repr`. */
  function LoadText(v: Stored, default: string, repr: seq<string> -> string): (r: string)
    ensures v.Text? ==> r == v.text
    ensures v.Missing? || v.Invalid? ==> r == default
  {
    match v
    case Text(s) => s
    case TextList(items) => repr(items)
    case _ => default
  }

  /** `get_absolute_path`: empty and absolute paths as they are, relative ones under `baseDir`. */
  function GetAbsolutePath(baseDir: string, path: string): (r: string)
    ensures path == [] ==> r == []
    ensures Paths.IsAbs(path) ==> r == path
    ensures path != [] && !Paths.IsAbs(path) ==> r == Paths.Join(baseDir, path)
    ensures EndsWith(r, path)
  {
    if path == [] || Paths.IsAbs(path) then path else Paths.Join(baseDir, path)
  }

  /** `load_config`: every setting read and coerced on its own, then the save path made absolute. */
  function LoadConfig(store: Store, baseDir: string, repr: seq<string> -> string): (r: Settings)
    ensures r.autoStart == LoadBool(Lookup(store, AutoStart), Defaults.autoStart)
    ensures r.silentStart == LoadBool(Lookup(store, SilentStart), Defaults.silentStart)
    ensures r.minimizeToTray == LoadBool(Lookup(store, MinimizeToTray), Defaults.minimizeToTray)
    ensures r.bufferSize == LoadInt(Lookup(store, BufferSize), Defaults.bufferSize)
    ensures r.captureInterval == LoadInt(Lookup(store, CaptureInterval), Defaults.captureInterval)
    ensures r.saveTimes == LoadList(Lookup(store, SaveTimes), Defaults.saveTimes)
    ensures r.foregroundDetection == LoadBool(Lookup(store, ForegroundDetection), Defaults.foregroundDetection)
    ensures r.inkDetection == LoadBool(Lookup(store, InkDetection), Defaults.inkDetection)
    ensures r.processNames == LoadText(Lookup(store, ProcessNames), Defaults.processNames, repr)
    ensures r.savePath == GetAbsolutePath(baseDir, LoadText(Lookup(store, SavePath), Defaults.savePath, repr))
  {
    Settings(
      LoadBool(Lookup(store, AutoStart), Defaults.autoStart),
      LoadBool(Lookup(store, SilentStart), Defaults.silentStart),
      LoadBool(Lookup(store, MinimizeToTray), Defaults.minimizeToTray),
      LoadInt(Lookup(store, BufferSize), Defaults.bufferSize),
      LoadInt(Lookup(store, CaptureInterval), Defaults.captureInterval),
      LoadList(Lookup(store, SaveTimes), Defaults.saveTimes),
      LoadBool(Lookup(store, ForegroundDetection), Defaults.foregroundDetection),
      LoadBool(Lookup(store, InkDetection), Defaults.inkDetection),
      LoadText(Lookup(store, ProcessNames), Defaults.processNames, repr),
      GetAbsolutePath(baseDir, LoadText(Lookup(store, SavePath), Defaults.savePath, repr)))
  }

  /** A store holding none of the settings loads as the defaults, with the default save path under `baseDir`. */
  lemma LoadEmptyStore(baseDir: string, repr: seq<string> -> string)
    ensures LoadConfig(map[], baseDir, repr) == Defaults.(savePath := Paths.Join(baseDir, "screenshots"))
  {
    assert !Paths.IsAbs("screenshots");
  }

  // ---- Writing (`save_config`) ----

  /** How the INI store keeps a bool written by `setValue`. */
  function BoolText(b: bool): (r: Stored)
    ensures r.Text? && Lower(r.text) == r.text
  {
    var r := Text(if b then "true" else "false");
    assert Lower(r.text) == r.text;
    r
  }

  /** A bool written by `save_config` reads back as itself, whatever the default. */
  lemma BoolReadsBack(v: Stored, b: bool, default: bool)
    requires v == BoolText(b)
    ensures LoadBool(v, default) == b
  {
  }

  /**
   * The save path as written: an absolute path whose path relative to
   * `baseDir` (from `relpath`, None when that raises) does not start with
   * `..` is written in its relative form; every other path as it is.
   */
  function StoredSavePath(path: string, relpath: Option<string>): (r: string)
    ensures Paths.IsAbs(path) && relpath.Some? && !StartsWith(relpath.value, "..") ==> r == relpath.value
    ensures !(Paths.IsAbs(path) && relpath.Some? && !StartsWith(relpath.value, "..")) ==> r == path
  {
    if Paths.IsAbs(path) && relpath.Some? && !StartsWith(relpath.value, "..") then relpath.value else path
  }

  /** What `save_config` writes under one key: text in every case, lists joined with commas. */
  function WriteValue(c: Settings, relpath: Option<string>, k: Key): (r: Stored)
    ensures r.Text?
  {
    match k
    case AutoStart => BoolText(c.autoStart)
    case SilentStart => BoolText(c.silentStart)
    case MinimizeToTray => BoolText(c.minimizeToTray)
    case BufferSize => Text(PyNum.IntToString(c.bufferSize))
    case CaptureInterval => Text(PyNum.IntToString(c.captureInterval))
    case SaveTimes => Text(Join(c.saveTimes, ","))
    case ForegroundDetection => BoolText(c.foregroundDetection)
    case InkDetection => BoolText(c.inkDetection)
    case ProcessNames => Text(c.processNames)
    case SavePath => Text(StoredSavePath(c.savePath, relpath))
  }

  const AllKeys: set<Key> := {
    AutoStart, SilentStart, MinimizeToTray, BufferSize, CaptureInterval,
    SaveTimes, ForegroundDetection, InkDetection, ProcessNames, SavePath}

  /**
   * `save_config`: every setting is written, so the settings' part of the
   * store afterwards depends on nothing that was there before.
   */
  function SaveConfig(c: Settings, relpath: Option<string>): (r: Store)
    ensures forall k: Key :: Lookup(r, k).Text?
  {
    var r := map k | k in AllKeys :: WriteValue(c, relpath, k);
    forall k: Key ensures k in r {
      KeyListed(k);
    }
    r
  }

  lemma KeyListed(k: Key)
    ensures k in AllKeys
  {
  }

  /** What loading finds under a key after a save is what was written there. */
  lemma SavedLookup(c: Settings, relpath: Option<string>, k: Key)
    ensures Lookup(SaveConfig(c, relpath), k) == WriteValue(c, relpath, k)
  {
    KeyListed(k);
  }

  /** A list of comma-free entries whose joined text is non-empty splits back into itself. */
  lemma ListRoundTrip(items: seq<string>)
    requires forall k :: 0 <= k < |items| ==> ',' !in items[k]
    ensures LoadList(Text(Join(items, ",")), Defaults.saveTimes) == (if Join(items, ",") == [] then Defaults.saveTimes else items)
  {
    if Join(items, ",") != [] {
      assert |items| >= 1;
      SplitJoin(items, ',');
    }
  }

  /** An int written by `save_config` reads back as itself while it is exactly a double. */
  lemma IntReadsBack(v: Stored, n: int, default: int)
    requires v == Text(PyNum.IntToString(n))
    requires -PyNum.MaxExactInt <= n <= PyNum.MaxExactInt
    ensures LoadInt(v, default) == n
  {
    PyNum.ParseIntToString(n);
  }

  /** The switches load back as written. */
  lemma LoadWrittenFlags(store: Store, c: Settings, baseDir: string, relpath: Option<string>, repr: seq<string> -> string)
    requires Lookup(store, AutoStart) == WriteValue(c, relpath, AutoStart)
    requires Lookup(store, SilentStart) == WriteValue(c, relpath, SilentStart)
    requires Lookup(store, MinimizeToTray) == WriteValue(c, relpath, MinimizeToTray)
    requires Lookup(store, ForegroundDetection) == WriteValue(c, relpath, ForegroundDetection)
    requires Lookup(store, InkDetection) == WriteValue(c, relpath, InkDetection)
    ensures var l := LoadConfig(store, baseDir, repr);
      && l.autoStart == c.autoStart && l.silentStart == c.silentStart && l.minimizeToTray == c.minimizeToTray
      && l.foregroundDetection == c.foregroundDetection && l.inkDetection == c.inkDetection
  {
    BoolReadsBack(Lookup(store, AutoStart), c.autoStart, Defaults.autoStart);
    BoolReadsBack(Lookup(store, SilentStart), c.silentStart, Defaults.silentStart);
    BoolReadsBack(Lookup(store, MinimizeToTray), c.minimizeToTray, Defaults.minimizeToTray);
    BoolReadsBack(Lookup(store, ForegroundDetection), c.foregroundDetection, Defaults.foregroundDetection);
    BoolReadsBack(Lookup(store, InkDetection), c.inkDetection, Defaults.inkDetection);
  }

  /** The buffer size loads back as written. */
  lemma LoadWrittenBufferSize(store: Store, c: Settings, baseDir: string, relpath: Option<string>, repr: seq<string> -> string)
    requires Lookup(store, BufferSize) == WriteValue(c, relpath, BufferSize)
    requires -PyNum.MaxExactInt <= c.bufferSize <= PyNum.MaxExactInt
    ensures LoadConfig(store, baseDir, repr).bufferSize == c.bufferSize
  {
    IntReadsBack(Lookup(store, BufferSize), c.bufferSize, Defaults.bufferSize);
  }

  /** The process-name text loads back as written. */
  lemma LoadWrittenProcessNames(store: Store, c: Settings, baseDir: string, relpath: Option<string>, repr: seq<string> -> string)
    requires Lookup(store, ProcessNames) == WriteValue(c, relpath, ProcessNames)
    ensures LoadConfig(store, baseDir, repr).processNames == c.processNames
  {
  }

  /** The capture interval loads back as written. */
  lemma LoadWrittenInterval(store: Store, c: Settings, baseDir: string, relpath: Option<string>, repr: seq<string> -> string)
    requires Lookup(store, CaptureInterval) == WriteValue(c, relpath, CaptureInterval)
    requires -PyNum.MaxExactInt <= c.captureInterval <= PyNum.MaxExactInt
    ensures LoadConfig(store, baseDir, repr).captureInterval == c.captureInterval
  {
    IntReadsBack(Lookup(store, CaptureInterval), c.captureInterval, Defaults.captureInterval);
  }

  /** The save times load back as the joined list split again, or as the defaults when the joined text is empty. */
  lemma LoadWrittenSaveTimes(store: Store, c: Settings, baseDir: string, relpath: Option<string>, repr: seq<string> -> string)
    requires Lookup(store, SaveTimes) == WriteValue(c, relpath, SaveTimes)
    requires forall k :: 0 <= k < |c.saveTimes| ==> ',' !in c.saveTimes[k]
    ensures LoadConfig(store, baseDir, repr).saveTimes == (if Join(c.saveTimes, ",") == [] then Defaults.saveTimes else c.saveTimes)
  {
    ListRoundTrip(c.saveTimes);
  }

  /** The save path loads back as what was written, made absolute. */
  lemma LoadWrittenSavePath(store: Store, c: Settings, baseDir: string, relpath: Option<string>, repr: seq<string> -> string)
    requires Lookup(store, SavePath) == WriteValue(c, relpath, SavePath)
    ensures LoadConfig(store, baseDir, repr).savePath == GetAbsolutePath(baseDir, StoredSavePath(c.savePath, relpath))
  {
    LoadStoredPath(store, baseDir, repr, StoredSavePath(c.savePath, relpath));
  }

  lemma LoadStoredPath(store: Store, baseDir: string, repr: seq<string> -> string, p: string)
    requires Lookup(store, SavePath) == Text(p)
    ensures LoadConfig(store, baseDir, repr).savePath == GetAbsolutePath(baseDir, p)
  {
  }

  /**
   * Saving then loading gives back every setting, except that a save-time
   * list whose joined text is empty comes back as the default list, and the
   * save path comes back as `get_absolute_path` of what was written. The
   * two numbers must be exactly doubles, as the settings spin boxes
   * (1 to 300 seconds, 10 to 1000 images) guarantee.
   */
  lemma SaveLoadRoundTrip(c: Settings, baseDir: string, relpath: Option<string>, repr: seq<string> -> string)
    requires forall k :: 0 <= k < |c.saveTimes| ==> ',' !in c.saveTimes[k]
    requires -PyNum.MaxExactInt <= c.bufferSize <= PyNum.MaxExactInt
    requires -PyNum.MaxExactInt <= c.captureInterval <= PyNum.MaxExactInt
    ensures var l := LoadConfig(SaveConfig(c, relpath), baseDir, repr);
      && l.(saveTimes := c.saveTimes, savePath := c.savePath) == c
      && l.saveTimes == (if Join(c.saveTimes, ",") == [] then Defaults.saveTimes else c.saveTimes)
      && l.savePath == GetAbsolutePath(baseDir, StoredSavePath(c.savePath, relpath))
  {
    var saved := SaveConfig(c, relpath);
    SavedLookup(c, relpath, AutoStart);
    SavedLookup(c, relpath, SilentStart);
    SavedLookup(c, relpath, MinimizeToTray);
    SavedLookup(c, relpath, BufferSize);
    SavedLookup(c, relpath, CaptureInterval);
    SavedLookup(c, relpath, SaveTimes);
    SavedLookup(c, relpath, ForegroundDetection);
    SavedLookup(c, relpath, InkDetection);
    SavedLookup(c, relpath, ProcessNames);
    SavedLookup(c, relpath, SavePath);
    LoadWrittenFlags(saved, c, baseDir, relpath, repr);
    LoadWrittenBufferSize(saved, c, baseDir, relpath, repr);
    LoadWrittenInterval(saved, c, baseDir, relpath, repr);
    LoadWrittenProcessNames(saved, c, baseDir, relpath, repr);
    LoadWrittenSaveTimes(saved, c, baseDir, relpath, repr);
    LoadWrittenSavePath(saved, c, baseDir, relpath, repr);
  }

  /** An empty save-time list does not survive a save and load: the four default times come back. */
  lemma EmptySaveTimesComeBackAsDefaults(c: Settings, baseDir: string, relpath: Option<string>, repr: seq<string> -> string)
    requires c.saveTimes == []
    ensures LoadConfig(SaveConfig(c, relpath), baseDir, repr).saveTimes == Defaults.saveTimes
  {
    SavedLookup(c, relpath, SaveTimes);
    LoadWrittenSaveTimes(SaveConfig(c, relpath), c, baseDir, relpath, repr);
  }

  /** A relative save path is written as it is and read back under `baseDir`. */
  lemma RelativeSavePathRoundTrip(c: Settings, baseDir: string, relpath: Option<string>, repr: seq<string> -> string)
    requires c.savePath != [] && !Paths.IsAbs(c.savePath)
    ensures LoadConfig(SaveConfig(c, relpath), baseDir, repr).savePath == Paths.Join(baseDir, c.savePath)
  {
    SavedLookup(c, relpath, SavePath);
    LoadWrittenSavePath(SaveConfig(c, relpath), c, baseDir, relpath, repr);
  }

  /** An absolute save path outside `baseDir` (or one `relpath` cannot express) reads back unchanged. */
  lemma OutsideSavePathRoundTrip(c: Settings, baseDir: string, relpath: Option<string>, repr: seq<string> -> string)
    requires Paths.IsAbs(c.savePath)
    requires relpath.None? || StartsWith(relpath.value, "..")
    ensures LoadConfig(SaveConfig(c, relpath), baseDir, repr).savePath == c.savePath
  {
    SavedLookup(c, relpath, SavePath);
    LoadWrittenSavePath(SaveConfig(c, relpath), c, baseDir, relpath, repr);
  }
}

=== FILE: gui_lists.dfy ===
/**
 * The two editable lists of the settings window: the history of process
 * names typed by the user, and the list of daily save times.
 */
module GuiLists {
  import opened PyStr
  import StrOrder
  import Naming

  // ---- Process-name history (`add_to_process_history`) ----

  /** How many names the history keeps. */
  const HistoryLimit: int := 20

  predicate NoDuplicates<T(==)>(s: seq<T>) {
    forall i, j :: 0 <= i < j < |s| ==> s[i] != s[j]
  }

  /**
   * `add_to_process_history`: the stripped name is appended when it is
   * non-empty and new, and then only the last 20 names are kept.
   */
  function AddToHistory(history: seq<string>, name: string): (r: seq<string>)
    ensures Strip(name) == [] || Strip(name) in history ==> r == history
    ensures Strip(name) != [] && Strip(name) !in history ==>
      |r| > 0 && r[|r| - 1] == Strip(name) && |r| == (if |history| + 1 > HistoryLimit then HistoryLimit else |history| + 1)
    ensures r != history ==> r == (history + [Strip(name)])[|history| + 1 - |r|..]
  {
    var s := Strip(name);
    if s == [] || s in history then history
    else
      var grown := history + [s];
      var r := if |grown| > HistoryLimit then SliceFrom(grown, -HistoryLimit) else grown;
      r
  }

  /** Entering the same name twice in a row has the effect of entering it once. */
  lemma AddToHistoryIdempotent(history: seq<string>, name: string)
    ensures AddToHistory(AddToHistory(history, name), name) == AddToHistory(history, name)
  {
    var r := AddToHistory(history, name);
    if Strip(name) != [] && Strip(name) !in history {
      assert r[|r| - 1] in r;
    }
  }

  /** A history without repeated names keeps that property. */
  lemma AddToHistoryNoDuplicates(history: seq<string>, name: string)
    requires NoDuplicates(history)
    ensures NoDuplicates(AddToHistory(history, name))
  {
    var s := Strip(name);
    if s != [] && s !in history {
      var grown := history + [s];
      assert NoDuplicates(grown) by {
        forall i, j | 0 <= i < j < |grown|
          ensures grown[i] != grown[j]
        {
          if j == |history| {
            assert grown[i] == history[i];
          }
        }
      }
    }
  }

  /** A history within the limit stays within it. */
  lemma AddToHistoryBounded(history: seq<string>, name: string)
    requires |history| <= HistoryLimit
    ensures |AddToHistory(history, name)| <= HistoryLimit
  {
  }

  // ---- Save times (`on_add_time_clicked`, `on_remove_time_clicked`, `sort_time_list`) ----

  /** The list the settings window starts with. */
  const DefaultSaveTimes: seq<string> := ["09:00", "12:00", "15:00", "18:00"]

  /** `sort_time_list`: the entries in ascending string order. */
  function SortTimeList(times: seq<string>): (r: seq<string>)
    ensures StrOrder.Sorted(r) && multiset(r) == multiset(times)
  {
    StrOrder.Sort(times)
  }

  /**
   * `on_add_time_clicked` with the time editor at `hour:minute`: an entry
   * already listed changes nothing (not even the order); a new one is added
   * and the whole list re-sorted.
   */
  function AddTime(times: seq<string>, hour: int, minute: int): (r: seq<string>)
    requires 0 <= hour < 24 && 0 <= minute < 60
    ensures Naming.ClockString(hour, minute) in times ==> r == times
    ensures Naming.ClockString(hour, minute) !in times ==>
      StrOrder.Sorted(r) && multiset(r) == multiset(times) + multiset{Naming.ClockString(hour, minute)}
  {
    var t := Naming.ClockString(hour, minute);
    if t in times then times else SortTimeList(times + [t])
  }

  /** Adding the same time twice has the effect of adding it once. */
  lemma AddTimeIdempotent(times: seq<string>, hour: int, minute: int)
    requires 0 <= hour < 24 && 0 <= minute < 60
    ensures AddTime(AddTime(times, hour, minute), hour, minute) == AddTime(times, hour, minute)
  {
    var t := Naming.ClockString(hour, minute);
    if t !in times {
      assert t in multiset(AddTime(times, hour, minute));
    }
  }

  /** Added times are kept sorted: adding to a sorted list without the time inserts it in place. */
  lemma AddTimeInserts(times: seq<string>, hour: int, minute: int)
    requires 0 <= hour < 24 && 0 <= minute < 60
    requires StrOrder.Sorted(times) && Naming.ClockString(hour, minute) !in times
    ensures AddTime(times, hour, minute) == StrOrder.Insert(times, Naming.ClockString(hour, minute))
  {
    var t := Naming.ClockString(hour, minute);
    var ins := StrOrder.Insert(times, t);
    assert multiset(times + [t]) == multiset(times) + multiset{t};
    StrOrder.SortedUnique(AddTime(times, hour, minute), ins);
  }

  /** `on_remove_time_clicked` with the list's current row: that row goes, and without a current row nothing does. */
  function RemoveTime(times: seq<string>, row: int): (r: seq<string>)
    ensures 0 <= row < |times| ==> |r| == |times| - 1 && r[..row] == times[..row] && r[row..] == times[row + 1..]
    ensures !(0 <= row < |times|) ==> r == times
    ensures multiset(r) <= multiset(times)
  {
    if 0 <= row < |times| then
      assert times == times[..row] + [times[row]] + times[row + 1..];
      times[..row] + times[row + 1..]
    else times
  }

  /** Removing keeps a sorted list sorted. */
  lemma RemoveTimeKeepsSorted(times: seq<string>, row: int)
    requires StrOrder.Sorted(times)
    ensures StrOrder.Sorted(RemoveTime(times, row))
  {
    var r := RemoveTime(times, row);
    if 0 <= row < |times| {
      forall i, j | 0 <= i < j < |r|
        ensures !StrOrder.LexLess(r[j], r[i])
      {
        var i' := if i < row then i else i + 1;
        var j' := if j < row then j else j + 1;
        assert r[i] == times[i'] && r[j] == times[j'];
      }
    }
  }

  /** The default list is already in order. */
  lemma DefaultSaveTimesSorted()
    ensures StrOrder.Sorted(DefaultSaveTimes)
  {
  }
}

=== FILE: log_store.dfy ===
/**
 * The in-memory log (`LogManager`): timestamped entries appended at the end,
 * the oldest dropped beyond a cap, read back whole or in part, and written
 * to a text file one line per entry.
 */
module LogStore {
  import opened PyStr
  import Naming

  datatype Entry = Entry(timestamp: string, level: string, message: string)

  datatype Log = Log(entries: seq<Entry>, maxLogs: int)

  /** The cap `LogManager()` is created with. */
  const DefaultMaxLogs: int := 1000

  function NewLog(maxLogs: int): (r: Log)
    ensures r.entries == [] && r.maxLogs == maxLogs
  {
    Log([], maxLogs)
  }

  /** `s` is what remains of `t` after dropping some of its first elements. */
  predicate IsSuffix<T(==)>(s: seq<T>, t: seq<T>) {
    |s| <= |t| && s == t[|t| - |s|..]
  }

  /**
   * `add_log` at clock reading `now`: the entry goes at the end, and when the
   * list then exceeds the cap it is cut to `logs[-max_logs:]` (which keeps
   * everything for a cap of 0).
   */
  function AddLog(log: Log, level: string, message: string, now: Naming.DateTime): (r: Log)
    requires Naming.Valid(now)
    ensures r.maxLogs == log.maxLogs
    ensures IsSuffix(r.entries, log.entries + [Entry(Naming.LogTimestamp(now), level, message)])
    ensures log.maxLogs >= 1 ==> |r.entries| >= 1 && r.entries[|r.entries| - 1] == Entry(Naming.LogTimestamp(now), level, message)
    ensures log.maxLogs >= 1 ==> |r.entries| == (if |log.entries| + 1 > log.maxLogs then log.maxLogs else |log.entries| + 1)
    ensures log.maxLogs == 0 ==> r.entries == log.entries + [Entry(Naming.LogTimestamp(now), level, message)]
  {
    var grown := log.entries + [Entry(Naming.LogTimestamp(now), level, message)];
    var kept := if |grown| > log.maxLogs then SliceFrom(grown, 0 - log.maxLogs) else grown;
    log.(entries := kept)
  }

  /** The cap holds after any sequence of adds to a log that starts within it. */
  lemma {:induction false} AddsKeepCap(log: Log, adds: seq<(string, string, Naming.DateTime)>)
    requires log.maxLogs >= 1 && |log.entries| <= log.maxLogs
    requires forall k :: 0 <= k < |adds| ==> Naming.Valid(adds[k].2)
    ensures |AddAll(log, adds).entries| <= log.maxLogs
    ensures AddAll(log, adds).maxLogs == log.maxLogs
    decreases |adds|
  {
    if |adds| > 0 {
      AddsKeepCap(AddLog(log, adds[0].0, adds[0].1, adds[0].2), adds[1..]);
    }
  }

  function AddAll(log: Log, adds: seq<(string, string, Naming.DateTime)>): Log
    requires forall k :: 0 <= k < |adds| ==> Naming.Valid(adds[k].2)
    decreases |adds|
  {
    if |adds| == 0 then log else AddAll(AddLog(log, adds[0].0, adds[0].1, adds[0].2), adds[1..])
  }

  /** `clear_logs`: no entries, same cap. */
  function ClearLogs(log: Log): (r: Log)
    ensures r.entries == [] && r.maxLogs == log.maxLogs
  {
    log.(entries := [])
  }

  /** After clearing, a non-negative cap leaves exactly the next entry. */
  lemma ClearThenAdd(log: Log, level: string, message: string, now: Naming.DateTime)
    requires Naming.Valid(now) && log.maxLogs >= 0
    ensures AddLog(ClearLogs(log), level, message, now).entries == [Entry(Naming.LogTimestamp(now), level, message)]
  {
  }

  /**
   * `get_recent_logs(count)`: the whole list when it is not longer than
   * `count`, else `logs[-count:]`, which for a count of 0 is again the whole list.
   */
  function GetRecentLogs(log: Log, count: int): (r: seq<Entry>)
    ensures IsSuffix(r, log.entries)
    ensures count >= 1 ==> |r| == (if |log.entries| > count then count else |log.entries|)
    ensures count == 0 ==> r == log.entries
  {
    var logs := log.entries;
    if |logs| > count then SliceFrom(logs, 0 - count) else logs
  }

  /** The most recent entry is what `get_recent_logs(1)` returns right after adding it. */
  lemma RecentAfterAdd(log: Log, level: string, message: string, now: Naming.DateTime)
    requires Naming.Valid(now) && log.maxLogs >= 1
    ensures GetRecentLogs(AddLog(log, level, message, now), 1) == [Entry(Naming.LogTimestamp(now), level, message)]
  {
    var r := AddLog(log, level, message, now).entries;
    assert r[|r| - 1..] == [r[|r| - 1]];
  }

  // ---- Writing to a file (`save_to_file`) ----

  /** One line of the file, without its newline: `[timestamp] level: message`. */
  function Line(e: Entry): (r: string)
    ensures |r| >= 4 && r[0] == '['
    ensures '\n' !in r <==> '\n' !in e.timestamp && '\n' !in e.level && '\n' !in e.message
  {
    "[" + e.timestamp + "] " + e.level + ": " + e.message
  }

  /** The file contents: every entry's line followed by a newline, in order. */
  function Render(entries: seq<Entry>): (r: string)
    ensures |entries| > 0 ==> |r| > 0 && r[|r| - 1] == '\n'
  {
    if |entries| == 0 then ""
    else Line(entries[0]) + "\n" + Render(entries[1..])
  }

  /** Rendering a concatenation is concatenating the renderings. */
  lemma {:induction false} RenderAppend(a: seq<Entry>, b: seq<Entry>)
    ensures Render(a + b) == Render(a) + Render(b)
    decreases |a|
  {
    if |a| > 0 {
      RenderAppend(a[1..], b);
      assert (a + b)[1..] == a[1..] + b;
    } else {
      assert a + b == b;
    }
  }

  /** Whether no field of any entry holds a newline. */
  predicate SingleLine(entries: seq<Entry>) {
    forall k :: 0 <= k < |entries| ==> '\n' !in Line(entries[k])
  }

  /**
   * Splitting the file on newlines gives back exactly one line per entry,
   * in order, followed by the empty piece after the last newline, as long as
   * no entry spans several lines.
   */
  lemma {:induction false} RenderSplitsIntoLines(entries: seq<Entry>)
    requires SingleLine(entries)
    ensures Split(Render(entries), '\n') == seq(|entries|, k requires 0 <= k < |entries| => Line(entries[k])) + [""]
    decreases |entries|
  {
    if |entries| == 0 {
      SplitNoSep("", '\n');
    } else {
      var rest := entries[1..];
      assert SingleLine(rest) by {
        forall k | 0 <= k < |rest| ensures '\n' !in Line(rest[k]) {
          assert rest[k] == entries[k + 1];
        }
      }
      RenderSplitsIntoLines(rest);
      assert '\n' !in Line(entries[0]);
      SplitPrefix(Line(entries[0]), Render(rest), '\n');
      assert Render(entries) == Line(entries[0]) + ['\n'] + Render(rest);
    }
  }

  /** What `save_to_file` returns, the file text when it was written, and the log afterwards. */
  datatype SaveResult = SaveResult(ok: bool, written: string, log: Log)

  /** The message `save_to_file` logs on failure, before the exception text. */
  const SaveFailedPrefix: string := "保存日志失败: "

  /**
   * `save_to_file`: on success every entry is written as a line and True is
   * returned; on failure (`writeOk` false, `error` being the exception text)
   * an ERROR entry is logged and False returned.
   */
  function SaveToFile(log: Log, writeOk: bool, error: string, now: Naming.DateTime): (r: SaveResult)
    requires Naming.Valid(now)
    ensures r.ok == writeOk
    ensures r.ok ==> r.log == log && r.written == Render(log.entries)
    ensures !r.ok ==> r.log.maxLogs == log.maxLogs && r.written == []
    ensures !r.ok ==> IsSuffix(r.log.entries, log.entries + [Entry(Naming.LogTimestamp(now), "ERROR", SaveFailedPrefix + error)])
    ensures !r.ok && log.maxLogs >= 1 ==> |r.log.entries| == (if |log.entries| + 1 > log.maxLogs then log.maxLogs else |log.entries| + 1)
    ensures !r.ok && log.maxLogs == 0 ==> r.log.entries == log.entries + [Entry(Naming.LogTimestamp(now), "ERROR", SaveFailedPrefix + error)]
    ensures !r.ok && log.maxLogs >= 1 ==> |r.log.entries| >= 1 && r.log.entries[|r.log.entries| - 1] == Entry(Naming.LogTimestamp(now), "ERROR", SaveFailedPrefix + error)
  {
    if writeOk then SaveResult(true, Render(log.entries), log)
    else SaveResult(false, "", AddLog(log, "ERROR", SaveFailedPrefix + error, now))
  }
}

=== FILE: monitor_thread.dfy ===
/**
 * The capture thread (`MonitorThread.run`): a loop that, while capturing is
 * enabled, grabs the screen or the foreground window at a fixed interval and
 * hands every image it gets to the application, polling the stop flag every
 * 100 ms while it waits.
 *
 * Time and the stop flag are inputs: each pass of the loop is described by
 * a `Tick` saying what the pass observed, and the sequence of ticks ends
 * where the loop condition first sees the stop flag.
 */
module MonitorThread {
  import opened Wrappers
  import ProcessNames

  /** Which capture call a pass makes. */
  datatype Mode = WholeScreenMode | ForegroundMode(targets: seq<string>)

  /** Foreground capture is used only when it is switched on and some process name is set. */
  function SelectMode(foreground: bool, names: seq<string>): (m: Mode)
    ensures m.ForegroundMode? <==> foreground && |names| > 0
    ensures m.ForegroundMode? ==> m.targets == names
  {
    if foreground && |names| > 0 then ForegroundMode(names) else WholeScreenMode
  }

  /**
   * What one capture attempt saw: the result of `capture_screen`, the window
   * grab and the foreground process name `capture_foreground_window` would
   * use (each None when the call failed).
   */
  datatype Observation<Image> = Observation(screen: Option<Image>, window: Option<Image>, foregroundProcess: Option<string>)

  /** The image a pass obtains in the given mode (None also stands for a null pixmap). */
  function Grab<Image>(mode: Mode, obs: Observation<Image>): (r: Option<Image>)
    ensures mode.WholeScreenMode? ==> r == obs.screen
    ensures mode.ForegroundMode? && r.Some? ==> r == obs.window
  {
    match mode
    case WholeScreenMode => obs.screen
    case ForegroundMode(targets) => ProcessNames.CaptureForegroundWindow(targets, obs.foregroundProcess, obs.window)
  }

  /** In foreground mode with targets, an image is only obtained while a target process owns the foreground window. */
  lemma ForegroundGrabIsTarget<Image>(targets: seq<string>, obs: Observation<Image>)
    requires |targets| > 0 && Grab(ForegroundMode(targets), obs).Some?
    ensures ProcessNames.IsTargetProcess(obs.foregroundProcess, targets)
  {
  }

  /**
   * One pass of the loop. `stopAfterGrab` says the stop flag was set when
   * checked right after the capture; otherwise `stopAtPoll` is the number of
   * 100 ms sleeps of the wait after which the flag is first seen set (the
   * poll after the last sleep is the loop condition itself).
   */
  datatype Tick<Image> =
    | CaptureOff                        // capturing is disabled: sleep 100 ms
    | Raised                            // an exception escaped the pass: log it, sleep 1 s
    | Capture(obs: Observation<Image>, stopAfterGrab: bool, stopAtPoll: Option<nat>)

  /** What the thread does, in order. */
  datatype Event<Image> = Started | Slept(ms: nat) | Emitted(image: Image) | ErrorReported | Finished

  /** `int(self.interval * 10)` polls of 100 ms for an integral interval in seconds; none for a non-positive one. */
  function Quanta(interval: int): (n: nat)
    ensures interval > 0 ==> n == interval * 10
    ensures interval <= 0 ==> n == 0
  {
    if interval > 0 then interval * 10 else 0
  }

  /** The number of 100 ms sleeps of one wait: all of them, unless a poll sees the stop flag first. */
  function WaitSleeps(interval: int, stopAtPoll: Option<nat>): (n: nat)
    ensures n <= Quanta(interval)
    ensures stopAtPoll.Some? ==> n <= stopAtPoll.value
    ensures stopAtPoll.None? || stopAtPoll.value >= Quanta(interval) ==> n == Quanta(interval)
    ensures stopAtPoll.Some? && stopAtPoll.value < Quanta(interval) ==> n == stopAtPoll.value
  {
    if stopAtPoll.Some? && stopAtPoll.value < Quanta(interval) then stopAtPoll.value else Quanta(interval)
  }

  /** The images handed on, in order. */
  function Images<Image>(events: seq<Event<Image>>): seq<Image> {
    if |events| == 0 then []
    else (if events[0].Emitted? then [events[0].image] else []) + Images(events[1..])
  }

  /** The time slept in total, in milliseconds. */
  function SleptMs<Image>(events: seq<Event<Image>>): nat {
    if |events| == 0 then 0
    else (if events[0].Slept? then events[0].ms else 0) + SleptMs(events[1..])
  }

  lemma {:induction false} ImagesAppend<Image>(a: seq<Event<Image>>, b: seq<Event<Image>>)
    ensures Images(a + b) == Images(a) + Images(b)
  {
    if |a| > 0 {
      assert (a + b)[1..] == a[1..] + b;
      ImagesAppend(a[1..], b);
    } else {
      assert a + b == b;
    }
  }

  lemma {:induction false} SleptAppend<Image>(a: seq<Event<Image>>, b: seq<Event<Image>>)
    ensures SleptMs(a + b) == SleptMs(a) + SleptMs(b)
  {
    if |a| > 0 {
      assert (a + b)[1..] == a[1..] + b;
      SleptAppend(a[1..], b);
    } else {
      assert a + b == b;
    }
  }

  /** The image a tick's capture hands on: the grab of a capturing pass, if it got one. */
  function TickImage<Image>(grab: Observation<Image> -> Option<Image>, t: Tick<Image>): seq<Image> {
    if t.Capture? && grab(t.obs).Some? then [grab(t.obs).value] else []
  }

  /** Whether a pass ends the loop. */
  predicate StopsThread<Image>(t: Tick<Image>, interval: int) {
    t.Capture? && (t.stopAfterGrab || (t.stopAtPoll.Some? && t.stopAtPoll.value <= Quanta(interval)))
  }

  /**
   * The events of one pass; `grab` is the capture call the loop makes
   * (`Grab` in the thread's mode).
   */
  function PassEvents<Image>(grab: Observation<Image> -> Option<Image>, interval: int, t: Tick<Image>): (r: seq<Event<Image>>)
    ensures t.CaptureOff? ==> r == [Slept(100)]
    ensures t.Raised? ==> r == [ErrorReported, Slept(1000)]
    ensures forall k :: 0 <= k < |r| && r[k].Emitted? ==> t.Capture? && grab(t.obs) == Some(r[k].image)
    ensures forall k :: 0 <= k < |r| && r[k].Slept? ==> r[k].ms <= 1000 || r[k].ms <= 100 * Quanta(interval)
    ensures forall k :: 0 <= k < |r| ==> !r[k].Started? && !r[k].Finished?
    ensures t.Capture? && grab(t.obs).Some? ==> |r| >= 1 && r[0] == Emitted(grab(t.obs).value)
    ensures Images(r) == TickImage(grab, t)
    ensures t.Capture? ==> SleptMs(r) == (if t.stopAfterGrab then 0 else 100 * WaitSleeps(interval, t.stopAtPoll))
    ensures t.Capture? ==> forall k :: 0 <= k < |r| ==> !r[k].ErrorReported?
  {
    match t
    case CaptureOff => [Slept(100)]
    case Raised => [ErrorReported, Slept(1000)]
    case Capture(obs, stopAfterGrab, stopAtPoll) =>
      var img := grab(obs);
      var shown: seq<Event<Image>> := if img.Some? then [Emitted(img.value)] else [];
      assert Images(shown) == TickImage(grab, t) && SleptMs(shown) == 0;
      if stopAfterGrab then shown
      else
        var n := WaitSleeps(interval, stopAtPoll);
        var waited: seq<Event<Image>> := if n > 0 then [Slept(100 * n)] else [];
        assert Images(waited) == [] && SleptMs(waited) == 100 * n;
        ImagesAppend(shown, waited);
        SleptAppend(shown, waited);
        shown + waited
  }

  /** The passes of the loop up to the one that sees the stop flag. */
  function Loop<Image>(grab: Observation<Image> -> Option<Image>, interval: int, ticks: seq<Tick<Image>>): (r: seq<Event<Image>>)
    ensures forall k :: 0 <= k < |r| ==> !r[k].Started? && !r[k].Finished?
    ensures forall k :: 0 <= k < |r| && r[k].Emitted? ==> exists j :: 0 <= j < |ticks| && ticks[j].Capture? && grab(ticks[j].obs) == Some(r[k].image)
    decreases |ticks|
  {
    if |ticks| == 0 then []
    else if StopsThread(ticks[0], interval) then PassEvents(grab, interval, ticks[0])
    else PassEvents(grab, interval, ticks[0]) + Loop(grab, interval, ticks[1..])
  }

  /** The capture call of a mode. */
  function ModeGrab<Image>(mode: Mode): Observation<Image> -> Option<Image> {
    obs => Grab(mode, obs)
  }

  /** `run()`: the loop in the chosen mode, framed by the start and stop messages. */
  function Run<Image>(mode: Mode, interval: int, ticks: seq<Tick<Image>>): (r: seq<Event<Image>>)
    ensures |r| >= 2 && r[0] == Started && r[|r| - 1] == Finished
    ensures r[1..|r| - 1] == Loop(ModeGrab(mode), interval, ticks)
    ensures forall k :: 0 < k < |r| - 1 ==> !r[k].Started? && !r[k].Finished?
  {
    var loop := Loop(ModeGrab(mode), interval, ticks);
    var r := [Started] + loop + [Finished];
    assert r[1..|r| - 1] == loop;
    r
  }

  /** Every image the loop hands on was grabbed by one of its passes: pass `j`. */
  lemma EmittedWasGrabbed<Image>(grab: Observation<Image> -> Option<Image>, interval: int, ticks: seq<Tick<Image>>, k: nat) returns (j: nat)
    requires k < |Loop(grab, interval, ticks)| && Loop(grab, interval, ticks)[k].Emitted?
    ensures j < |ticks| && ticks[j].Capture? && grab(ticks[j].obs) == Some(Loop(grab, interval, ticks)[k].image)
  {
    var r := Loop(grab, interval, ticks);
    assert r[k].Emitted?;
    j :| 0 <= j < |ticks| && ticks[j].Capture? && grab(ticks[j].obs) == Some(r[k].image);
  }

  /** In foreground mode with a non-empty target list, every emitted image came from a target process's window. */
  lemma ForegroundEmitsOnlyTargets<Image>(targets: seq<string>, interval: int, ticks: seq<Tick<Image>>)
    requires |targets| > 0
    ensures var r := Run(ForegroundMode(targets), interval, ticks);
      forall k :: 0 <= k < |r| && r[k].Emitted? ==>
        exists j :: 0 <= j < |ticks| && ticks[j].Capture? && ProcessNames.IsTargetProcess(ticks[j].obs.foregroundProcess, targets)
  {
    var mode := ForegroundMode(targets);
    var grab := ModeGrab(mode);
    var loop := Loop(grab, interval, ticks);
    var r := Run(mode, interval, ticks);
    forall k | 0 <= k < |r| && r[k].Emitted?
      ensures exists j :: 0 <= j < |ticks| && ticks[j].Capture? && ProcessNames.IsTargetProcess(ticks[j].obs.foregroundProcess, targets)
    {
      assert r[k] == loop[k - 1];
      var j := EmittedWasGrabbed(grab, interval, ticks, k - 1);
      ForegroundGrabIsTarget(targets, ticks[j].obs);
    }
  }

  /** While capturing is disabled the thread only sleeps, 100 ms at a time. */
  lemma {:induction false} DisabledOnlySleeps<Image>(grab: Observation<Image> -> Option<Image>, interval: int, ticks: seq<Tick<Image>>)
    requires forall j :: 0 <= j < |ticks| ==> ticks[j].CaptureOff?
    ensures Loop(grab, interval, ticks) == seq(|ticks|, _ => Slept(100))
    decreases |ticks|
  {
    if |ticks| > 0 {
      DisabledOnlySleeps(grab, interval, ticks[1..]);
      assert !StopsThread(ticks[0], interval);
    }
  }

  /** A pass that sees the stop flag is the last one: what the later ticks say has no effect. */
  lemma {:induction false} StopIsFinal<Image>(grab: Observation<Image> -> Option<Image>, interval: int, ticks: seq<Tick<Image>>, k: nat)
    requires k < |ticks| && StopsThread(ticks[k], interval)
    ensures Loop(grab, interval, ticks) == Loop(grab, interval, ticks[..k + 1])
    decreases k
  {
    if k > 0 && !StopsThread(ticks[0], interval) {
      StopIsFinal(grab, interval, ticks[1..], k - 1);
      assert ticks[1..][..k] == ticks[..k + 1][1..];
    }
  }

  /** The ticks the loop runs: all of them up to and including the first that stops it. */
  function UpToStop<Image>(ticks: seq<Tick<Image>>, interval: int): (r: seq<Tick<Image>>)
    ensures |r| <= |ticks| && r == ticks[..|r|]
    ensures forall j :: 0 <= j < |r| - 1 ==> !StopsThread(r[j], interval)
    ensures |r| < |ticks| ==> |r| > 0 && StopsThread(r[|r| - 1], interval)
  {
    if |ticks| == 0 then []
    else if StopsThread(ticks[0], interval) then [ticks[0]]
    else
      var rest := UpToStop(ticks[1..], interval);
      assert forall j :: 1 <= j < |rest| + 1 ==> ([ticks[0]] + rest)[j] == rest[j - 1];
      [ticks[0]] + rest
  }

  /** The images grabbed by the capturing ticks, in order. */
  function Grabbed<Image>(grab: Observation<Image> -> Option<Image>, ticks: seq<Tick<Image>>): seq<Image> {
    if |ticks| == 0 then [] else TickImage(grab, ticks[0]) + Grabbed(grab, ticks[1..])
  }

  /**
   * The converse of `EmittedWasGrabbed`: the loop hands on exactly the
   * images its passes grab, in order, up to the pass that stops it.
   */
  lemma {:induction false} LoopEmitsEveryGrab<Image>(grab: Observation<Image> -> Option<Image>, interval: int, ticks: seq<Tick<Image>>)
    ensures Images(Loop(grab, interval, ticks)) == Grabbed(grab, UpToStop(ticks, interval))
    decreases |ticks|
  {
    if |ticks| > 0 {
      var head := PassEvents(grab, interval, ticks[0]);
      if StopsThread(ticks[0], interval) {
        assert Grabbed(grab, [ticks[0]]) == TickImage(grab, ticks[0]) + Grabbed(grab, []);
      } else {
        var rest := Loop(grab, interval, ticks[1..]);
        ImagesAppend(head, rest);
        LoopEmitsEveryGrab(grab, interval, ticks[1..]);
        var u := UpToStop(ticks[1..], interval);
        assert ([ticks[0]] + u)[1..] == u;
      }
    }
  }
}

=== FILE: naming.dfy ===
/**
 * The date and time strings the program builds with `strftime`: the dated
 * folder name `YYYY-MM-DD_<weekday>`, the capture file name
 * `YYYY-MM-DD-HH-MM-SS.png`, the `HH:MM` clock string and the log timestamp.
 * The clock is a parameter: a `DateTime` value stands for one reading of
 * `datetime.now()`.
 */
module Naming {
  import opened Wrappers
  import opened PyNum
  import StrOrder

  /** One reading of the local clock; `weekday` is `datetime.weekday()` (0 is Monday). */
  datatype DateTime = DateTime(year: int, month: int, day: int, hour: int, minute: int, second: int, weekday: int)

  predicate IsLeapYear(y: int) {
    y % 4 == 0 && (y % 100 != 0 || y % 400 == 0)
  }

  function DaysInMonth(y: int, m: int): int
    requires 1 <= m <= 12
  {
    if m == 2 then (if IsLeapYear(y) then 29 else 28)
    else if m == 4 || m == 6 || m == 9 || m == 11 then 30
    else 31
  }

  /** The values a Python `datetime` can hold. */
  predicate Valid(t: DateTime) {
    && 1 <= t.year <= 9999 && 1 <= t.month <= 12 && 1 <= t.day <= DaysInMonth(t.year, t.month)
    && 0 <= t.hour < 24 && 0 <= t.minute < 60 && 0 <= t.second < 60
    && 0 <= t.weekday < 7
  }

  /** The weekday labels of the folder name, indexed by `datetime.weekday()`. */
  const Weekdays: seq<string> := ["周一", "周二", "周三", "周四", "周五", "周六", "周日"]

  /** `n` written with exactly `width` digits, zero-padded on the left (`%02d`, `%04d`). */
  function Pad(n: nat, width: nat): (r: string)
    requires n < Pow10(width)
    ensures |r| == width
    ensures forall k :: 0 <= k < |r| ==> IsDigit(r[k])
    ensures DigitsValue(r) == n
  {
    if width == 0 then ""
    else
      DropLastDigit(n, width);
      var r := Pad(n / 10, width - 1) + [DigitChar(n % 10)];
      assert r[..|r| - 1] == Pad(n / 10, width - 1);
      r
  }

  /** Padded numbers of one width compare as strings exactly as they compare as numbers. */
  lemma {:induction false} PadOrder(a: nat, b: nat, width: nat)
    requires a < Pow10(width) && b < Pow10(width)
    ensures StrOrder.LexLess(Pad(a, width), Pad(b, width)) <==> a < b
  {
    if width > 0 {
      DropLastDigit(a, width);
      DropLastDigit(b, width);
      var pa, pb := Pad(a / 10, width - 1), Pad(b / 10, width - 1);
      var da, db := [DigitChar(a % 10)], [DigitChar(b % 10)];
      if a / 10 == b / 10 {
        StrOrder.LexLessCommonPrefix(pa, da, db);
        assert StrOrder.LexLess(da, db) <==> a % 10 < b % 10;
      } else {
        PadInjective(a / 10, b / 10, width - 1);
        StrOrder.LexLessConcat(pa, da, pb, db);
        PadOrder(a / 10, b / 10, width - 1);
      }
    }
  }

  /** Removing the last decimal digit: the bound shrinks by a factor of ten and the order is decided by the leading digits first. */
  lemma DropLastDigit(a: nat, width: nat)
    requires width > 0 && a < Pow10(width)
    ensures a / 10 < Pow10(width - 1)
    ensures a == 10 * (a / 10) + a % 10 && 0 <= a % 10 < 10
  {
  }

  lemma PadInjective(a: nat, b: nat, width: nat)
    requires a < Pow10(width) && b < Pow10(width) && a != b
    ensures Pad(a, width) != Pad(b, width)
  {
  }

  /** `strftime("%Y-%m-%d")` */
  function DateString(t: DateTime): (r: string)
    requires Valid(t)
    ensures |r| == 10 && r[4] == '-' && r[7] == '-'
    ensures r[..4] == Pad(t.year, 4) && r[5..7] == Pad(t.month, 2) && r[8..] == Pad(t.day, 2)
  {
    Pad(t.year, 4) + "-" + Pad(t.month, 2) + "-" + Pad(t.day, 2)
  }

  /** `get_date_folder_name()`: the date followed by `_` and the weekday label. */
  function DateFolderName(t: DateTime): (r: string)
    requires Valid(t)
    ensures |r| == 13
    ensures r[..10] == DateString(t) && r[10] == '_' && r[11..] == Weekdays[t.weekday]
    ensures forall k :: 0 <= k < |r| ==> r[k] != '/' && r[k] != '\\'
  {
    assert |Weekdays[t.weekday]| == 2;
    DateString(t) + "_" + Weekdays[t.weekday]
  }

  /** `strftime("%Y-%m-%d-%H-%M-%S.png")`: the file name of a capture. */
  function FileName(t: DateTime): (r: string)
    requires Valid(t)
    ensures |r| == 23 && r[19..] == ".png"
    ensures forall k :: 0 <= k < |r| ==> r[k] != '/' && r[k] != '\\'
  {
    DateString(t) + "-" + Pad(t.hour, 2) + "-" + Pad(t.minute, 2) + "-" + Pad(t.second, 2) + ".png"
  }

  /** `strftime("%H:%M")` */
  function ClockString(hour: int, minute: int): (r: string)
    requires 0 <= hour < 24 && 0 <= minute < 60
    ensures |r| == 5 && r[2] == ':'
  {
    Pad(hour, 2) + ":" + Pad(minute, 2)
  }

  /** `strftime("%Y-%m-%d %H:%M:%S")`, the timestamp of a log entry. */
  function LogTimestamp(t: DateTime): (r: string)
    requires Valid(t)
    ensures |r| == 19 && r[..10] == DateString(t) && r[10] == ' '
    ensures r[11..13] == Pad(t.hour, 2) && r[13] == ':' && r[14..16] == Pad(t.minute, 2) && r[16] == ':' && r[17..] == Pad(t.second, 2)
  {
    DateString(t) + " " + Pad(t.hour, 2) + ":" + Pad(t.minute, 2) + ":" + Pad(t.second, 2)
  }

  // ---- Reading the names back ----

  /** The value of the `width` characters of `s` starting at `at`, if they are all digits. */
  function DigitsAt(s: string, at: nat, width: nat): Option<nat> {
    if at + width <= |s| && forall k :: at <= k < at + width ==> IsDigit(s[k]) then
      Some(DigitsValue(s[at..at + width]))
    else None
  }

  /** The index of a weekday label, if `s` is one. */
  function WeekdayIndex(s: string): (r: Option<int>)
    ensures r.Some? ==> 0 <= r.value < 7 && Weekdays[r.value] == s
  {
    if s == Weekdays[0] then Some(0) else if s == Weekdays[1] then Some(1)
    else if s == Weekdays[2] then Some(2) else if s == Weekdays[3] then Some(3)
    else if s == Weekdays[4] then Some(4) else if s == Weekdays[5] then Some(5)
    else if s == Weekdays[6] then Some(6) else None
  }

  lemma WeekdayIndexRoundTrip(w: int)
    requires 0 <= w < 7
    ensures WeekdayIndex(Weekdays[w]) == Some(w)
  {
    if w == 0 {
    } else if w == 1 {
    } else if w == 2 {
    } else if w == 3 {
    } else if w == 4 {
    } else if w == 5 {
    } else {
    }
  }

  /** (year, month, day, weekday) read back from a folder name. */
  function ParseDateFolderName(s: string): Option<(int, int, int, int)> {
    if |s| != 13 || s[4] != '-' || s[7] != '-' || s[10] != '_' then None
    else
      var y, m, d, w := DigitsAt(s, 0, 4), DigitsAt(s, 5, 2), DigitsAt(s, 8, 2), WeekdayIndex(s[11..]);
      if y.Some? && m.Some? && d.Some? && w.Some? then Some((y.value, m.value, d.value, w.value)) else None
  }

  /** (year, month, day, hour, minute, second) read back from a capture file name. */
  function ParseFileName(s: string): Option<(int, int, int, int, int, int)> {
    if |s| != 23 || s[4] != '-' || s[7] != '-' || s[10] != '-' || s[13] != '-' || s[16] != '-' || s[19..] != ".png" then None
    else
      var y, mo, d := DigitsAt(s, 0, 4), DigitsAt(s, 5, 2), DigitsAt(s, 8, 2);
      var h, mi, sec := DigitsAt(s, 11, 2), DigitsAt(s, 14, 2), DigitsAt(s, 17, 2);
      if y.Some? && mo.Some? && d.Some? && h.Some? && mi.Some? && sec.Some? then
        Some((y.value, mo.value, d.value, h.value, mi.value, sec.value))
      else None
  }

  /** A padded number embedded in a string is read back by `DigitsAt`. */
  lemma DigitsAtPad(s: string, at: nat, n: nat, width: nat)
    requires n < Pow10(width) && at + width <= |s| && s[at..at + width] == Pad(n, width)
    ensures DigitsAt(s, at, width) == Some(n)
  {
    forall k | at <= k < at + width
      ensures IsDigit(s[k])
    {
      assert s[k] == s[at..at + width][k - at];
    }
  }

  /** The folder name determines the date and weekday it was built from. */
  lemma DateFolderNameRoundTrip(t: DateTime)
    requires Valid(t)
    ensures ParseDateFolderName(DateFolderName(t)) == Some((t.year, t.month, t.day, t.weekday))
  {
    var s := DateFolderName(t);
    FolderNameDigits(t);
    FolderNameSeparators(t);
    WeekdayIndexRoundTrip(t.weekday);
    ParseDateFolderNameParts(s, t.year, t.month, t.day, t.weekday);
  }

  lemma FolderNameDigits(t: DateTime)
    requires Valid(t)
    ensures DigitsAt(DateFolderName(t), 0, 4) == Some(t.year)
    ensures DigitsAt(DateFolderName(t), 5, 2) == Some(t.month)
    ensures DigitsAt(DateFolderName(t), 8, 2) == Some(t.day)
  {
    var s, d := DateFolderName(t), DateString(t);
    DateStringDigits(t);
    DigitsAtPrefix(s, d, 0, 4);
    DigitsAtPrefix(s, d, 5, 2);
    DigitsAtPrefix(s, d, 8, 2);
  }

  lemma DateStringDigits(t: DateTime)
    requires Valid(t)
    ensures DigitsAt(DateString(t), 0, 4) == Some(t.year)
    ensures DigitsAt(DateString(t), 5, 2) == Some(t.month)
    ensures DigitsAt(DateString(t), 8, 2) == Some(t.day)
  {
    var d := DateString(t);
    DigitsAtPad(d, 0, t.year, 4);
    DigitsAtPad(d, 5, t.month, 2);
    DigitsAtPad(d, 8, t.day, 2);
  }

  /** Digits inside a prefix read the same in the whole string. */
  lemma DigitsAtPrefix(s: string, p: string, at: nat, width: nat)
    requires |p| <= |s| && s[..|p|] == p && at + width <= |p|
    ensures DigitsAt(s, at, width) == DigitsAt(p, at, width)
  {
    forall k | at <= k < at + width
      ensures s[k] == p[k]
    {
      assert s[k] == s[..|p|][k];
    }
    assert s[at..at + width] == p[at..at + width];
  }

  lemma FolderNameSeparators(t: DateTime)
    requires Valid(t)
    ensures var s := DateFolderName(t); |s| == 13 && s[4] == '-' && s[7] == '-' && s[10] == '_' && s[11..] == Weekdays[t.weekday]
  {
    var s := DateFolderName(t);
    assert s[4] == s[..10][4] && s[7] == s[..10][7];
  }

  lemma ParseDateFolderNameParts(s: string, y: int, m: int, d: int, w: int)
    requires |s| == 13 && s[4] == '-' && s[7] == '-' && s[10] == '_'
    requires DigitsAt(s, 0, 4) == Some(y) && DigitsAt(s, 5, 2) == Some(m) && DigitsAt(s, 8, 2) == Some(d)
    requires WeekdayIndex(s[11..]) == Some(w)
    ensures ParseDateFolderName(s) == Some((y, m, d, w))
  {
  }

  /** The file name determines the second it was captured in. */
  lemma FileNameRoundTrip(t: DateTime)
    requires Valid(t)
    ensures ParseFileName(FileName(t)) == Some((t.year, t.month, t.day, t.hour, t.minute, t.second))
  {
    var s := FileName(t);
    assert s[0..4] == Pad(t.year, 4);
    assert s[5..7] == Pad(t.month, 2);
    assert s[8..10] == Pad(t.day, 2);
    assert s[11..13] == Pad(t.hour, 2);
    assert s[14..16] == Pad(t.minute, 2);
    assert s[17..19] == Pad(t.second, 2);
    DigitsAtPad(s, 0, t.year, 4);
    DigitsAtPad(s, 5, t.month, 2);
    DigitsAtPad(s, 8, t.day, 2);
    DigitsAtPad(s, 11, t.hour, 2);
    DigitsAtPad(s, 14, t.minute, 2);
    DigitsAtPad(s, 17, t.second, 2);
  }

  /** Comparing two `HH:MM` strings as strings is comparing the times of day they name. */
  lemma ClockStringOrder(h1: int, m1: int, h2: int, m2: int)
    requires 0 <= h1 < 24 && 0 <= m1 < 60 && 0 <= h2 < 24 && 0 <= m2 < 60
    ensures StrOrder.LexLess(ClockString(h1, m1), ClockString(h2, m2)) <==> (h1 < h2 || (h1 == h2 && m1 < m2))
  {
    var a, b := Pad(h1, 2), Pad(h2, 2);
    if h1 == h2 {
      StrOrder.LexLessCommonPrefix(a + ":", Pad(m1, 2), Pad(m2, 2));
      PadOrder(m1, m2, 2);
      assert ClockString(h1, m1) == (a + ":") + Pad(m1, 2);
      assert ClockString(h2, m2) == (a + ":") + Pad(m2, 2);
    } else {
      PadInjective(h1, h2, 2);
      StrOrder.LexLessConcat(a, ":" + Pad(m1, 2), b, ":" + Pad(m2, 2));
      PadOrder(h1, h2, 2);
      assert ClockString(h1, m1) == a + (":" + Pad(m1, 2));
      assert ClockString(h2, m2) == b + (":" + Pad(m2, 2));
    }
  }
}

=== FILE: paths.dfy ===
/**
 * The Windows path operations the program uses (`os.path.join`,
 * `os.path.basename`, `os.path.isabs`) on plain strings, and the fixed
 * fallback directory used when the configured save path is not writable.
 */
module Paths {
  import PyStr

  /** Both slashes separate path components on Windows. */
  predicate IsSep(c: char) {
    c == '\\' || c == '/'
  }

  predicate HasNoSep(s: string) {
    forall k :: 0 <= k < |s| ==> !IsSep(s[k])
  }

  /**
   * `os.path.isabs` as `ntpath` decides it up to Python 3.12: rooted at a
   * separator, or any character followed by `:` and a separator. A
   * drive-relative path such as `C:shots` is not absolute.
   */
  predicate IsAbs(p: string) {
    || (|p| >= 1 && IsSep(p[0]))
    || (|p| >= 3 && p[1] == ':' && IsSep(p[2]))
  }

  /**
   * `os.path.join(a, b)` for parts without drive-relative forms: an absolute
   * `b` replaces `a`; otherwise one separator goes between them.
   */
  function Join(a: string, b: string): (r: string)
    ensures !IsAbs(b) && a != [] && !IsSep(a[|a| - 1]) ==> r == a + "\\" + b
    ensures IsAbs(b) ==> r == b
    ensures !IsAbs(b) ==> PyStr.StartsWith(r, a)
    ensures PyStr.EndsWith(r, b)
  {
    if IsAbs(b) || a == [] then b
    else if IsSep(a[|a| - 1]) then a + b
    else a + "\\" + b
  }

  /** The index just past the last separator of `p` (0 if there is none). */
  function LastSepEnd(p: string): (i: nat)
    ensures i <= |p|
    ensures i > 0 ==> IsSep(p[i - 1])
    ensures HasNoSep(p[i..])
  {
    if |p| == 0 then 0
    else if IsSep(p[|p| - 1]) then |p|
    else LastSepEnd(p[..|p| - 1])
  }

  /** `os.path.basename(p)`: the part after the last separator. */
  function Basename(p: string): (r: string)
    ensures HasNoSep(r) && PyStr.EndsWith(p, r)
  {
    p[LastSepEnd(p)..]
  }

  lemma {:induction false} LastSepEndAppend(a: string, b: string)
    requires HasNoSep(b)
    ensures LastSepEnd(a + b) == LastSepEnd(a)
  {
    if |b| > 0 {
      assert (a + b)[..|a + b| - 1] == a + b[..|b| - 1];
      LastSepEndAppend(a, b[..|b| - 1]);
    } else {
      assert a + b == a;
    }
  }

  /** A file name joined onto a directory is what `basename` returns. */
  lemma BasenameJoin(dir: string, name: string)
    requires HasNoSep(name)
    ensures Basename(Join(dir, name)) == name
  {
    assert !IsAbs(name);
    if dir == [] {
      assert LastSepEnd(name) == LastSepEnd([] + name) == LastSepEnd([]) by {
        LastSepEndAppend([], name);
        assert [] + name == name;
      }
    } else if IsSep(dir[|dir| - 1]) {
      LastSepEndAppend(dir, name);
      assert LastSepEnd(dir) == |dir|;
    } else {
      LastSepEndAppend(dir + "\\", name);
      assert LastSepEnd(dir + "\\") == |dir| + 1;
    }
  }

  /** `os.path.join(os.path.expanduser("~"), "Documents", "SmartBoardScreenshots")` */
  function FallbackRoot(home: string): string {
    Join(Join(home, "Documents"), "SmartBoardScreenshots")
  }

  /** The fallback root's folder for one date. */
  function FallbackDir(home: string, dateStr: string): string {
    Join(FallbackRoot(home), dateStr)
  }
}

=== FILE: process_names.dfy ===
/**
 * Process names as the program handles them: the comma-separated list typed
 * by the user, the normalisation used to match the foreground window's
 * process (substring match), the running-process check of the settings page
 * (equality match), the present/missing report, and the "monitor target"
 * label.
 */
module ProcessNames {
  import opened Wrappers
  import opened PyStr

  // ---- The comma-separated list ----

  /** Keeps the stripped form of every piece that is not blank, in order. */
  function KeepNonBlank(pieces: seq<string>): (r: seq<string>)
    ensures |r| <= |pieces|
    ensures forall k :: 0 <= k < |r| ==> r[k] != [] && IsStripped(r[k])
    ensures (forall k :: 0 <= k < |pieces| ==> ',' !in pieces[k]) ==> forall k :: 0 <= k < |r| ==> ',' !in r[k]
    ensures r == [] <==> forall k :: 0 <= k < |pieces| ==> AllSpace(pieces[k])
  {
    if |pieces| == 0 then []
    else
      var head := Strip(pieces[0]);
      StripChars(pieces[0]);
      var rest := KeepNonBlank(pieces[1..]);
      assert forall k :: 1 <= k < |pieces| ==> pieces[k] == pieces[1..][k - 1];
      if head == [] then rest else [head] + rest
  }

  /** What one more piece at the end contributes: nothing if it is blank, its stripped form otherwise. */
  lemma {:induction false} KeepNonBlankAppend(pieces: seq<string>, x: string)
    ensures KeepNonBlank(pieces + [x]) == KeepNonBlank(pieces) + (if AllSpace(x) then [] else [Strip(x)])
  {
    if |pieces| == 0 {
      assert [x][1..] == [];
    } else {
      assert (pieces + [x])[1..] == pieces[1..] + [x];
      KeepNonBlankAppend(pieces[1..], x);
    }
  }

  /** `[name.strip() for name in text.split(',') if name.strip()]` */
  function ParseProcessList(text: string): (r: seq<string>)
    ensures forall k :: 0 <= k < |r| ==> r[k] != [] && IsStripped(r[k]) && ',' !in r[k]
  {
    KeepNonBlank(Split(text, ','))
  }

  /** Text without a comma is one name: its stripped form, or none when it is blank. */
  lemma ParseOnePiece(a: string)
    requires ',' !in a
    ensures ParseProcessList(a) == (if AllSpace(a) then [] else [Strip(a)])
  {
    SplitNoSep(a, ',');
  }

  /**
   * The piece before the first comma contributes its stripped form, or
   * nothing when it is blank, ahead of the names in the rest of the text.
   * With `ParseOnePiece` this determines the parse of every text.
   */
  lemma ParseFirstPiece(a: string, b: string)
    requires ',' !in a
    ensures ParseProcessList(a + [','] + b) == (if AllSpace(a) then [] else [Strip(a)]) + ParseProcessList(b)
  {
    SplitPrefix(a, b, ',');
    var pieces := [a] + Split(b, ',');
    assert pieces[1..] == Split(b, ',');
  }

  /** Blank pieces are dropped and the rest stripped: `" a , ,b"` names `a` and `b`. */
  lemma ParseExample()
    ensures ParseProcessList(" a , ,b") == ["a", "b"]
  {
    assert " a , ,b" == " a " + [','] + " ,b";
    ParseFirstPiece(" a ", " ,b");
    ParseExampleTail();
    StripExample();
  }

  lemma ParseExampleTail()
    ensures ParseProcessList(" ,b") == ["b"]
  {
    assert " ,b" == " " + [','] + "b";
    BlankPieceDropped(" ", "b");
    CleanPieceKept("b");
  }

  lemma BlankPieceDropped(a: string, b: string)
    requires ',' !in a && AllSpace(a)
    ensures ParseProcessList(a + [','] + b) == ParseProcessList(b)
  {
    ParseFirstPiece(a, b);
  }

  lemma CleanPieceKept(a: string)
    requires ',' !in a && a != [] && IsStripped(a)
    ensures ParseProcessList(a) == [a]
  {
    ParseOnePiece(a);
    StripStripped(a);
  }

  lemma StripExample()
    ensures Strip(" a ") == "a"
  {
    var s := " a ";
    assert LeadingBlanks(s[1..]) == 0;
    assert TrailingStart(s[..2]) == 2;
  }

  lemma {:induction false} KeepNonBlankOfNames(names: seq<string>)
    requires forall k :: 0 <= k < |names| ==> names[k] != [] && IsStripped(names[k])
    ensures KeepNonBlank(names) == names
  {
    if |names| > 0 {
      StripStripped(names[0]);
      KeepNonBlankOfNames(names[1..]);
    }
  }

  /** Joining clean names with commas and parsing the text gives the names back. */
  lemma ParseJoinRoundTrip(names: seq<string>)
    requires forall k :: 0 <= k < |names| ==> names[k] != [] && IsStripped(names[k]) && ',' !in names[k]
    ensures ParseProcessList(Join(names, ",")) == names
  {
    if |names| == 0 {
      assert Split("", ',') == [""];
    } else {
      SplitJoin(names, ',');
      KeepNonBlankOfNames(names);
    }
  }

  lemma {:induction false} SplitBlank(s: string)
    requires AllSpace(s)
    ensures forall k :: 0 <= k < |Split(s, ',')| ==> AllSpace(Split(s, ',')[k])
  {
    if |s| > 0 {
      assert AllSpace(s[1..]) by {
        assert forall k :: 0 <= k < |s[1..]| ==> s[1..][k] == s[k + 1];
      }
      SplitBlank(s[1..]);
    }
  }

  lemma {:induction false} KeepNonBlankOfBlanks(pieces: seq<string>)
    requires forall k :: 0 <= k < |pieces| ==> AllSpace(pieces[k])
    ensures KeepNonBlank(pieces) == []
  {
    if |pieces| > 0 {
      KeepNonBlankOfBlanks(pieces[1..]);
    }
  }

  /** Blank text names no process. */
  lemma BlankParsesEmpty(text: string)
    requires AllSpace(text)
    ensures ParseProcessList(text) == []
  {
    SplitBlank(text);
    KeepNonBlankOfBlanks(Split(text, ','));
  }

  /** A text holding a comma splits at its first one. */
  lemma {:induction false} FirstComma(s: string) returns (a: string, b: string)
    requires ',' in s
    ensures s == a + [','] + b && ',' !in a
  {
    if s[0] == ',' {
      a, b := [], s[1..];
    } else {
      var a', b' := FirstComma(s[1..]);
      a, b := [s[0]] + a', b';
    }
  }

  /** Blanks in front of the text name no process and change no name. */
  lemma ParseLeading(lead: string, s: string)
    requires AllSpace(lead)
    ensures ParseProcessList(lead + s) == ParseProcessList(s)
  {
    assert ',' !in lead by { assert !IsSpace(','); }
    if ',' !in s {
      StripPadded(lead, s, []);
      assert lead + s + [] == lead + s && s + [] == s;
      SamePiece(lead + s, s);
    } else {
      var a, b := FirstComma(s);
      CommaLeading(lead, a, b);
    }
  }

  lemma CommaLeading(lead: string, a: string, b: string)
    requires AllSpace(lead) && ',' !in lead && ',' !in a
    ensures ParseProcessList(lead + (a + [','] + b)) == ParseProcessList(a + [','] + b)
  {
    var head := lead + a;
    assert Strip(head) == Strip(a) by {
      StripPadded(lead, a, []);
      assert lead + a + [] == head && a + [] == a;
    }
    assert ',' !in head;
    assert lead + (a + [','] + b) == head + [','] + b;
    SameHead(head, a, b);
  }

  /** Texts whose first pieces have the same stripped form, and the same rest, name the same processes. */
  lemma SameHead(x: string, y: string, b: string)
    requires ',' !in x && ',' !in y && Strip(x) == Strip(y)
    ensures ParseProcessList(x + [','] + b) == ParseProcessList(y + [','] + b)
  {
    ParseFirstPiece(x, b);
    ParseFirstPiece(y, b);
  }

  /** Blanks behind the text name no process and change no name. */
  lemma {:induction false} ParseTrailing(s: string, trail: string)
    requires AllSpace(trail)
    ensures ParseProcessList(s + trail) == ParseProcessList(s)
    decreases |s|
  {
    if ',' !in s {
      PieceTrailing(s, trail);
    } else {
      var a, b := FirstComma(s);
      ParseTrailing(b, trail);
      var bt := b + trail;
      assert s + trail == a + [','] + bt;
      SameTail(a, bt, b);
    }
  }

  lemma PieceTrailing(s: string, trail: string)
    requires AllSpace(trail) && ',' !in s
    ensures ParseProcessList(s + trail) == ParseProcessList(s)
  {
    var x := s + trail;
    assert ',' !in x by {
      assert !IsSpace(',');
    }
    assert Strip(x) == Strip(s) by {
      StripPadded([], s, trail);
      assert [] + s + trail == x;
    }
    SamePiece(x, s);
  }

  /** Two comma-free texts with the same stripped form name the same processes. */
  lemma SamePiece(x: string, y: string)
    requires ',' !in x && ',' !in y && Strip(x) == Strip(y)
    ensures ParseProcessList(x) == ParseProcessList(y)
  {
    ParseOnePiece(x);
    ParseOnePiece(y);
  }

  /** Texts that differ only after their first comma, with the same names there, name the same processes. */
  lemma SameTail(a: string, b: string, c: string)
    requires ',' !in a && ParseProcessList(b) == ParseProcessList(c)
    ensures ParseProcessList(a + [','] + b) == ParseProcessList(a + [','] + c)
  {
    ParseFirstPiece(a, b);
    ParseFirstPiece(a, c);
  }

  /** Stripping the whole text first (as `on_process_changed` does) parses to the same names. */
  lemma ParseStripped(text: string)
    ensures ParseProcessList(Strip(text)) == ParseProcessList(text)
  {
    if AllSpace(text) {
      BlankParsesEmpty(text);
      BlankParsesEmpty(Strip(text));
    } else {
      var i, j := LeadingBlanks(text), TrailingStart(text);
      var m := Strip(text);
      assert text == text[..i] + (m + text[j..]);
      ParseLeading(text[..i], m + text[j..]);
      ParseTrailing(m, text[j..]);
    }
  }

  // ---- Foreground-window matching (substring) ----

  /** A target name as `_is_target_process` compares it: stripped, lowercased, with `.exe` appended when missing. */
  function NormaliseTarget(t: string): (r: string)
    ensures EndsWith(r, ".exe")
    ensures IsStripped(r) && Lower(r) == r
    ensures r == Lower(Strip(t)) || r == Lower(Strip(t)) + ".exe"
    ensures r == Lower(Strip(t)) <==> EndsWith(Lower(Strip(t)), ".exe")
  {
    var n := Lower(Strip(t));
    LowerKeepsStripped(Strip(t));
    LowerIdempotent(Strip(t));
    if EndsWith(n, ".exe") then n
    else
      AppendExe(n);
      n + ".exe"
  }

  lemma AppendExe(n: string)
    requires IsStripped(n) && Lower(n) == n
    ensures IsStripped(n + ".exe") && Lower(n + ".exe") == n + ".exe" && EndsWith(n + ".exe", ".exe")
  {
    var r := n + ".exe";
    LowerAppend(n, ".exe");
    assert Lower(".exe") == ".exe";
    assert r[|r| - 1] == 'e';
    if n == [] {
      assert r[0] == '.';
    } else {
      assert r[0] == n[0];
    }
    assert r[|n|..] == ".exe";
  }

  /** Normalising a normalised name changes nothing. */
  lemma NormaliseIdempotent(t: string)
    ensures NormaliseTarget(NormaliseTarget(t)) == NormaliseTarget(t)
  {
    StripStripped(NormaliseTarget(t));
  }

  /** A blank target normalises to `.exe`. */
  lemma BlankTargetIsExe(t: string)
    requires AllSpace(t)
    ensures NormaliseTarget(t) == ".exe"
  {
  }

  /** The normalised target occurs in the lowercased process name. */
  predicate Matches(lowerName: string, target: string) {
    Contains(lowerName, NormaliseTarget(target))
  }

  /** Whether some needle occurs in `hay`. */
  function ContainsAny(hay: string, needles: seq<string>): (r: bool)
    ensures r <==> exists k :: 0 <= k < |needles| && Contains(hay, needles[k])
  {
    if |needles| == 0 then false
    else Contains(hay, needles[0]) || ContainsAny(hay, needles[1..])
  }

  function NormaliseAll(targets: seq<string>): (r: seq<string>)
    ensures |r| == |targets|
    ensures forall k :: 0 <= k < |r| ==> r[k] == NormaliseTarget(targets[k])
  {
    seq(|targets|, k requires 0 <= k < |targets| => NormaliseTarget(targets[k]))
  }

  /**
   * `_is_target_process`: the foreground window's process name (None when
   * the process lookup raised) matches when some normalised target is a
   * substring of its lowercase form.
   */
  function IsTargetProcess(processName: Option<string>, targets: seq<string>): (r: bool)
    ensures r <==> processName.Some? && exists k :: 0 <= k < |targets| && Matches(Lower(processName.value), targets[k])
    ensures |targets| == 0 ==> !r
  {
    processName.Some? && ContainsAny(Lower(processName.value), NormaliseAll(targets))
  }

  /** A blank target matches every process whose name contains `.exe`. */
  lemma BlankTargetMatchesAnyExe(processName: string, t: string)
    requires AllSpace(t) && Contains(Lower(processName), ".exe")
    ensures IsTargetProcess(Some(processName), [t])
  {
    BlankTargetIsExe(t);
    assert Matches(Lower(processName), [t][0]);
  }

  /**
   * `capture_foreground_window`: a non-empty target list that the
   * foreground process does not match yields no image; with no targets no
   * check is made and the grab (None when a Win32 or Qt call raised) is
   * returned as it is.
   */
  function CaptureForegroundWindow<Image>(targets: seq<string>, processName: Option<string>, grabbed: Option<Image>): (r: Option<Image>)
    ensures |targets| == 0 ==> r == grabbed
    ensures |targets| > 0 && !IsTargetProcess(processName, targets) ==> r == None
    ensures r.Some? ==> r == grabbed && (|targets| == 0 || IsTargetProcess(processName, targets))
  {
    if |targets| > 0 && !IsTargetProcess(processName, targets) then None else grabbed
  }

  // ---- Running-process check of the settings page (equality) ----

  /** The name `is_process_running` looks for: `.exe` appended unless the lowercase name has it, then lowercased. */
  function RunningTarget(name: string): (r: string)
    ensures EndsWith(r, ".exe")
    ensures r == Lower(name) || r == Lower(name) + ".exe"
    ensures r == Lower(name) <==> EndsWith(Lower(name), ".exe")
  {
    LowerAppend(name, ".exe");
    assert Lower(".exe") == ".exe";
    Lower(if EndsWith(Lower(name), ".exe") then name else name + ".exe")
  }

  /**
   * `is_process_running`: `running` lists the names the process table
   * reports (None for a process whose name could not be read), or is None
   * when iterating the table raised. Names are compared for equality after
   * lowercasing; empty names are skipped.
   */
  function IsProcessRunning(name: string, running: Option<seq<Option<string>>>): (r: bool)
    ensures r <==> running.Some? && exists k :: 0 <= k < |running.value| && running.value[k].Some? && running.value[k].value != [] && Lower(running.value[k].value) == RunningTarget(name)
  {
    running.Some? && AnyRunning(RunningTarget(name), running.value)
  }

  function AnyRunning(target: string, procs: seq<Option<string>>): (r: bool)
    ensures r <==> exists k :: 0 <= k < |procs| && procs[k].Some? && procs[k].value != [] && Lower(procs[k].value) == target
  {
    if |procs| == 0 then false
    else
      var rest := AnyRunning(target, procs[1..]);
      assert forall k :: 1 <= k < |procs| ==> procs[k] == procs[1..][k - 1];
      (procs[0].Some? && procs[0].value != [] && Lower(procs[0].value) == target) || rest
  }

  /** For a parsed (stripped) name both normalisations agree. */
  lemma RunningTargetIsNormalised(name: string)
    requires IsStripped(name)
    ensures RunningTarget(name) == NormaliseTarget(name)
  {
    StripStripped(name);
    LowerAppend(name, ".exe");
  }

  /** An equality match of the settings page is also a substring match of the capture path. */
  lemma RunningImpliesTarget(name: string, processName: string)
    requires IsStripped(name)
    requires IsProcessRunning(name, Some([Some(processName)]))
    ensures IsTargetProcess(Some(processName), [name])
  {
    RunningSingle(name, processName);
    RunningTargetIsNormalised(name);
    SelfMatches(Lower(processName), name);
    MatchesSingle(processName, name);
  }

  lemma RunningSingle(name: string, processName: string)
    requires IsProcessRunning(name, Some([Some(processName)]))
    ensures Lower(processName) == RunningTarget(name)
  {
  }

  lemma SelfMatches(hay: string, name: string)
    requires hay == NormaliseTarget(name)
    ensures Matches(hay, name)
  {
    ContainsSelf(hay);
  }

  lemma MatchesSingle(processName: string, name: string)
    requires Matches(Lower(processName), name)
    ensures IsTargetProcess(Some(processName), [name])
  {
    assert Matches(Lower(processName), [name][0]);
  }

  lemma NormalisePad()
    ensures NormaliseTarget("pad") == "pad.exe"
  {
    StripStripped("pad");
    LowerLiteral("pad");
    assert !EndsWith("pad", ".exe");
  }

  lemma RunningTargetPad()
    ensures RunningTarget("pad") == "pad.exe"
  {
    LowerLiteral("pad");
    assert !EndsWith("pad", ".exe");
    LowerAppend("pad", ".exe");
    LowerLiteral(".exe");
  }

  lemma PadMatchesNotepad()
    ensures IsTargetProcess(Some("notepad.exe"), ["pad"])
  {
    LowerLiteral("notepad.exe");
    NotepadMatchesPad();
    assert Matches(Lower("notepad.exe"), ["pad"][0]);
  }

  lemma NotepadMatchesPad()
    ensures Matches("notepad.exe", "pad")
  {
    NormalisePad();
    NotepadContainsPadExe();
  }

  lemma NotepadContainsPadExe()
    ensures Contains("notepad.exe", "pad.exe")
  {
    EndsWithOccurs("note", "pad.exe");
    assert "notepad.exe" == "note" + "pad.exe";
  }

  lemma PadNotRunning()
    ensures !IsProcessRunning("pad", Some([Some("notepad.exe")]))
  {
    LowerLiteral("notepad.exe");
    RunningTargetPad();
  }

  lemma EndsWithOccurs(a: string, b: string)
    ensures Contains(a + b, b)
  {
    assert (a + b)[|a|..|a| + |b|] == b;
    assert OccursAt(a + b, b, |a|);
  }

  /** The converse fails: `pad` matches `notepad.exe` by substring but is not reported as running. */
  lemma SubstringIsNotEquality()
    ensures IsTargetProcess(Some("notepad.exe"), ["pad"])
    ensures !IsProcessRunning("pad", Some([Some("notepad.exe")]))
  {
    PadMatchesNotepad();
    PadNotRunning();
  }

  lemma ContainsSelf(s: string)
    ensures Contains(s, s)
  {
    assert OccursAt(s, s, 0);
  }

  /** A string without upper-case ASCII letters is its own lowercase form. */
  lemma LowerLiteral(s: string)
    requires forall k :: 0 <= k < |s| ==> !('A' <= s[k] <= 'Z')
    ensures Lower(s) == s
  {
  }

  // ---- Present/missing report (`check_processes`) ----

  /** `a` is `b` with some elements left out, order kept. */
  predicate IsSubsequence(a: seq<string>, b: seq<string>) {
    if |a| == 0 then true
    else if |b| == 0 then false
    else if a[0] == b[0] then IsSubsequence(a[1..], b[1..])
    else IsSubsequence(a, b[1..])
  }

  lemma {:induction false} SubsequenceCons(a: seq<string>, x: string, b: seq<string>)
    requires IsSubsequence(a, b)
    ensures IsSubsequence(a, [x] + b)
    decreases |b|, 1
  {
    if |a| > 0 && a[0] == x {
      assert ([x] + b)[1..] == b;
      SubsequenceDropHead(a, b);
    } else {
      assert ([x] + b)[1..] == b;
    }
  }

  lemma {:induction false} SubsequenceDropHead(a: seq<string>, b: seq<string>)
    requires |a| > 0 && IsSubsequence(a, b)
    ensures IsSubsequence(a[1..], b)
    decreases |b|, 0
  {
    if |a[1..]| > 0 {
      if a[0] == b[0] {
        SubsequenceCons(a[1..], b[0], b[1..]);
        assert [b[0]] + b[1..] == b;
      } else {
        SubsequenceDropHead(a, b[1..]);
        SubsequenceCons(a[1..], b[0], b[1..]);
        assert [b[0]] + b[1..] == b;
      }
    }
  }

  /** Splits `names` into those reported running and the rest, each in the original order. */
  function Partition(names: seq<string>, isRunning: string -> bool): (r: (seq<string>, seq<string>))
    ensures |r.0| + |r.1| == |names|
    ensures forall k :: 0 <= k < |r.0| ==> isRunning(r.0[k])
    ensures forall k :: 0 <= k < |r.1| ==> !isRunning(r.1[k])
    ensures IsSubsequence(r.0, names) && IsSubsequence(r.1, names)
  {
    if |names| == 0 then ([], [])
    else
      var rest := Partition(names[1..], isRunning);
      assert [names[0]] + names[1..] == names;
      SubsequenceCons(rest.0, names[0], names[1..]);
      SubsequenceCons(rest.1, names[0], names[1..]);
      if isRunning(names[0]) then ([names[0]] + rest.0, rest.1)
      else (rest.0, [names[0]] + rest.1)
  }

  datatype ProcessStatus =
    | NoProcessSet                                       // blank text: the whole screen is monitored
    | AllMissing(missing: seq<string>)
    | AllPresent(present: seq<string>)
    | SomePresent(present: seq<string>, missing: seq<string>)

  /**
   * `check_processes`: blank text reports whole-screen monitoring; otherwise
   * the parsed names are split into present and missing and the report is
   * all-missing or all-present when exactly one side is non-empty, and mixed
   * otherwise (which includes text holding only commas).
   */
  function CheckProcesses(text: string, isRunning: string -> bool): (r: ProcessStatus)
    ensures r.NoProcessSet? <==> AllSpace(text)
    ensures r.AllPresent? ==> |r.present| > 0 && r.present == ParseProcessList(Strip(text)) && forall k :: 0 <= k < |r.present| ==> isRunning(r.present[k])
    ensures r.AllMissing? ==> |r.missing| > 0 && r.missing == ParseProcessList(Strip(text)) && forall k :: 0 <= k < |r.missing| ==> !isRunning(r.missing[k])
    ensures r.SomePresent? ==> |r.present| + |r.missing| == |ParseProcessList(Strip(text))| && (|r.present| > 0 <==> |r.missing| > 0)
    ensures r.SomePresent? ==> IsSubsequence(r.present, ParseProcessList(Strip(text))) && IsSubsequence(r.missing, ParseProcessList(Strip(text)))
    ensures !AllSpace(text) ==>
      var p := Partition(ParseProcessList(Strip(text)), isRunning);
      && (r.AllPresent? <==> |p.0| > 0 && |p.1| == 0)
      && (r.AllMissing? <==> |p.0| == 0 && |p.1| > 0)
      && (r.SomePresent? ==> r.present == p.0 && r.missing == p.1)
  {
    var t := Strip(text);
    if t == [] then NoProcessSet
    else
      var names := ParseProcessList(t);
      var (present, missing) := Partition(names, isRunning);
      if |present| == 0 && |missing| > 0 then
        SubsequenceFull(missing, names);
        AllMissing(missing)
      else if |present| > 0 && |missing| == 0 then
        SubsequenceFull(present, names);
        AllPresent(present)
      else SomePresent(present, missing)
  }

  /** When every name is running, all of them are present and none missing. */
  lemma {:induction false} PartitionAllRunning(names: seq<string>, isRunning: string -> bool)
    requires forall k :: 0 <= k < |names| ==> isRunning(names[k])
    ensures Partition(names, isRunning) == (names, [])
  {
    if |names| > 0 {
      PartitionAllRunning(names[1..], isRunning);
      assert [names[0]] + names[1..] == names;
    }
  }

  /** When no name is running, all of them are missing and none present. */
  lemma {:induction false} PartitionNoneRunning(names: seq<string>, isRunning: string -> bool)
    requires forall k :: 0 <= k < |names| ==> !isRunning(names[k])
    ensures Partition(names, isRunning) == ([], names)
  {
    if |names| > 0 {
      PartitionNoneRunning(names[1..], isRunning);
      assert [names[0]] + names[1..] == names;
    }
  }

  /**
   * For text naming at least one process, the report is all-present exactly
   * when every name is running and all-missing exactly when none is.
   */
  lemma CheckProcessesReport(text: string, isRunning: string -> bool)
    requires |ParseProcessList(Strip(text))| > 0
    ensures var names := ParseProcessList(Strip(text));
      && (CheckProcesses(text, isRunning).AllPresent? <==> forall k :: 0 <= k < |names| ==> isRunning(names[k]))
      && (CheckProcesses(text, isRunning).AllMissing? <==> forall k :: 0 <= k < |names| ==> !isRunning(names[k]))
  {
    var names := ParseProcessList(Strip(text));
    var p := Partition(names, isRunning);
    if AllSpace(text) {
      BlankParsesEmpty(Strip(text));
    }
    if forall k :: 0 <= k < |names| ==> isRunning(names[k]) {
      PartitionAllRunning(names, isRunning);
    }
    if forall k :: 0 <= k < |names| ==> !isRunning(names[k]) {
      PartitionNoneRunning(names, isRunning);
    }
  }

  lemma {:induction false} SubsequenceFull(a: seq<string>, b: seq<string>)
    requires IsSubsequence(a, b) && |a| == |b|
    ensures a == b
  {
    if |a| > 0 {
      if a[0] != b[0] {
        SubsequenceShorter(a, b[1..]);
      } else {
        SubsequenceFull(a[1..], b[1..]);
        assert a == [a[0]] + a[1..] && b == [b[0]] + b[1..];
      }
    }
  }

  lemma {:induction false} SubsequenceShorter(a: seq<string>, b: seq<string>)
    requires IsSubsequence(a, b)
    ensures |a| <= |b|
  {
    if |a| > 0 {
      if a[0] == b[0] {
        SubsequenceShorter(a[1..], b[1..]);
      } else {
        SubsequenceShorter(a, b[1..]);
      }
    }
  }

  // ---- The monitor-target label ----

  /** What the "monitor target" label shows. */
  datatype MonitorTarget = WholeScreen | OneProcess(name: string) | ProcessCount(n: nat)

  function TargetOf(names: seq<string>): MonitorTarget {
    if |names| == 1 then OneProcess(names[0]) else ProcessCount(|names|)
  }

  /**
   * `on_process_changed` of the application: the current process list and
   * the label. Blank text clears the list and shows the whole screen.
   */
  function OnProcessChanged(text: string): (r: (seq<string>, MonitorTarget))
    ensures r.1 == WholeScreen <==> AllSpace(text)
    ensures AllSpace(text) ==> r.0 == []
    ensures r.1.OneProcess? ==> r.0 == [r.1.name]
    ensures r.1.ProcessCount? ==> r.1.n == |r.0| != 1
    ensures !AllSpace(text) ==> r.0 == ParseProcessList(text) && r.1 == TargetOf(r.0)
  {
    var t := Strip(text);
    if t == [] then ([], WholeScreen)
    else
      var names := ParseProcessList(t);
      ParseStripped(text);
      (names, TargetOf(names))
  }

  /** `update_monitor_target` of the settings page: the same label, forced to the whole screen when foreground detection is off. */
  function MonitorTargetLabel(text: string, foregroundChecked: bool): (r: MonitorTarget)
    ensures r == WholeScreen <==> AllSpace(text) || !foregroundChecked
    ensures foregroundChecked ==> r == OnProcessChanged(text).1
    ensures foregroundChecked && !AllSpace(text) ==> r == TargetOf(ParseProcessList(text))
  {
    ParseStripped(text);
    var t := Strip(text);
    if t == [] || !foregroundChecked then WholeScreen
    else TargetOf(ParseProcessList(t))
  }

  /**
   * The thread's monitor target set by `start_monitoring`. Unlike the two
   * labels above it tests the unstripped text, so blank but non-empty text
   * shows a count of zero processes.
   */
  function StartMonitorTarget(text: string, foreground: bool): (r: MonitorTarget)
    ensures r == WholeScreen <==> text == [] || !foreground
    ensures text != [] && foreground ==> r == TargetOf(ParseProcessList(text))
  {
    if text != [] && foreground then TargetOf(ParseProcessList(text)) else WholeScreen
  }

  /** Blank text of a single space: the settings page shows the whole screen, the thread a count of zero. */
  lemma BlankTextLabelsDisagree()
    ensures MonitorTargetLabel(" ", true) == WholeScreen
    ensures StartMonitorTarget(" ", true) == ProcessCount(0)
  {
    BlankParsesEmpty(" ");
  }

  /**
   * The thread's target and the settings page's label differ exactly for
   * blank but non-empty text with foreground detection on.
   */
  lemma StartDisagreesWithLabel(text: string, foreground: bool)
    ensures StartMonitorTarget(text, foreground) != MonitorTargetLabel(text, foreground)
        <==> foreground && text != [] && AllSpace(text)
  {
    if foreground && text != [] && AllSpace(text) {
      BlankParsesEmpty(text);
    }
  }
}

=== FILE: py_num.dfy ===
/**
 * Python's conversions between integers and text as the program uses them:
 * decimal digit strings, `str(n)`, `int(text)` and `int(float(text))`.
 */
module PyNum {
  import opened Wrappers
  import PyStr

  function Pow10(n: nat): (p: nat)
    ensures p >= 1
  {
    if n == 0 then 1 else 10 * Pow10(n - 1)
  }

  predicate IsDigit(c: char) {
    '0' <= c <= '9'
  }

  function DigitChar(d: int): (c: char)
    requires 0 <= d < 10
    ensures IsDigit(c)
  {
    ('0' as int + d) as char
  }

  /** The number a string of decimal digits denotes. */
  function DigitsValue(s: string): (n: nat)
    requires forall k :: 0 <= k < |s| ==> IsDigit(s[k])
    ensures n < Pow10(|s|)
  {
    if |s| == 0 then 0
    else
      var high := DigitsValue(s[..|s| - 1]);
      var low := s[|s| - 1] as int - '0' as int;
      assert IsDigit(s[|s| - 1]) && 0 <= low < 10;
      assert high * 10 + low < Pow10(|s| - 1) * 10 by {
        assert high <= Pow10(|s| - 1) - 1;
      }
      high * 10 + low
  }

  predicate AllDigits(s: string) {
    forall k :: 0 <= k < |s| ==> IsDigit(s[k])
  }

  /** The value of a concatenation of digit strings. */
  lemma {:induction false} DigitsValueAppend(a: string, b: string)
    requires AllDigits(a) && AllDigits(b)
    ensures DigitsValue(a + b) == DigitsValue(a) * Pow10(|b|) + DigitsValue(b)
  {
    if |b| == 0 {
      assert a + b == a;
    } else {
      var b' := b[..|b| - 1];
      assert (a + b)[..|a + b| - 1] == a + b';
      assert (a + b)[|a + b| - 1] == b[|b| - 1];
      DigitsValueAppend(a, b');
      var low := b[|b| - 1] as int - '0' as int;
      var x, p, y := DigitsValue(a), Pow10(|b'|), DigitsValue(b');
      assert DigitsValue(a + b) == DigitsValue(a + b') * 10 + low;
      assert DigitsValue(a + b') == x * p + y;
      assert Pow10(|b|) == p * 10;
      assert DigitsValue(b) == y * 10 + low;
      RingStep(x, p, y, low);
    }
  }

  lemma RingStep(x: int, p: int, y: int, low: int)
    ensures (x * p + y) * 10 + low == x * (p * 10) + (y * 10 + low)
  {
  }

  /** `str(n)` for a natural number: its shortest decimal form. */
  function NatDigits(n: nat): (r: string)
    ensures |r| >= 1 && AllDigits(r)
    ensures DigitsValue(r) == n
    ensures r[0] == '0' ==> n == 0 && |r| == 1
  {
    if n < 10 then [DigitChar(n)]
    else
      var r := NatDigits(n / 10) + [DigitChar(n % 10)];
      assert r[..|r| - 1] == NatDigits(n / 10);
      r
  }

  /** `str(n)` */
  function IntToString(n: int): (r: string)
    ensures |r| >= 1 && PyStr.IsStripped(r)
    ensures n >= 0 ==> r == NatDigits(n)
    ensures n < 0 ==> r == "-" + NatDigits(-n)
  {
    if n < 0 then "-" + NatDigits(-n) else NatDigits(n)
  }

  /** A leading `+` or `-`, if any, and the text after it. */
  function SplitSign(t: string): (r: (bool, string))
    ensures r.1 == t || (|t| > 0 && r.1 == t[1..] && (t[0] == '+' || t[0] == '-'))
    ensures r.0 ==> |t| > 0 && t[0] == '-'
  {
    if |t| > 0 && (t[0] == '+' || t[0] == '-') then (t[0] == '-', t[1..]) else (false, t)
  }

  function Signed(negative: bool, magnitude: nat): int {
    if negative then 0 - magnitude else magnitude
  }

  /** A sign character. */
  predicate IsSign(c: char) {
    c == '+' || c == '-'
  }

  /** The text of an `int` literal: a digit or a sign first, then digits only, and at least one digit. */
  predicate IsIntLiteral(t: string) {
    && |t| > 0
    && (IsDigit(t[0]) || (IsSign(t[0]) && |t| > 1))
    && forall k :: 1 <= k < |t| ==> IsDigit(t[k])
  }

  /** The number an `int` literal denotes, read character by character. */
  function LiteralValue(t: string): int
    requires IsIntLiteral(t)
  {
    if IsDigit(t[0]) then
      assert AllDigits(t) by {
        assert forall k :: 0 <= k < |t| ==> IsDigit(t[k]);
      }
      DigitsValue(t)
    else
      assert AllDigits(t[1..]) by {
        assert forall k :: 0 <= k < |t[1..]| ==> t[1..][k] == t[k + 1];
      }
      if t[0] == '-' then 0 - DigitsValue(t[1..]) else DigitsValue(t[1..])
  }

  /** An optional `+` or `-` followed by at least one decimal digit, and nothing else. */
  function ParseSigned(t: string): (r: Option<int>)
    ensures r.Some? ==> |t| > 0
    ensures r.Some? <==> IsIntLiteral(t)
    ensures r.Some? ==> r.value == LiteralValue(t)
  {
    SignedLiteral(t);
    var (negative, body) := SplitSign(t);
    if |body| > 0 && AllDigits(body) then Some(Signed(negative, DigitsValue(body))) else None
  }

  /**
   * `int(text)` for ASCII decimal text: surrounding whitespace is ignored;
   * None stands for the `ValueError`.
   */
  function ParseInt(s: string): (r: Option<int>)
    ensures r.Some? ==> !PyStr.AllSpace(s)
    ensures r.Some? <==> IsIntLiteral(PyStr.Strip(s))
    ensures r.Some? ==> r.value == LiteralValue(PyStr.Strip(s))
  {
    ParseSigned(PyStr.Strip(s))
  }

  /** `SplitSign` splits an `int` literal into its sign and its digits, and only a literal gives a non-empty digit string. */
  lemma SignedLiteral(t: string)
    ensures var (negative, body) := SplitSign(t);
      (|body| > 0 && AllDigits(body) <==> IsIntLiteral(t))
      && (IsIntLiteral(t) ==> Signed(negative, DigitsValue(body)) == LiteralValue(t))
  {
    var (negative, body) := SplitSign(t);
    if |t| > 0 && IsSign(t[0]) {
      assert body == t[1..];
      assert AllDigits(body) <==> forall k :: 1 <= k < |t| ==> IsDigit(t[k]) by {
        assert forall k :: 0 <= k < |body| ==> body[k] == t[k + 1];
      }
    } else {
      assert body == t;
    }
  }

  lemma DigitsAreStripped(s: string)
    requires AllDigits(s) && |s| > 0
    ensures PyStr.IsStripped(s)
  {
    assert IsDigit(s[0]) && IsDigit(s[|s| - 1]);
  }

  // The conversions are glued from small steps over abstract strings: each
  // step is cheap, while one proof over a concrete `"-" + d` is not.

  lemma IntViaStrip(s: string, t: string)
    requires PyStr.Strip(s) == t
    ensures ParseInt(s) == ParseSigned(t)
  {
  }

  lemma SignedDigits(t: string, negative: bool, d: string)
    requires SplitSign(t) == (negative, d) && AllDigits(d) && |d| > 0
    ensures ParseSigned(t) == Some(Signed(negative, DigitsValue(d)))
  {
  }

  lemma FloatViaStrip(s: string, t: string, negative: bool, body: string, m: nat)
    requires PyStr.Strip(s) == t && SplitSign(t) == (negative, body) && ParseUnsignedFloat(body) == Some(m)
    requires m < DoubleOverflow
    ensures ParseFloatTrunc(s) == Some(Signed(negative, m))
  {
  }

  lemma DigitsStrip(d: string)
    requires AllDigits(d) && |d| > 0
    ensures PyStr.Strip(d) == d
  {
    DigitsAreStripped(d);
    PyStr.StripStripped(d);
  }

  lemma DigitsSign(d: string)
    requires AllDigits(d) && |d| > 0
    ensures SplitSign(d) == (false, d)
  {
    assert IsDigit(d[0]);
  }

  lemma MinusStrip(d: string)
    requires AllDigits(d) && |d| > 0
    ensures PyStr.Strip("-" + d) == "-" + d
  {
    var s := "-" + d;
    assert s[0] == '-' && s[|s| - 1] == d[|d| - 1] && IsDigit(d[|d| - 1]);
    PyStr.StripStripped(s);
  }

  lemma MinusSign(d: string)
    ensures SplitSign("-" + d) == (true, d)
  {
    assert ("-" + d)[1..] == d;
  }

  /**
   * A plain digit string converts to the number it denotes by `int`, and by
   * `int(float(...))` too while the number is exactly a double.
   */
  lemma ParseDigits(d: string)
    requires AllDigits(d) && |d| > 0
    ensures ParseInt(d) == Some(DigitsValue(d))
    ensures DigitsValue(d) <= MaxExactInt ==> ParseFloatTrunc(d) == Some(DigitsValue(d))
  {
    DigitsStrip(d);
    DigitsSign(d);
    IntViaStrip(d, d);
    SignedDigits(d, false, d);
    UnsignedFloatOfDigits(d);
    if DigitsValue(d) <= MaxExactInt {
      FloatViaStrip(d, d, false, d, DigitsValue(d));
    }
  }

  /**
   * A minus sign before a digit string negates it, by `int`, and by
   * `int(float(...))` too while the number is exactly a double.
   */
  lemma ParseNegativeDigits(d: string)
    requires AllDigits(d) && |d| > 0
    ensures ParseInt("-" + d) == Some(0 - DigitsValue(d))
    ensures DigitsValue(d) <= MaxExactInt ==> ParseFloatTrunc("-" + d) == Some(0 - DigitsValue(d))
  {
    NegativeInt(d, "-" + d);
    if DigitsValue(d) <= MaxExactInt {
      NegativeFloat(d, "-" + d);
    }
    assert Signed(true, DigitsValue(d)) == 0 - DigitsValue(d);
  }

  lemma NegativeInt(d: string, t: string)
    requires AllDigits(d) && |d| > 0 && t == "-" + d
    ensures ParseInt(t) == Some(Signed(true, DigitsValue(d)))
  {
    MinusStrip(d);
    MinusSign(d);
    IntViaStrip(t, t);
    SignedDigits(t, true, d);
  }

  lemma NegativeFloat(d: string, t: string)
    requires AllDigits(d) && |d| > 0 && t == "-" + d && DigitsValue(d) < DoubleOverflow
    ensures ParseFloatTrunc(t) == Some(Signed(true, DigitsValue(d)))
  {
    MinusStrip(d);
    MinusSign(d);
    UnsignedFloatOfDigits(d);
    FloatViaStrip(t, t, true, d, DigitsValue(d));
  }

  /** `int(str(n)) == n`, and `int(float(str(n))) == n` while n is exactly a double. */
  lemma ParseIntToString(n: int)
    ensures ParseInt(IntToString(n)) == Some(n)
    ensures -MaxExactInt <= n <= MaxExactInt ==> ParseFloatTrunc(IntToString(n)) == Some(n)
  {
    if n < 0 {
      ParseNegativeDigits(NatDigits(-n));
    } else {
      ParseDigits(NatDigits(n));
    }
  }

  /** Blank text is a `ValueError` for both conversions. */
  lemma ParseBlank(s: string)
    requires PyStr.AllSpace(s)
    ensures ParseInt(s) == None && ParseFloatTrunc(s) == None
  {
  }

  /** The first index holding `a` or `b`, or the length when there is none. */
  function FirstIndexOf(s: string, a: char, b: char): (i: nat)
    ensures i <= |s|
    ensures forall k :: 0 <= k < i ==> s[k] != a && s[k] != b
    ensures i < |s| ==> s[i] == a || s[i] == b
  {
    if |s| == 0 || s[0] == a || s[0] == b then 0
    else 1 + FirstIndexOf(s[1..], a, b)
  }

  /** `n * 10^e` truncated toward zero, for a possibly negative exponent. */
  function Scale(n: nat, e: int): nat {
    if e >= 0 then Times(n, Pow10(e)) else Over(n, Pow10(-e))
  }

  /** The quotient of a natural by a positive number, as a natural. */
  function Over(a: nat, b: nat): (r: nat)
    requires b >= 1
    ensures r == a / b
  {
    a / b
  }

  /** The product of two naturals, as a natural. */
  function Times(a: nat, b: nat): (r: nat)
    ensures r == a * b
  {
    MulLeMono(0, a, b);
    a * b
  }

  /**
   * The magnitude of an unsigned decimal float literal (`12`, `1.5`, `.5`,
   * `5.`, `1e3`, `2.5E-1`) truncated toward zero, or None when the text is
   * not one.
   */
  function ParseUnsignedFloat(u: string): (r: Option<nat>)
    ensures r.Some? ==> |u| > 0
  {
    var ei := FirstIndexOf(u, 'e', 'E');
    var mant := u[..ei];
    var di := FirstIndexOf(mant, '.', '.');
    var whole := mant[..di];
    var frac := if di < |mant| then mant[di + 1..] else "";
    var exp := if ei == |u| then Some(0) else ParseSigned(u[ei + 1..]);
    if AllDigits(whole) && AllDigits(frac) && |whole| + |frac| > 0 && exp.Some? then
      Some(Scale(DigitsValue(whole + frac), exp.value - |frac|))
    else None
  }

  /** The characters a float literal is written with. */
  predicate IsFloatChar(c: char) {
    IsDigit(c) || IsSign(c) || c == '.' || c == 'e' || c == 'E'
  }

  /** Only float characters, and at least one digit. */
  predicate FloatAlphabet(t: string) {
    && (forall k :: 0 <= k < |t| ==> IsFloatChar(t[k]))
    && exists k :: 0 <= k < |t| && IsDigit(t[k])
  }

  /** Text that converts is made of float characters and holds a digit. */
  lemma UnsignedFloatShape(u: string)
    requires ParseUnsignedFloat(u).Some?
    ensures FloatAlphabet(u)
  {
    var ei := FirstIndexOf(u, 'e', 'E');
    var mant := u[..ei];
    var di := FirstIndexOf(mant, '.', '.');
    var whole := mant[..di];
    var frac := if di < |mant| then mant[di + 1..] else "";
    forall k | 0 <= k < |u|
      ensures IsFloatChar(u[k])
    {
      if k < ei {
        assert u[k] == mant[k];
        if k < di {
          assert mant[k] == whole[k];
        } else if k > di {
          assert mant[k] == frac[k - di - 1];
        }
      } else if k > ei {
        var t := u[ei + 1..];
        assert IsIntLiteral(t);
        assert u[k] == t[k - ei - 1];
      }
    }
    if |whole| > 0 {
      assert IsDigit(u[0]) by {
        assert u[0] == mant[0] == whole[0];
      }
    } else {
      assert IsDigit(u[di + 1]) by {
        assert u[di + 1] == mant[di + 1] == frac[0];
      }
    }
  }

  /** A sign in front keeps the float alphabet. */
  lemma SignedFloatShape(t: string)
    ensures ParseUnsignedFloat(SplitSign(t).1).Some? ==> FloatAlphabet(t)
  {
    var body := SplitSign(t).1;
    if ParseUnsignedFloat(body).None? {
    } else if body == t {
      UnsignedFloatShape(body);
    } else {
      UnsignedFloatShape(body);
      assert forall k :: 1 <= k < |t| ==> t[k] == body[k - 1];
      var j :| 0 <= j < |body| && IsDigit(body[j]);
      assert IsDigit(t[j + 1]);
    }
  }

  /** A character outside digits, signs, `.`, `e` and `E` makes both conversions fail. */
  lemma ForeignCharFails(s: string, k: nat)
    requires k < |PyStr.Strip(s)| && !IsFloatChar(PyStr.Strip(s)[k])
    ensures ParseInt(s) == None && ParseFloatTrunc(s) == None
  {
  }

  lemma UnsignedFloatOfDigits(u: string)
    requires AllDigits(u) && |u| > 0
    ensures ParseUnsignedFloat(u) == Some(DigitsValue(u))
  {
    NoMarker(u, 'e', 'E');
    NoMarker(u, '.', '.');
    var mant := u[..FirstIndexOf(u, 'e', 'E')];
    assert mant == u;
    var whole := mant[..FirstIndexOf(mant, '.', '.')];
    assert whole == u && whole + "" == u;
    ScaleZero(DigitsValue(u));
  }

  lemma ScaleZero(n: nat)
    ensures Scale(n, 0) == n
  {
  }

  lemma NoMarker(u: string, a: char, b: char)
    requires forall k :: 0 <= k < |u| ==> u[k] != a && u[k] != b
    ensures FirstIndexOf(u, a, b) == |u|
  {
  }

  /** 2^53: every integer of at most this magnitude is exactly a 64-bit double. */
  const MaxExactInt: int := 0x20_0000_0000_0000

  /**
   * 2^1024 - 2^970, halfway between the largest finite double and 2^1024:
   * `float` rounds every magnitude from here on to infinity.
   */
  const DoubleOverflow: int := 0xffff_ffff_ffff_fc00_0000_0000_0000_0000_0000_0000_0000_0000_0000_0000_0000_0000_0000_0000_0000_0000_0000_0000_0000_0000_0000_0000_0000_0000_0000_0000_0000_0000_0000_0000_0000_0000_0000_0000_0000_0000_0000_0000_0000_0000_0000_0000_0000_0000_0000_0000_0000_0000_0000_0000_0000_0000_0000_0000_0000_0000_0000_0000_0000_0000

  /**
   * `int(float(text))`: whitespace around and one sign are allowed, the
   * value is truncated toward zero. None stands for the `ValueError` of
   * text that is not a float, and for the `OverflowError` of a magnitude
   * that `float` rounds to infinity. The magnitude is computed exactly, not
   * rounded to the nearest double.
   */
  function ParseFloatTrunc(s: string): (r: Option<int>)
    ensures r.Some? ==> !PyStr.AllSpace(s)
    ensures r.Some? ==> -DoubleOverflow < r.value < DoubleOverflow
    ensures r.Some? ==> FloatAlphabet(PyStr.Strip(s))
  {
    var (negative, body) := SplitSign(PyStr.Strip(s));
    var m := ParseUnsignedFloat(body);
    SignedFloatShape(PyStr.Strip(s));
    if m.None? || m.value >= DoubleOverflow then None else Some(Signed(negative, m.value))
  }

  /** A digit string too large for a double raises `OverflowError` in `int(float(...))`. */
  lemma ParseOverflow(d: string)
    requires AllDigits(d) && |d| > 0 && DigitsValue(d) >= DoubleOverflow
    ensures ParseInt(d) == Some(DigitsValue(d))
    ensures ParseFloatTrunc(d) == None
  {
    DigitsStrip(d);
    DigitsSign(d);
    UnsignedFloatOfDigits(d);
    IntViaStrip(d, d);
    SignedDigits(d, false, d);
  }

  /** 10^n for n <= 15 is below 2^53. */
  lemma {:induction false} Pow10Exact(n: nat)
    requires n <= 15
    ensures Pow10(n) <= 1_000_000_000_000_000 < MaxExactInt
    decreases 15 - n
  {
    if n < 15 {
      Pow10Exact(n + 1);
    } else {
      assert Pow10(15) == 1_000_000_000_000_000;
    }
  }

  /**
   * `int(float("a.b"))` drops the fraction toward zero: `5.9` gives 5 and
   * `-5.9` gives -5. With at most 15 digits the nearest double lies closer
   * to the decimal than the decimal lies to an integer, so rounding to a
   * double cannot carry the result across an integer.
   */
  lemma ParseFloatTruncDropsFraction(negative: bool, whole: string, frac: string, s: string)
    requires AllDigits(whole) && |whole| > 0 && AllDigits(frac)
    requires |whole| + |frac| <= 15
    requires s == SignPrefix(negative) + (whole + "." + frac)
    ensures ParseFloatTrunc(s) == Some(Signed(negative, DigitsValue(whole)))
  {
    var u := whole + "." + frac;
    Pow10Exact(|whole|);
    UnsignedDecimal(whole, frac);
    StripDecimal(negative, whole, frac);
    DecimalSign(negative, whole, frac);
    FloatViaStrip(s, s, negative, u, DigitsValue(whole));
  }

  /** `-` for a negative number, nothing otherwise. */
  function SignPrefix(negative: bool): string {
    if negative then "-" else ""
  }

  lemma DecimalSign(negative: bool, whole: string, frac: string)
    requires AllDigits(whole) && |whole| > 0
    ensures SplitSign(SignPrefix(negative) + (whole + "." + frac)) == (negative, whole + "." + frac)
  {
    var u := whole + "." + frac;
    if negative {
      MinusSign(u);
    } else {
      assert ([] + u) == u && IsDigit(u[0]);
    }
  }

  lemma UnsignedDecimal(whole: string, frac: string)
    requires AllDigits(whole) && |whole| > 0 && AllDigits(frac)
    ensures ParseUnsignedFloat(whole + "." + frac) == Some(DigitsValue(whole))
  {
    DecimalShape(whole, frac);
    DecimalValue(whole, frac);
  }

  lemma DecimalShape(whole: string, frac: string)
    requires AllDigits(whole) && |whole| > 0 && AllDigits(frac)
    ensures AllDigits(whole + frac)
    ensures ParseUnsignedFloat(whole + "." + frac) == Some(Scale(DigitsValue(whole + frac), 0 - |frac|))
  {
    DecimalParts(whole, frac);
  }

  lemma DecimalValue(whole: string, frac: string)
    requires AllDigits(whole) && AllDigits(frac)
    ensures AllDigits(whole + frac)
    ensures Scale(DigitsValue(whole + frac), 0 - |frac|) == DigitsValue(whole)
  {
    assert AllDigits(whole + frac);
    DigitsValueAppend(whole, frac);
    ScaleDropsFraction(DigitsValue(whole), DigitsValue(frac), |frac|);
  }

  /** How `ParseUnsignedFloat` cuts `whole.frac` apart. */
  lemma DecimalParts(whole: string, frac: string)
    requires AllDigits(whole) && AllDigits(frac)
    ensures var u := whole + "." + frac;
      && FirstIndexOf(u, 'e', 'E') == |u|
      && FirstIndexOf(u, '.', '.') == |whole|
      && u[..|u|] == u && u[..|whole|] == whole && u[|whole| + 1..] == frac
  {
    var u := whole + "." + frac;
    NoMarker(u, 'e', 'E');
    FirstIndexOfFound(whole, '.', '.', frac);
    assert u[..|whole|] == whole && u[|whole| + 1..] == frac;
  }

  lemma StripDecimal(negative: bool, whole: string, frac: string)
    requires AllDigits(whole) && |whole| > 0 && AllDigits(frac)
    ensures PyStr.Strip(SignPrefix(negative) + (whole + "." + frac)) == SignPrefix(negative) + (whole + "." + frac)
  {
    var u := SignPrefix(negative) + (whole + "." + frac);
    assert u[0] == (if negative then '-' else whole[0]);
    if |frac| > 0 {
      assert u[|u| - 1] == frac[|frac| - 1];
    } else {
      assert u[|u| - 1] == '.';
    }
    PyStr.StripStripped(u);
  }

  lemma {:induction false} FirstIndexOfFound(head: string, a: char, b: char, frac: string)
    requires AllDigits(head) && !IsDigit(a) && !IsDigit(b)
    ensures FirstIndexOf(head + [a] + frac, a, b) == |head|
  {
    if |head| > 0 {
      assert (head + [a] + frac)[1..] == head[1..] + [a] + frac;
      FirstIndexOfFound(head[1..], a, b, frac);
    }
  }

  lemma ScaleDropsFraction(w: nat, f: nat, len: nat)
    requires f < Pow10(len)
    ensures Scale(w * Pow10(len) + f, 0 - len) == w
  {
    if len > 0 {
      DivUnique(w * Pow10(len) + f, Pow10(len), w);
    }
  }

  lemma MulLeMono(a: int, b: int, p: int)
    requires a <= b && p >= 0
    ensures a * p <= b * p
  {
    assert b * p - a * p == (b - a) * p;
  }

  /** Integer division is determined by the interval the dividend lies in. */
  lemma DivUnique(n: int, p: int, w: int)
    requires p > 0 && w * p <= n < w * p + p
    ensures n / p == w
  {
    var q := n / p;
    assert q * p <= n < q * p + p;
    if q > w {
      assert (w + 1) * p == w * p + p;
      MulLeMono(w + 1, q, p);
    } else if q < w {
      MulLeMono(q + 1, w, p);
    }
  }
}

=== FILE: py_str.dfy ===
/**
 * The pieces of Python's `str` and `list` behaviour the program relies on:
 * `strip`, `lower`, `endswith`/`startswith`, substring `in`, `split(sep)`,
 * `sep.join(...)` and slicing with possibly negative bounds.
 */
module PyStr {

  /** Python's `str.isspace` for one character (the set `strip()` removes). */
  predicate IsSpace(c: char) {
    var n := c as int;
    || 0x09 <= n <= 0x0D || 0x1C <= n <= 0x20 || n == 0x85 || n == 0xA0
    || n == 0x1680 || 0x2000 <= n <= 0x200A || n == 0x2028 || n == 0x2029
    || n == 0x202F || n == 0x205F || n == 0x3000
  }

  predicate AllSpace(s: string) {
    forall k :: 0 <= k < |s| ==> IsSpace(s[k])
  }

  /** A string `strip()` leaves unchanged: empty, or non-blank at both ends. */
  predicate IsStripped(s: string) {
    s == [] || (!IsSpace(s[0]) && !IsSpace(s[|s| - 1]))
  }

  /** The number of blank characters `s` starts with: where `s.lstrip()` begins. */
  function LeadingBlanks(s: string): (i: nat)
    ensures i <= |s| && AllSpace(s[..i])
    ensures i < |s| ==> !IsSpace(s[i])
  {
    if |s| > 0 && IsSpace(s[0]) then
      var i := 1 + LeadingBlanks(s[1..]);
      assert s[..i] == [s[0]] + s[1..][..i - 1];
      i
    else 0
  }

  /** The index where the blank characters `s` ends with begin: where `s.rstrip()` ends. */
  function TrailingStart(s: string): (j: nat)
    ensures j <= |s| && AllSpace(s[j..])
    ensures j > 0 ==> !IsSpace(s[j - 1])
  {
    if |s| > 0 && IsSpace(s[|s| - 1]) then
      var j := TrailingStart(s[..|s| - 1]);
      assert s[j..] == s[..|s| - 1][j..] + [s[|s| - 1]];
      j
    else |s|
  }

  /** `s.strip()`: the slice of `s` between its leading and its trailing blanks. */
  function Strip(s: string): (r: string)
    ensures IsStripped(r)
    ensures |r| <= |s|
    ensures r == [] <==> AllSpace(s)
  {
    var i := LeadingBlanks(s);
    if i == |s| then
      assert s[..i] == s;
      []
    else
      var j := TrailingStart(s);
      assert i < j;
      s[i..j]
  }

  /** Every character left by `strip` comes from the input. */
  lemma StripChars(s: string)
    ensures forall c :: c in Strip(s) ==> c in s
  {
    var r := Strip(s);
    if r != [] {
      var i := LeadingBlanks(s);
      forall c | c in r
        ensures c in s
      {
        var k :| 0 <= k < |r| && r[k] == c;
        assert s[i + k] == c;
      }
    }
  }

  lemma StripStripped(s: string)
    requires IsStripped(s)
    ensures Strip(s) == s
  {
  }

  /** Stripping twice is stripping once. */
  lemma StripIdempotent(s: string)
    ensures Strip(Strip(s)) == Strip(s)
  {
    StripStripped(Strip(s));
  }

  /** Blanks in front of a text that starts with a non-blank are exactly what `lstrip` removes. */
  lemma {:induction false} LeadingOf(lead: string, q: string)
    requires AllSpace(lead) && q != [] && !IsSpace(q[0])
    ensures LeadingBlanks(lead + q) == |lead|
  {
    if lead == [] {
      assert lead + q == q;
    } else {
      assert (lead + q)[1..] == lead[1..] + q;
      LeadingOf(lead[1..], q);
    }
  }

  /** Blanks behind a text that ends with a non-blank are exactly what `rstrip` removes. */
  lemma {:induction false} TrailingOf(q: string, trail: string)
    requires AllSpace(trail) && q != [] && !IsSpace(q[|q| - 1])
    ensures TrailingStart(q + trail) == |q|
  {
    if trail == [] {
      assert q + trail == q;
    } else {
      var s := q + trail;
      assert s[..|s| - 1] == q + trail[..|trail| - 1];
      TrailingOf(q, trail[..|trail| - 1]);
    }
  }

  /** A stripped, non-empty text between two runs of blanks is what `strip` returns. */
  lemma StripSurrounded(lead: string, m: string, trail: string)
    requires AllSpace(lead) && AllSpace(trail)
    requires IsStripped(m) && m != []
    ensures Strip(lead + m + trail) == m
  {
    var s := lead + m + trail;
    assert s == lead + (m + trail) == (lead + m) + trail;
    LeadingOf(lead, m + trail);
    TrailingOf(lead + m, trail);
    assert s[|lead|..|lead| + |m|] == m;
  }

  /** Blanks added around a text do not change what `strip` returns. */
  lemma StripPadded(lead: string, p: string, trail: string)
    requires AllSpace(lead) && AllSpace(trail)
    ensures Strip(lead + p + trail) == Strip(p)
  {
    if AllSpace(p) {
      assert AllSpace(lead + p + trail) by {
        AllSpaceAppend(lead, p);
        AllSpaceAppend(lead + p, trail);
      }
    } else {
      var l, m, t := StripParts(p);
      AllSpaceAppend(lead, l);
      AllSpaceAppend(t, trail);
      Regroup(lead, l, m, t, trail);
      StripSurrounded(lead + l, m, t + trail);
    }
  }

  /** A text that is not all blank is its leading blanks, its stripped form and its trailing blanks. */
  lemma StripParts(p: string) returns (l: string, m: string, t: string)
    requires !AllSpace(p)
    ensures p == l + m + t && m == Strip(p)
    ensures AllSpace(l) && AllSpace(t) && IsStripped(m) && m != []
  {
    var i, j := LeadingBlanks(p), TrailingStart(p);
    l, m, t := p[..i], p[i..j], p[j..];
    assert p == l + m + t;
  }

  lemma Regroup<T>(a: seq<T>, x: seq<T>, y: seq<T>, z: seq<T>, b: seq<T>)
    ensures a + (x + y + z) + b == (a + x) + y + (z + b)
  {
  }

  lemma AllSpaceAppend(a: string, b: string)
    requires AllSpace(a) && AllSpace(b)
    ensures AllSpace(a + b)
  {
  }

  /** Python `lower()` on one character; only ASCII letters are folded in this model. */
  function LowerChar(c: char): char {
    if 'A' <= c <= 'Z' then (c as int + 32) as char else c
  }

  /** `s.lower()` */
  function Lower(s: string): (r: string)
    ensures |r| == |s|
    ensures forall k :: 0 <= k < |s| ==> r[k] == LowerChar(s[k])
  {
    seq(|s|, k requires 0 <= k < |s| => LowerChar(s[k]))
  }

  lemma LowerIdempotent(s: string)
    ensures Lower(Lower(s)) == Lower(s)
  {
  }

  lemma LowerAppend(a: string, b: string)
    ensures Lower(a + b) == Lower(a) + Lower(b)
  {
  }

  /** Lowering never turns a blank character into a non-blank one or back. */
  lemma LowerKeepsStripped(s: string)
    requires IsStripped(s)
    ensures IsStripped(Lower(s))
  {
  }

  predicate StartsWith(s: string, prefix: string) {
    |prefix| <= |s| && s[..|prefix|] == prefix
  }

  predicate EndsWith(s: string, suffix: string) {
    |suffix| <= |s| && s[|s| - |suffix|..] == suffix
  }

  /** `needle` occurs in `hay` starting at index `i`. */
  predicate OccursAt(hay: string, needle: string, i: int) {
    0 <= i <= |hay| - |needle| && hay[i..i + |needle|] == needle
  }

  /** Python's `needle in hay` for strings. */
  predicate Contains(hay: string, needle: string) {
    exists i | 0 <= i <= |hay| :: OccursAt(hay, needle, i)
  }

  /** A suffix of a string occurs in it. */
  lemma ContainsSuffix(s: string, suffix: string)
    requires EndsWith(s, suffix)
    ensures Contains(s, suffix)
  {
    assert OccursAt(s, suffix, |s| - |suffix|);
  }

  /** `sep.join(parts)` */
  function Join(parts: seq<string>, sep: string): string {
    if |parts| == 0 then ""
    else if |parts| == 1 then parts[0]
    else parts[0] + sep + Join(parts[1..], sep)
  }

  /** `s.split(sep)` for a one-character separator: never empty, and `"".split(",") == [""]`. */
  function Split(s: string, sep: char): (r: seq<string>)
    ensures |r| >= 1
    ensures forall k :: 0 <= k < |r| ==> sep !in r[k]
    ensures Join(r, [sep]) == s
  {
    if |s| == 0 then [""]
    else
      var rest := Split(s[1..], sep);
      if s[0] == sep then
        assert s == [sep] + s[1..];
        [""] + rest
      else
        var r := [[s[0]] + rest[0]] + rest[1..];
        assert r[1..] == rest[1..];
        assert s == [s[0]] + s[1..];
        r
  }

  /** Splitting a joined list gives the list back when no part holds the separator. */
  lemma {:induction false} SplitJoin(parts: seq<string>, sep: char)
    requires |parts| >= 1
    requires forall k :: 0 <= k < |parts| ==> sep !in parts[k]
    ensures Split(Join(parts, [sep]), sep) == parts
  {
    if |parts| == 1 {
      SplitNoSep(parts[0], sep);
    } else {
      var tail := parts[1..];
      SplitJoin(tail, sep);
      SplitPrefix(parts[0], Join(tail, [sep]), sep);
      assert parts == [parts[0]] + tail;
    }
  }

  lemma {:induction false} SplitNoSep(s: string, sep: char)
    requires sep !in s
    ensures Split(s, sep) == [s]
  {
    if |s| > 0 {
      SplitNoSep(s[1..], sep);
      assert s == [s[0]] + s[1..];
    }
  }

  lemma {:induction false} SplitPrefix(a: string, b: string, sep: char)
    requires sep !in a
    ensures Split(a + [sep] + b, sep) == [a] + Split(b, sep)
  {
    if |a| == 0 {
      assert a + [sep] + b == [sep] + b;
      assert (a + [sep] + b)[1..] == b;
    } else {
      var s := a + [sep] + b;
      assert s[0] == a[0] != sep;
      assert s[1..] == a[1..] + [sep] + b;
      SplitPrefix(a[1..], b, sep);
      var rest := Split(s[1..], sep);
      assert rest[0] == a[1..] && rest[1..] == Split(b, sep);
      assert [a[0]] + a[1..] == a;
      assert Split(s, sep) == [[a[0]] + rest[0]] + rest[1..];
    }
  }

  /** A Python slice bound: negative bounds count from the end, all bounds are clamped. */
  function SliceBound(i: int, len: nat): (n: nat)
    ensures n <= len
    ensures 0 <= i <= len ==> n == i
    ensures i < 0 && len + i >= 0 ==> n == len + i
    ensures (i > len ==> n == len) && (len + i < 0 ==> n == 0)
  {
    if i < 0 then (if len + i < 0 then 0 else len + i)
    else if i > len then len
    else i
  }

  /** `s[i:]` */
  function SliceFrom<T>(s: seq<T>, i: int): seq<T> {
    s[SliceBound(i, |s|)..]
  }

  /** `s[:j]` */
  function SliceTo<T>(s: seq<T>, j: int): seq<T> {
    s[..SliceBound(j, |s|)]
  }
}

=== FILE: str_order.dfy ===
/**
 * Python's ordering of `str` values (code point by code point, a proper
 * prefix first) and `sorted`/`list.sort` on lists of strings.
 */
module StrOrder {

  /** Python's `a < b` on strings. */
  predicate LexLess(a: string, b: string) {
    if |b| == 0 then false
    else if |a| == 0 then true
    else if a[0] != b[0] then a[0] < b[0]
    else LexLess(a[1..], b[1..])
  }

  lemma {:induction false} LexLessIrreflexive(a: string)
    ensures !LexLess(a, a)
  {
    if |a| > 0 {
      LexLessIrreflexive(a[1..]);
    }
  }

  lemma {:induction false} LexLessTransitive(a: string, b: string, c: string)
    requires LexLess(a, b) && LexLess(b, c)
    ensures LexLess(a, c)
  {
    if |a| > 0 && a[0] == b[0] && b[0] == c[0] {
      LexLessTransitive(a[1..], b[1..], c[1..]);
    }
  }

  /** Two different strings are always ordered one way or the other. */
  lemma {:induction false} LexLessTotal(a: string, b: string)
    requires a != b
    ensures LexLess(a, b) || LexLess(b, a)
  {
    if |a| > 0 && |b| > 0 && a[0] == b[0] {
      assert a == [a[0]] + a[1..] && b == [b[0]] + b[1..];
      LexLessTotal(a[1..], b[1..]);
    }
  }

  /** Neither string below the other means they are equal. */
  lemma LexLessTotalEq(a: string, b: string)
    requires !LexLess(a, b) && !LexLess(b, a)
    ensures a == b
  {
    if a != b {
      LexLessTotal(a, b);
    }
  }

  lemma {:induction false} LexLessAsymmetric(a: string, b: string)
    requires LexLess(a, b)
    ensures !LexLess(b, a)
  {
    if |a| > 0 && a[0] == b[0] {
      LexLessAsymmetric(a[1..], b[1..]);
    }
  }

  /** When two strings share a prefix of equal length, their order is decided by what follows. */
  lemma {:induction false} LexLessCommonPrefix(p: string, a: string, b: string)
    ensures LexLess(p + a, p + b) <==> LexLess(a, b)
  {
    if |p| > 0 {
      assert (p + a)[1..] == p[1..] + a;
      assert (p + b)[1..] == p[1..] + b;
      LexLessCommonPrefix(p[1..], a, b);
    } else {
      assert p + a == a && p + b == b;
    }
  }

  /** Strings of equal length that differ in their first `|x|` characters are ordered by those. */
  lemma {:induction false} LexLessConcat(x: string, a: string, y: string, b: string)
    requires |x| == |y| && x != y
    ensures LexLess(x + a, y + b) <==> LexLess(x, y)
  {
    assert |x| > 0;
    if x[0] == y[0] {
      assert (x + a)[1..] == x[1..] + a;
      assert (y + b)[1..] == y[1..] + b;
      assert x == [x[0]] + x[1..] && y == [y[0]] + y[1..];
      LexLessConcat(x[1..], a, y[1..], b);
    }
  }

  /** `s` is in ascending order (Python `<=` on strings). */
  predicate Sorted(s: seq<string>) {
    forall i, j :: 0 <= i < j < |s| ==> !LexLess(s[j], s[i])
  }

  /** Inserts `x` in front of the first element that is not smaller than it. */
  function Insert(s: seq<string>, x: string): (r: seq<string>)
    requires Sorted(s)
    ensures Sorted(r)
    ensures multiset(r) == multiset(s) + multiset{x}
  {
    if |s| == 0 then [x]
    else if !LexLess(s[0], x) then
      InsertFront(s, x);
      [x] + s
    else
      var rest := Insert(s[1..], x);
      assert s == [s[0]] + s[1..];
      assert forall k :: 0 <= k < |rest| ==> rest[k] in multiset(s[1..]) + multiset{x};
      HeadBelowRest(s, x, rest);
      [s[0]] + rest
  }

  lemma InsertFront(s: seq<string>, x: string)
    requires Sorted(s) && |s| > 0 && !LexLess(s[0], x)
    ensures Sorted([x] + s)
  {
    forall j | 1 <= j < |s| + 1
      ensures !LexLess(([x] + s)[j], x)
    {
      if LexLess(s[j - 1], x) {
        if s[0] == x {
          assert LexLess(s[j - 1], s[0]);
        } else {
          LexLessTotal(s[0], x);
          LexLessTransitive(s[j - 1], x, s[0]);
        }
      }
    }
  }

  lemma HeadBelowRest(s: seq<string>, x: string, rest: seq<string>)
    requires Sorted(s) && |s| > 0 && LexLess(s[0], x) && Sorted(rest)
    requires forall k :: 0 <= k < |rest| ==> rest[k] in multiset(s[1..]) + multiset{x}
    ensures Sorted([s[0]] + rest)
  {
    forall k | 0 <= k < |rest|
      ensures !LexLess(rest[k], s[0])
    {
      if rest[k] == x {
        LexLessAsymmetric(s[0], x);
      } else {
        assert rest[k] in s[1..];
        var m :| 0 <= m < |s[1..]| && s[1..][m] == rest[k];
        assert s[m + 1] == rest[k];
      }
    }
  }

  /** `sorted(s)`: the elements of `s`, each as often as in `s`, in ascending order. */
  function Sort(s: seq<string>): (r: seq<string>)
    ensures Sorted(r)
    ensures multiset(r) == multiset(s)
    ensures |r| == |s|
  {
    if |s| == 0 then []
    else
      assert s == s[..|s| - 1] + [s[|s| - 1]];
      var r := Insert(Sort(s[..|s| - 1]), s[|s| - 1]);
      assert |r| == |multiset(r)| == |multiset(s)| == |s|;
      r
  }

  lemma SortedHeadIsLeast(s: seq<string>, x: string)
    requires Sorted(s) && x in multiset(s)
    ensures |s| > 0 && !LexLess(x, s[0])
  {
    var i :| 0 <= i < |s| && s[i] == x;
    if i > 0 {
      assert !LexLess(s[i], s[0]);
    } else {
      LexLessIrreflexive(x);
    }
  }

  /** There is only one ascending arrangement of a multiset of strings, so `Sort` is fully determined. */
  lemma {:induction false} SortedUnique(a: seq<string>, b: seq<string>)
    requires Sorted(a) && Sorted(b) && multiset(a) == multiset(b)
    ensures a == b
  {
    if |a| == 0 {
      assert |b| == |multiset(b)| == 0;
    } else {
      assert |b| == |multiset(b)| == |a|;
      SortedHeadIsLeast(b, a[0]);
      SortedHeadIsLeast(a, b[0]);
      LexLessTotalEq(a[0], b[0]);
      assert a[0] == b[0];
      assert a == [a[0]] + a[1..] && b == [b[0]] + b[1..];
      assert multiset(a) == multiset{a[0]} + multiset(a[1..]);
      assert multiset(b) == multiset{b[0]} + multiset(b[1..]);
      assert multiset(a[1..]) == multiset(a) - multiset{a[0]};
      assert multiset(b[1..]) == multiset(b) - multiset{b[0]};
      SortedUnique(a[1..], b[1..]);
    }
  }

  /** Sorting an already sorted list changes nothing. */
  lemma SortSorted(s: seq<string>)
    requires Sorted(s)
    ensures Sort(s) == s
  {
    SortedUnique(Sort(s), s);
  }
}

=== FILE: wrappers.dfy ===
/** The optional-value type used wherever the program returns `None`. */
module Wrappers {

  datatype Option<+T> = None | Some(value: T) {

    /** Returns the value held by Some, or `default` for None. */
    function GetOr(default: T): T {
      match this
      case Some(v) => v
      case None => default
    }
  }
}
